=== FILE: README.md ===
# Tegra SD/MMC host controller driver: register-word model

A Dafny model of the register-word logic of the Tegra SD/MMC host controller
driver (`Drivers/SdMmcDxe/Library/sdmmc_driver.c`), with proofs of what each
routine promises.

## What is modelled

- **The controller instance** (`sdmmc_t`) is the immutable record
  `Controller.Sdmmc`. It holds two things:
  - the register block `Controller.Regs`, one bit-vector field per register
    the driver touches, each sized as the driver's literal masks imply;
  - the driver's bookkeeping: `divisor`, `sd_clock_enabled`, `no_sd`,
    `clock_stopped`, `expected_rsp_type`, `rsp[4]`, `rsp3`,
    `venclkctl_tap`/`_set` and `dma_addr_next`.

  Every driver routine is a pure transformer of that record, or of the one
  register it writes.
- **Header constants.** The `TEGRA_MMC_*` bit masks live in a header that is
  not part of this model. They are written as literals: the encodings of
  section 2.2 of the SD Host Controller Simplified Specification, version
  3.00, listed in `header.dfy`. The enumerations (`SDMMC_k`, `SDMMC_POWER_*`,
  `SDMMC_BUS_WIDTH_*`, `SDMMC_RSP_TYPE_*`) are small integers.
- **Hardware polls** are oracle parameters. Each bounded busy-wait is a
  `Poll` outcome (`Ready` or `TimedOut`). A wait on an interrupt status takes
  the sequence of status values it would read; running out of values is the
  deadline passing.
- **Register writes** are the stored value only. For a routine that writes
  one register several times, the model states the composition of those
  writes.

Modules follow the driver's structure:

| module | what it covers |
|---|---|
| `Header` | enumerations and the encodings of section 2.2 of the SD Host Controller Simplified Specification |
| `Controller` | the instance, the SD clock gate, `_sdmmc_reset` and the present-state waits |
| `Power` | voltage and bus width |
| `Clock` | tap capture, vendor clock select, UHS bits, the divider, `sdmmc_setup_clock` and the gate bookkeeping |
| `Calibration` | auto-calibration, the internal clock start-up, tuning |
| `Response` | `_sdmmc_cache_rsp` and `sdmmc_get_rsp` |
| `Command` | `_sdmmc_parse_cmdbuf`, `_sdmmc_parse_cmd_48`, `_sdmmc_setup_read_small_block` |
| `Interrupts` | interrupt enables, `_sdmmc_check_mask_interrupt`, `_sdmmc_wait_request` |
| `Dma` | `_sdmmc_config_dma`, `_sdmmc_update_dma` |
| `Lifecycle` | `sdmmc_init`, `sdmmc_end` |
| `Transaction` | `_sdmmc_execute_cmd_inner`, `sdmmc_execute_cmd`, `sdmmc_stop_transmission` |

Where the driver's behaviour and its documented intent differ, the model
follows the driver:

- A set/get round trip of 3.3V does not give back 3.3V. See Findings.
- A type-4 clock set-up without a captured tap is not an error.
  `_sdmmc_config_ven_ceata_clk` still writes the CE-ATA field and register
  1C0h before it returns 0, and `sdmmc_setup_clock` discards that verdict.
- Not every failed wait resets the lines:
  - the type-4 waits and the auto-calibration timeout do not reset;
  - the outcome of the DMA loop inside a transaction does not enter the
    transaction's verdict.

## Model

| member | source | states |
|---|---|---|
| Controller.BaseAddress | Drivers/SdMmcDxe/Library/sdmmc_driver.c:46-51 | Controller k's register block is at 0x700B0000 + 0x200·k. |
| Controller.SetGate | Drivers/SdMmcDxe/Library/sdmmc_driver.c:277-281 | After the write the SD clock enable reads as requested, and every other Clock Control bit is unchanged. |
| Controller.PulseGate | Drivers/SdMmcDxe/Library/sdmmc_driver.c:760-772 | Raising a dropped gate and dropping it again leaves Clock Control exactly as it was. |
| Controller.PauseGate | Drivers/SdMmcDxe/Library/sdmmc_driver.c:637-670 | Dropping a raised gate and raising it again leaves Clock Control exactly as it was. |
| Controller.SetClock | Drivers/SdMmcDxe/Library/sdmmc_driver.c:277-281 | The clock is gated as requested, and no other register or bit changes. |
| Controller.Reset | Drivers/SdMmcDxe/Library/sdmmc_driver.c:377-385 | A reset of both the command and the data line is requested; no other Software Reset bit and no other register changes. |
| Controller.WaitPrnsts | Drivers/SdMmcDxe/Library/sdmmc_driver.c:413-426 | The wait succeeds iff the line is ready in time: success changes nothing, and a timeout leaves exactly the reset state. |
| Controller.WaitInhibit | Drivers/SdMmcDxe/Library/sdmmc_driver.c:387-411 | The wait succeeds iff the command line is free and, when data is awaited, the data line is free too. Failure leaves exactly the reset state, and success changes nothing. |
| Power.GetVoltage | Drivers/SdMmcDxe/Library/sdmmc_driver.c:53-63 | The result is one of OFF, 1.8V, 3.3V or the -1 sentinel. It is OFF iff bus power is off; 1.8V iff power is on and bit 1 or bit 3 is set; 3.3V iff power is on, bits 1 and 3 are clear and bit 2 is set; the sentinel iff power is on with no voltage bit set. |
| Power.VoltageSelect | Drivers/SdMmcDxe/Library/sdmmc_driver.c:67 | The select sits in bits 3:1 with bus power and the bits above clear: 101b for 1.8V and 111b for any other level. |
| Power.VoltageWrites | Drivers/SdMmcDxe/Library/sdmmc_driver.c:65-89 | The stores made: none for an unknown level; for OFF, one store that clears only bus power; for a voltage, the bare select first and then the select with bus power. |
| Power.SetVoltage | Drivers/SdMmcDxe/Library/sdmmc_driver.c:65-89 | Succeeds iff the level is OFF, 1.8V or 3.3V. A refusal leaves Power Control unchanged; otherwise the register holds the last value stored. |
| Power.VoltageRejectsUnknown | Drivers/SdMmcDxe/Library/sdmmc_driver.c:69-79 | Any other level returns 0 with no store at all. |
| Power.VoltageOffRoundTrip | Drivers/SdMmcDxe/Library/sdmmc_driver.c:53-89 | OFF clears bus power only, and the result reads back as OFF. |
| Power.Voltage18RoundTrip | Drivers/SdMmcDxe/Library/sdmmc_driver.c:53-89 | 1.8V leaves exactly the 1.8V select plus bus power (0x0B), which reads back as 1.8V. |
| Power.Voltage33ReadsAs18 | Drivers/SdMmcDxe/Library/sdmmc_driver.c:53-89 | 3.3V leaves 0x0F, and the driver's decoder reads that back as 1.8V (see Findings). |
| Power.GetVoltageByField | Drivers/SdMmcDxe/Library/sdmmc_driver.c:53-63 | A decoder that compares the whole voltage field: 1.8V iff the field is 101b, 3.3V iff it is 111b, OFF iff bus power is off. |
| Power.VoltageByFieldRoundTrip | Drivers/SdMmcDxe/Library/sdmmc_driver.c:53-89 | Every accepted level reads back as itself under the field decoder. The driver's decoder agrees on every level except 3.3V. |
| Power.GetBusWidth | Drivers/SdMmcDxe/Library/sdmmc_driver.c:91-99 | 8-bit iff the 8BIT bit is set; 1-bit iff neither width bit is set; 4-bit otherwise. |
| Power.SetBusWidth | Drivers/SdMmcDxe/Library/sdmmc_driver.c:101-112 | Only the 4BIT and 8BIT bits change. 8-bit keeps 4BIT. An unknown width changes nothing. |
| Power.BusWidthRoundTrip | Drivers/SdMmcDxe/Library/sdmmc_driver.c:91-112 | For widths 1, 4 and 8, setting and then getting gives back the width, whatever Host Control 1 held before. |
| Clock.CaptureTap | Drivers/SdMmcDxe/Library/sdmmc_driver.c:114-118 | The captured tap is venclkctl bits 31:16 (so it fits 16 bits), it is marked captured, and nothing else changes. |
| Clock.ProgramTap | Drivers/SdMmcDxe/Library/sdmmc_driver.c:138 | Bits 15:0 are kept and bits 23:16 hold the tap's low byte; the tap's second byte is ORed into bits 31:24. |
| Clock.ProgramCapturedTap | Drivers/SdMmcDxe/Library/sdmmc_driver.c:116-138 | Programming the tap read from a register's bits 31:16 gives back that register. |
| Clock.CeataType4 | Drivers/SdMmcDxe/Library/sdmmc_driver.c:124-125 | The CE-ATA field (bits 13:8) becomes 0x28, and every other bit is kept. |
| Clock.ClearBit17 | Drivers/SdMmcDxe/Library/sdmmc_driver.c:126 | Bit 17 of register 1C0h is cleared, and every other bit is kept. |
| Clock.ConfigVenCeataClk | Drivers/SdMmcDxe/Library/sdmmc_driver.c:120-141 | Fails iff the type is 4 and no tap was captured. Type 4 sets the CE-ATA field and other types leave it alone; bit 17 is always cleared. On success the tap (the captured one for type 4, the controller's table entry otherwise) is programmed, and on failure venclkctl is untouched. Only these three registers change. |
| Clock.TapFor | Drivers/SdMmcDxe/Library/sdmmc_driver.c:127-137 | Type 4 uses the captured tap. Every other type uses the controller's table entry: 4 for SDMMC1, 3 for SDMMC3, 0 for SDMMC2 and SDMMC4. |
| Clock.TapCaptureRoundTrip | Drivers/SdMmcDxe/Library/sdmmc_driver.c:114-141 | Capturing the tap and then configuring type 4 succeeds and leaves venclkctl bit-identical. |
| Clock.UhsHostCtl1 | Drivers/SdMmcDxe/Library/sdmmc_driver.c:207-240 | Types 0, 1, 5 and 6 clear the high-speed enable; types 2 and 7 set it; other types leave Host Control 1 alone. No other bit moves. |
| Clock.HighSpeedKeepsWidth | Drivers/SdMmcDxe/Library/sdmmc_driver.c:207-240 | The UHS write of Host Control 1 leaves the data bus width unchanged for every clock type. |
| Clock.UhsMode | Drivers/SdMmcDxe/Library/sdmmc_driver.c:207-240 | Exactly types 3, 4, 8, 10, 11, 13 and 14 select a UHS mode, and it fits the 3-bit field. |
| Clock.UhsHostCtl2 | Drivers/SdMmcDxe/Library/sdmmc_driver.c:207-240 | A type with a UHS mode leaves that mode in bits 2:0 with 1.8V signalling set and bits 15:4 kept. Types 0, 1, 2, 5, 6 and 7 clear only the 1.8V enable. Any other type leaves Host Control 2 alone. |
| Clock.UhsStepsDisjoint | Drivers/SdMmcDxe/Library/sdmmc_driver.c:207-240 | No clock type both clears 1.8V signalling and selects a UHS mode. |
| Clock.ClockDivisor | Drivers/SdMmcDxe/Library/sdmmc_driver.c:248 | The stored rate: with divisor 1 it is the source rate itself. Its ceiling property is stated by Clock.ClockDivisorIsCeiling. |
| Clock.ClockDivisorIsCeiling | Drivers/SdMmcDxe/Library/sdmmc_driver.c:248 | When the 32-bit sum does not wrap, the stored rate is ⌈src / d⌉. |
| Clock.ClkconDivider | Drivers/SdMmcDxe/Library/sdmmc_driver.c:252-256 | Bits 5:0 (the gate among them) are kept, and the 10-bit divider field reads back as d >> 1 whenever that fits. |
| Clock.SetupClkcon | Drivers/SdMmcDxe/Library/sdmmc_driver.c:197-260 | With or without the gate drop around the divider write: the gate ends as it began, bits 5:0 are kept, and the divider reads back as d >> 1 when that fits. |
| Clock.RequestCalibration | Drivers/SdMmcDxe/Library/sdmmc_driver.c:166 | Bit 31 of register 1B0h is set, and every other bit is kept. |
| Clock.WaitType4 | Drivers/SdMmcDxe/Library/sdmmc_driver.c:156-193 | Succeeds iff both waits end in time. The calibration is requested. Clock Control is restored, so 1B0h is the only register that changes. |
| Clock.SetupClock | Drivers/SdMmcDxe/Library/sdmmc_driver.c:195-265 | Fails only for type 4 when a type-4 wait times out; a missing tap is not a failure. Only the registers and the stored rate change. |
| Clock.SetupClockKeepsGate | Drivers/SdMmcDxe/Library/sdmmc_driver.c:195-265 | On every path, and for both outcomes of the type-4 waits, the SD clock gate ends as it began. Bits 5:0 of Clock Control are kept, and the divider holds d >> 1 when that fits. |
| Clock.SetupClockSteps | Drivers/SdMmcDxe/Library/sdmmc_driver.c:195-265 | The Host Control 1 and 2 results are those of the UHS step alone. The vendor registers hold what the vendor clock select wrote. Type 4 requests the calibration, and any other type leaves register 1B0h alone. No register other than Host Control 1 and 2, Clock Control, the three vendor registers and 1B0h changes. |
| Clock.EnableGate | Drivers/SdMmcDxe/Library/sdmmc_driver.c:267-275 | The gate ends on iff it was on or the card clock is not suppressed; other bits are kept. |
| Clock.SdClockEnable | Drivers/SdMmcDxe/Library/sdmmc_driver.c:267-275 | The clock is logically enabled, and the gate is on iff it was on or the card clock is not suppressed. Nothing else changes. |
| Clock.SdClockDisable | Drivers/SdMmcDxe/Library/sdmmc_driver.c:277-281 | The clock is logically disabled and the gate is off; nothing else changes. |
| Clock.CtrlGate | Drivers/SdMmcDxe/Library/sdmmc_driver.c:283-296 | Suppression leaves the gate off. Otherwise the gate ends on iff it was on or the clock is logically enabled. Other bits are kept. |
| Clock.SdClockCtrl | Drivers/SdMmcDxe/Library/sdmmc_driver.c:283-296 | Records the policy. A suppressed clock is gated off; otherwise the gate is on iff it was on or the clock is enabled. Nothing else changes. |
| Clock.GateOperationsKeepConsistency | Drivers/SdMmcDxe/Library/sdmmc_driver.c:267-296 | The invariant "gate on iff logically enabled and not suppressed" is kept by enable, ctrl and disable. Disabling establishes it from any state, and so does enabling without suppression. |
| Calibration.AutocalOffsets | Drivers/SdMmcDxe/Library/sdmmc_driver.c:600-630 | An offset pair exists iff the level is 1.8V, or the level is 3.3V on SDMMC1 or SDMMC3. Both offsets fit 7 bits. |
| Calibration.WriteOffsets | Drivers/SdMmcDxe/Library/sdmmc_driver.c:631 | The offset fields read back as the pair written, and every other bit (bit 7 included) is kept. |
| Calibration.WriteOffsetsIdempotent | Drivers/SdMmcDxe/Library/sdmmc_driver.c:631 | Writing the offsets a value already holds leaves it unchanged. |
| Calibration.AutocalConfigOffset | Drivers/SdMmcDxe/Library/sdmmc_driver.c:600-633 | Succeeds iff the (controller, voltage) pair has offsets. A refusal writes nothing; success writes only the auto-calibration configuration. |
| Calibration.AutocalOffsetsProgrammed | Drivers/SdMmcDxe/Library/sdmmc_driver.c:600-633 | On success bits 14:8 hold the pull-down offset and bits 6:0 the pull-up offset from the table. No other bit moves. |
| Calibration.ComparatorCycle | Drivers/SdMmcDxe/Library/sdmmc_driver.c:644-667 | The pad comparator ends off, and every other bit is kept. |
| Calibration.StartCalibration | Drivers/SdMmcDxe/Library/sdmmc_driver.c:651-664 | Bit 31 is set. The enable, bit 29, survives iff the calibration finished in time. Every other bit is kept. |
| Calibration.AutocalExecute | Drivers/SdMmcDxe/Library/sdmmc_driver.c:635-671 | Clock Control ends as it began and the comparator ends off; the calibration is started as above. Only those two registers change. |
| Calibration.InternalClkcon | Drivers/SdMmcDxe/Library/sdmmc_driver.c:576-587 | The internal clock enable is set. Once the clock is stable the generator select is cleared too. No other bit changes. |
| Calibration.InternalClockKeepsGate | Drivers/SdMmcDxe/Library/sdmmc_driver.c:574-598 | The internal clock start-up leaves the SD clock gate as it was. |
| Calibration.InternalHostCtl2 | Drivers/SdMmcDxe/Library/sdmmc_driver.c:586-592 | Bit 15 is cleared and bit 12 set. Bit 13 ends set iff the capability allows it or it was already set. Bits 14 and 11:0 are kept. |
| Calibration.SelectSdma | Drivers/SdMmcDxe/Library/sdmmc_driver.c:594 | The DMA select (bits 4:3) is cleared, and every other bit is kept. |
| Calibration.SetLongestTimeout | Drivers/SdMmcDxe/Library/sdmmc_driver.c:595 | The data timeout counter (bits 3:0) becomes 0xE, and bits 7:4 are kept. |
| Calibration.EnableInternalClock | Drivers/SdMmcDxe/Library/sdmmc_driver.c:574-598 | Succeeds iff the clock becomes stable in time and capability bit 28 is set. Clock Control is started as above. Only Clock Control, Host Control 1 and 2, and Timeout Control change. |
| Calibration.InternalClockTimeout | Drivers/SdMmcDxe/Library/sdmmc_driver.c:577-584 | A start-up that times out writes Clock Control only. |
| Calibration.InternalClockConfigures | Drivers/SdMmcDxe/Library/sdmmc_driver.c:574-598 | A stable clock leaves Host Control 2 configured as above. Success also selects SDMA and the longest data timeout. |
| Calibration.TuningFor | Drivers/SdMmcDxe/Library/sdmmc_driver.c:539-555 | Exactly types 3, 4, 10, 11, 13 and 14 tune. The round cap is between 1 and 256, and the flag lies within bits 15:13. |
| Calibration.PrepareTuning | Drivers/SdMmcDxe/Library/sdmmc_driver.c:557-559 | Register 1C0h gets the flag in bits 15:13, 1 in bits 12:6 and bit 17 set; every other bit is kept. |
| Calibration.RoundsRun | Drivers/SdMmcDxe/Library/sdmmc_driver.c:562-567 | The loop runs at most the cap, and at least one round when the cap is positive. |
| Calibration.RoundsRunStops | Drivers/SdMmcDxe/Library/sdmmc_driver.c:562-567 | The round count is where the loop stops: every earlier round showed tuning running, and an early stop saw it finished. |
| Calibration.StopsAfterUnique | Drivers/SdMmcDxe/Library/sdmmc_driver.c:562-567 | The stopping point is unique. |
| Calibration.ArmReadReady | Drivers/SdMmcDxe/Library/sdmmc_driver.c:505 | Buffer read ready becomes enabled; no other enable bit moves. |
| Calibration.DisarmReadReady | Drivers/SdMmcDxe/Library/sdmmc_driver.c:521-528 | Buffer read ready becomes disabled; no other enable bit moves. |
| Calibration.GateCycle | Drivers/SdMmcDxe/Library/sdmmc_driver.c:507-512 | Dropping the SD clock gate and raising it again leaves it on, with every other Clock Control bit as it was. |
| Calibration.IssueTuningBlock | Drivers/SdMmcDxe/Library/sdmmc_driver.c:504-512 | The gate ends on and the lines reset, with no other Clock Control or Software Reset bit moved. Buffer read ready is enabled. The tuning command is issued with argument 0 and data present. On a 4-bit or 8-bit bus the block is one block of 16 bytes per data line; on a 1-bit bus the block registers are kept. Only the registers a round writes change. |
| Calibration.TuningRound | Drivers/SdMmcDxe/Library/sdmmc_driver.c:497-530 | Succeeds iff the card clock runs, both lines are free and buffer read ready comes. A suppressed card clock writes nothing, and a busy line leaves exactly the reset state. Once the lines are free: the gate ends on, the lines reset, buffer read ready is disabled again with the other enables kept, and the tuning command is issued; success writes the status bit back. Only the registers a round writes change. |
| Calibration.RunRounds | Drivers/SdMmcDxe/Library/sdmmc_driver.c:562-567 | After n rounds Host Control 2 holds the n-th value shown. Only Host Control 2 and the registers a round writes change, and only Host Control 2 when the card clock is suppressed. |
| Calibration.RunTuning | Drivers/SdMmcDxe/Library/sdmmc_driver.c:562-567 | The loop stops exactly where the round count says it does. |
| Calibration.ConfigTuning | Drivers/SdMmcDxe/Library/sdmmc_driver.c:534-572 | Register 1C4h is cleared for every type, and a type without tuning fails with nothing else written. Otherwise the verdict is the sampling clock select of the last Host Control 2 value read, Host Control 2 holds that value, and 1C0h is prepared as above. Apart from these, only the registers a tuning round writes change, and none of them when the card clock is suppressed. |
| Response.Deshift | Drivers/SdMmcDxe/Library/sdmmc_driver.c:313-336 | Read as 16 bytes, the result is the registers' bytes moved up one byte with a zero byte entering at the bottom: the 128-bit value shifted left by 8. |
| Response.DeshiftExample | Drivers/SdMmcDxe/Library/sdmmc_driver.c:313-337 | AABBCCDD, 11223344, 55667788, 99AABBCC de-shift to BBCCDD11, 22334455, 66778899, AABBCC00. |
| Response.CacheRsp | Drivers/SdMmcDxe/Library/sdmmc_driver.c:298-344 | Succeeds iff the type is 48-bit with at least 4 bytes, or type 2 with at least 16. A failure leaves the buffer alone. A 48-bit type changes word 0 only, to rspreg0; type 2 gives the de-shifted response. |
| Response.GetRsp | Drivers/SdMmcDxe/Library/sdmmc_driver.c:346-375 | Copies iff the buffer is present, the type is the one cached, and the size suffices for the type. It copies exactly the first cached word for a 48-bit type and all four for type 2. |
| Response.CacheThenGet | Drivers/SdMmcDxe/Library/sdmmc_driver.c:298-375 | Caching under a type and then reading that type hands back rspreg0 (48-bit types) or the de-shifted words (type 2). |
| Response.NothingCachedNothingRead | Drivers/SdMmcDxe/Library/sdmmc_driver.c:346-349 | With expected type 0, as after the zeroing in `sdmmc_init`, no read succeeds. |
| Command.EncodeCmdreg | Drivers/SdMmcDxe/Library/sdmmc_driver.c:479-483 | Data present is set whenever there is data. When the flags fit bits 4:0, those bits hold the flags, data present is set iff there is data, and the index field holds the opcode's low byte. |
| Command.CmdFlags | Drivers/SdMmcDxe/Library/sdmmc_driver.c:451-477 | Flags exist iff the response type is at most 5. |
| Command.CmdregFields | Drivers/SdMmcDxe/Library/sdmmc_driver.c:447-485 | The Command register decodes to the opcode's index, the length the type needs (48-busy iff busy is checked for types 1, 4 and 5), CRC check for types 1, 2, 4 and 5, index check for types 1, 4 and 5, and data present iff there is data. |
| Command.ParseCmdbuf | Drivers/SdMmcDxe/Library/sdmmc_driver.c:447-485 | Succeeds iff the type is at most 5. A refusal writes neither register; success writes the argument and the Command register only. |
| Command.ParseCmdbufEncodes | Drivers/SdMmcDxe/Library/sdmmc_driver.c:447-485 | After an accepted command the argument and Command registers hold that command, decoded as above. |
| Command.ParseCmd48 | Drivers/SdMmcDxe/Library/sdmmc_driver.c:487-495 | The tuning command is issued with argument 0, a 48-bit response, CRC and index checks, and data present. |
| Command.SetupReadSmallBlock | Drivers/SdMmcDxe/Library/sdmmc_driver.c:428-445 | Fails iff the bus is 1-bit, and then writes nothing. Otherwise only Block Size, Block Count (set to 1) and Transfer Mode change. |
| Command.SmallBlockShape | Drivers/SdMmcDxe/Library/sdmmc_driver.c:428-445 | The tuning block is 16 bytes per data line, read as one block with no DMA, block count or Auto CMD12. |
| Interrupts.ArmNormal | Drivers/SdMmcDxe/Library/sdmmc_driver.c:675 | Command complete, transfer complete and DMA are enabled, and the other bits are kept. |
| Interrupts.DisarmNormal | Drivers/SdMmcDxe/Library/sdmmc_driver.c:684 | The same three bits are disabled, and the other bits are kept. |
| Interrupts.ArmErrors | Drivers/SdMmcDxe/Library/sdmmc_driver.c:676 | Error bits 8 and 6:0 are enabled, and the other bits are kept. |
| Interrupts.DisarmErrors | Drivers/SdMmcDxe/Library/sdmmc_driver.c:683 | The same error bits are disabled, and the other bits are kept. |
| Interrupts.EnableInterrupts | Drivers/SdMmcDxe/Library/sdmmc_driver.c:673-679 | The polled interrupts are armed, and only the two enable registers change. |
| Interrupts.MaskInterrupts | Drivers/SdMmcDxe/Library/sdmmc_driver.c:681-685 | The polled interrupts are disarmed, and only the two enable registers change. |
| Interrupts.MaskUndoesEnable | Drivers/SdMmcDxe/Library/sdmmc_driver.c:673-685 | Masking clears exactly the bits enabling sets: enable-then-mask equals mask alone. |
| Interrupts.Classify | Drivers/SdMmcDxe/Library/sdmmc_driver.c:687-710 | ERROR iff the error bit is set. MASKED iff there is no error and some masked bit is set. |
| Interrupts.StatusAfter | Drivers/SdMmcDxe/Library/sdmmc_driver.c:687-710 | A hit writes back the masked bits of the value read; anything else leaves the status as read. |
| Interrupts.WriteBackOnlyMasked | Drivers/SdMmcDxe/Library/sdmmc_driver.c:703-706 | On a hit the value written holds the masked bits read and nothing outside the mask. |
| Interrupts.CheckMaskInterrupt | Drivers/SdMmcDxe/Library/sdmmc_driver.c:687-710 | Hands out the status read and its classification. Only Normal Interrupt Status changes, as described above. |
| Interrupts.PollCommand | Drivers/SdMmcDxe/Library/sdmmc_driver.c:716-727 | A successful poll leaves exactly the command complete bit written back. |
| Interrupts.PollCommandSucceeds | Drivers/SdMmcDxe/Library/sdmmc_driver.c:712-730 | The poll succeeds iff some status shows command complete and every earlier one shows neither completion nor an error. |
| Interrupts.WaitRequest | Drivers/SdMmcDxe/Library/sdmmc_driver.c:712-730 | Succeeds iff command complete is seen first. Success leaves only command complete written back; failure requests the reset. Only status and Software Reset change. |
| Dma.NextBoundary | Drivers/SdMmcDxe/Library/sdmmc_driver.c:790 | The result is 512 KiB aligned and is the least aligned address above the buffer, or 0 when none fits in 32 bits. |
| Dma.NextStep | Drivers/SdMmcDxe/Library/sdmmc_driver.c:841 | The boundary after an aligned boundary is aligned. |
| Dma.BlockCount | Drivers/SdMmcDxe/Library/sdmmc_driver.c:782-783 | The count never exceeds the sector count, and falls short of it only when capped at 0xFFFF. |
| Dma.TrnmodFor | Drivers/SdMmcDxe/Library/sdmmc_driver.c:797-813 | Transfer Mode decodes to: DMA always; block count and multi-block iff multi-block; read iff not a write; Auto CMD12 iff asked. No higher bit is set. |
| Dma.TrnmodForDistinguishes | Drivers/SdMmcDxe/Library/sdmmc_driver.c:797-813 | Two requests get the same Transfer Mode value iff they agree on direction, multi-block and Auto CMD12. |
| Dma.ConfigDma | Drivers/SdMmcDxe/Library/sdmmc_driver.c:777-816 | Succeeds iff block size and sector count are non-zero. A refusal writes nothing. Success writes only the System Address (the buffer), Block Size, Block Count, Transfer Mode and the remembered boundary. |
| Dma.ConfigDmaBoundary | Drivers/SdMmcDxe/Library/sdmmc_driver.c:784-790 | The remembered boundary is aligned and is the first boundary above the buffer. |
| Dma.ConfigDmaProgrammed | Drivers/SdMmcDxe/Library/sdmmc_driver.c:777-816 | The block registers describe the request: the size with the 512 KiB boundary, the capped count, and the decoded transfer mode above. |
| Dma.DmaEventOf | Drivers/SdMmcDxe/Library/sdmmc_driver.c:828-843 | Done iff transfer complete without error. A failure is an error. A boundary or idle status shows neither completion nor an error. |
| Dma.PollDma | Drivers/SdMmcDxe/Library/sdmmc_driver.c:826-851 | The boundary chain invariant (aligned boundaries, each one 512 KiB after the last) is preserved. |
| Dma.PollDmaSucceeds | Drivers/SdMmcDxe/Library/sdmmc_driver.c:826-851 | The loop succeeds iff some status shows transfer complete and every earlier one shows neither completion nor an error. |
| Dma.ResetOnFailure | Drivers/SdMmcDxe/Library/sdmmc_driver.c:844-848 | A failure requests the reset, and only Software Reset changes. |
| Dma.PollDmaSteps | Drivers/SdMmcDxe/Library/sdmmc_driver.c:826-851 | After k boundary interrupts the remembered boundary is k steps past the starting one and the System Address is the step before it; with none, the System Address is unchanged. This holds even when the chain wraps round. |
| Dma.UpdateDma | Drivers/SdMmcDxe/Library/sdmmc_driver.c:818-854 | Succeeds iff the transfer completes first; failure requests the reset. An aligned chain stays chained. Only status, System Address, Software Reset and the remembered boundary change. |
| Dma.UpdateDmaSteps | Drivers/SdMmcDxe/Library/sdmmc_driver.c:818-854 | The System Address steps once per DMA boundary interrupt acted on: after k of them the remembered boundary is k steps on and the address is the step before it. |
| Lifecycle.TrimValue | Drivers/SdMmcDxe/Library/sdmmc_driver.c:1001 | The trim fits its 5-bit field. |
| Lifecycle.ProgramTrim | Drivers/SdMmcDxe/Library/sdmmc_driver.c:1002 | Bits 28:24 hold the trim, and every other bit is kept. |
| Lifecycle.PreparePads | Drivers/SdMmcDxe/Library/sdmmc_driver.c:1003 | Bits 31:4 are cleared and bits 2:0 set; bit 3 is kept. |
| Lifecycle.SetBit19 | Drivers/SdMmcDxe/Library/sdmmc_driver.c:999 | Bit 19 is set, and every other bit is kept. |
| Lifecycle.ClearBit2 | Drivers/SdMmcDxe/Library/sdmmc_driver.c:1000 | Bit 2 is cleared, and every other bit is kept. |
| Lifecycle.Fresh | Drivers/SdMmcDxe/Library/sdmmc_driver.c:979-983 | After the zeroing: the controller's base and id, the clock marked stopped, no response type expected, the clock logically disabled, and no tap captured. |
| Lifecycle.Prepare | Drivers/SdMmcDxe/Library/sdmmc_driver.c:979-1003 | The clock is marked started and no response is expected. Only Clock Control and the four vendor registers differ from the hardware's values. |
| Lifecycle.PrepareWrites | Drivers/SdMmcDxe/Library/sdmmc_driver.c:984-1003 | A running controller has its gate dropped, and an idle one's Clock Control is untouched. The trim and pads are programmed. |
| Lifecycle.Calibrate | Drivers/SdMmcDxe/Library/sdmmc_driver.c:1005-1007 | Succeeds iff the controller and voltage have offsets. Only registers change, and the capabilities stay. |
| Lifecycle.PowerUp | Drivers/SdMmcDxe/Library/sdmmc_driver.c:1008 | Succeeds iff the internal clock becomes stable and capability bit 28 is set. Only registers change. |
| Lifecycle.ConfigureBus | Drivers/SdMmcDxe/Library/sdmmc_driver.c:1010-1011 | Only Host Control 1 and Power Control change. |
| Lifecycle.ConfigureBusWrites | Drivers/SdMmcDxe/Library/sdmmc_driver.c:1010-1011 | Host Control 1 holds what the bus-width write leaves and Power Control what the voltage write leaves. A width of 1, 4 or 8 reads back as itself, and an accepted voltage reads back as itself under the field decoder. |
| Lifecycle.EnableCard | Drivers/SdMmcDxe/Library/sdmmc_driver.c:1014-1015 | The clock is logically enabled under the requested policy, and only Clock Control changes. |
| Lifecycle.ClockUp | Drivers/SdMmcDxe/Library/sdmmc_driver.c:1012 | Fails only for type 4 when a wait times out. Only the registers and the rate change. |
| Lifecycle.Start | Drivers/SdMmcDxe/Library/sdmmc_driver.c:1008-1021 | Fails only for type 4 when a wait times out. Identity, stopped mark and expected type are kept. |
| Lifecycle.ClockUpKeepsBus | Drivers/SdMmcDxe/Library/sdmmc_driver.c:1012 | The clock set-up leaves Power Control and the data bus width as they were. |
| Lifecycle.StartEndsWithClockUp | Drivers/SdMmcDxe/Library/sdmmc_driver.c:1012-1017 | After the clock set-up, the rest of the start writes only Clock Control. |
| Lifecycle.StartConfiguresBus | Drivers/SdMmcDxe/Library/sdmmc_driver.c:1010-1017 | Whatever the outcome, the start leaves Power Control as the voltage write left it, and a width of 1, 4 or 8 in place. |
| Lifecycle.StartEstablishes | Drivers/SdMmcDxe/Library/sdmmc_driver.c:1012-1017 | A successful start leaves the clock logically enabled under the policy, with the gate consistent. |
| Lifecycle.Init | Drivers/SdMmcDxe/Library/sdmmc_driver.c:970-1022 | An id above SDMMC4, or a failed SDMMC1 pad set-up, is refused with the instance untouched. |
| Lifecycle.InitVerdict | Drivers/SdMmcDxe/Library/sdmmc_driver.c:970-1022 | Initialisation succeeds iff every step does: a valid id, the SDMMC1 set-up, calibration offsets, a stable internal clock, capability bit 28, and the type-4 waits. |
| Lifecycle.InitEstablishes | Drivers/SdMmcDxe/Library/sdmmc_driver.c:970-1022 | After success: the right base, the clock enabled and running, the gate consistent, and no response readable. |
| Lifecycle.InitConfiguresBus | Drivers/SdMmcDxe/Library/sdmmc_driver.c:970-1022 | After success the voltage is 1.8V or 3.3V, and Power Control holds that select with bus power, whatever it held before; it reads back as that voltage under the field decoder. A width of 1, 4 or 8 reads back as requested. |
| Lifecycle.End | Drivers/SdMmcDxe/Library/sdmmc_driver.c:1024-1033 | The controller ends stopped. A stopped one is untouched; a running one is logically disabled. Only Clock Control and Power Control change. |
| Lifecycle.EndStops | Drivers/SdMmcDxe/Library/sdmmc_driver.c:1024-1033 | A running controller ends gated off with bus power off, and ending twice is ending once. |
| Transaction.ProgrammedCount | Drivers/SdMmcDxe/Library/sdmmc_driver.c:862-899 | A valid request hands back its non-zero capped count; a refused one hands back 0. |
| Transaction.AwaitLines | Drivers/SdMmcDxe/Library/sdmmc_driver.c:858-860 | Succeeds iff the lines are free in time. Success keeps Software Reset; failure leaves exactly the reset value. |
| Transaction.SetupData | Drivers/SdMmcDxe/Library/sdmmc_driver.c:862-869 | An accepted request programs the block registers, address and boundary. A refused or absent one leaves them. |
| Transaction.WriteCommand | Drivers/SdMmcDxe/Library/sdmmc_driver.c:876 | An accepted type leaves the command encoded; any other leaves both registers. |
| Transaction.AwaitCommand | Drivers/SdMmcDxe/Library/sdmmc_driver.c:878 | Done iff command complete is seen first. Success keeps Software Reset; failure requests the reset. |
| Transaction.CacheResponse | Drivers/SdMmcDxe/Library/sdmmc_driver.c:881-887 | A type other than 0 becomes the expected type and has its response cached; type 0 changes neither. |
| Transaction.ProgressData | Drivers/SdMmcDxe/Library/sdmmc_driver.c:888-889 | With a request, a transfer that does not complete requests the reset. Without a request nothing changes. |
| Transaction.AwaitDat0 | Drivers/SdMmcDxe/Library/sdmmc_driver.c:904-905 | Succeeds iff DAT0 is released in time. Success keeps Software Reset; failure requests the reset. |
| Transaction.ExecuteCmdInner | Drivers/SdMmcDxe/Library/sdmmc_driver.c:856-909 | See below the table. |
| Transaction.GateRestored | Drivers/SdMmcDxe/Library/sdmmc_driver.c:1068-1080 | Raising a dropped gate and dropping it again restores Clock Control. |
| Transaction.ClockedInner | Drivers/SdMmcDxe/Library/sdmmc_driver.c:1067-1082 | Inside the clock bracket the inner transaction's promises carry over, including its frame on the registers no transaction writes, and Clock Control is restored. |
| Transaction.Recalibrate | Drivers/SdMmcDxe/Library/sdmmc_driver.c:1064-1066 | The calibration is started and the comparator ends off. |
| Transaction.ExecuteCmd | Drivers/SdMmcDxe/Library/sdmmc_driver.c:1059-1083 | See below the table. |
| Transaction.StopTransmissionInner | Drivers/SdMmcDxe/Library/sdmmc_driver.c:732-753 | See below the table. |
| Transaction.StopTransmission | Drivers/SdMmcDxe/Library/sdmmc_driver.c:755-775 | See below the table. |

**Transaction.ExecuteCmdInner.**
- It succeeds iff three things happen in time:
  - the lines are free (the data line only for a data or busy command);
  - command complete is seen;
  - for data or busy, DAT0 is released.
- Every failure requests the reset. Busy lines fail with only the reset.
- The block count is handed back iff the command completed with a request,
  and its value is the programmed count.
- Once the lines are free:
  - the interrupts end disarmed;
  - an accepted command is in the registers;
  - an accepted request is programmed.
- The response cache, the expected type and rsp3 change exactly when the
  command completed (with a response, or with Auto CMD12).
- A request the DMA set-up refuses, like no request, leaves Block Size,
  Block Count and Transfer Mode untouched.
- The clock, bus, power and pad registers are untouched. So are the
  registers no transaction writes: the vendor clock (with its tap), CE-ATA,
  calibration and tuning registers (1ACh, 1B0h, 1BCh, 1C0h, 1C4h, 1F0h),
  Timeout Control, the capabilities, Present State, the four response
  registers and Error Interrupt Status.

**Transaction.ExecuteCmd.**
- A clock that is not logically enabled fails with nothing written.
- Otherwise the inner transaction's promises hold: its verdict, the reset on
  failure, the block count, the disarmed interrupts, the command and block
  registers, and the response cache.
- SDMMC1 with a suppressed clock recalibrates first: the calibration is
  started and the comparator ends off. Otherwise neither register changes.
- Response word 3 is refreshed from rspreg3 only when the clock is enabled,
  the lines are free, the command completes and the request asks for Auto
  CMD12; otherwise the cached word 3 is kept.
- Without a data request the Block Size, Block Count, Transfer Mode and ADMA
  address registers and the remembered DMA boundary are untouched.
- A request the DMA set-up refuses leaves Block Size, Block Count and
  Transfer Mode untouched.
- Clock Control, Host Control 1 and 2, and Power Control end as they began,
  and so do the registers no transaction writes (as for ExecuteCmdInner).

**Transaction.StopTransmissionInner.**
- It succeeds iff three things happen in time: the command line is free,
  command complete is seen, and DAT0 is released.
- A completed CMD12 hands back rspreg0.
- CMD12 with busy is encoded, and the interrupts end disarmed.
- Every failure requests the reset.
- The cache and bookkeeping are untouched.
- Only the argument, Command, interrupt status and enable, and Software
  Reset registers are written: the clock, bus, power, pad, block, System
  Address, vendor, timeout, capability, Present State, response and Error
  Interrupt Status registers keep their values.

**Transaction.StopTransmission.**
- A clock that is not logically enabled fails with nothing written.
- Otherwise it has the inner verdict and response, and Clock Control is
  restored.
- Clock Control, Host Control 1 and 2, Power Control and the two calibration
  registers end as they began, and so do the block, System Address, vendor,
  timeout, capability, Present State, response and Error Interrupt Status
  registers.

## Left out

- Real timing. `get_tmr`, `sleep` and the microsecond deadlines are not
  modelled: every wait is an oracle outcome, and the settle delays after the
  clock bracket are omitted.
- External collaborators:
  - the `clock_sdmmc_*` calls: their answers (source rate, divisor, "was
    running") are parameters;
  - `_sdmmc_config_sdmmc1` and `_sdmmc1_config_pads`: their verdict is a
    parameter;
  - the GPIO, PMC and MAX77620 regulator writes of the power-cut branch of
    `sdmmc_end`;
  - `sdmmc_enable_low_voltage`.

  These act outside the register block and have no visible contract.
- The absolute-address pad fallback of `_sdmmc_pad_config_fallback`. It
  writes outside the register block.
- Hardware reactions to writes:
  - write-1-to-clear status;
  - the self-clearing reset bits, together with the reset's wait for them;
  - completion of calibration and tuning;
  - the block-count progress that re-arms the deadline of
    `_sdmmc_update_dma`'s outer loop.

  A write is the stored value only.
- The `_sdmmc_get_clkcon` read-back barriers. They have no effect on state.
- The data transfer itself, cache coherence, and `DPRINTF`.
- The numeric values of the `TEGRA_MMC_*` header constants. They are not
  kept symbolic: the literal encodings of section 2.2 of the SD Host
  Controller Simplified Specification are used instead.
- The bus exchange of `_sdmmc_config_tuning_once`. It depends on timing
  and on the card. Each round's register writes are modelled, but its
  hardware outcomes (the inhibit waits and buffer read ready) and the Host
  Control 2 value shown after it are parameters.
- `sdmmc_init_cmd`. It only fills the four fields of a command buffer, which
  is the `Cmd` constructor.
- The voltage read that `sdmmc_execute_cmd` hands to
  `_sdmmc_autocal_execute`. It matters only to the pad fallback.
- Clock.SetupClock: requires a non-zero divisor from the clock service,
  because the driver divides by it.
- Transaction.ProgressData: does not state where the DMA address chain ends;
  that is stated by Dma.UpdateDma.
- Transaction.ExecuteCmdInner: likewise, does not restate the DMA chain or
  the Normal Interrupt Status value the transaction leaves.
- Controller.Req: the request's block size is a 16-bit field. The driver
  checks it for zero on the request itself, before it goes into the 16-bit
  Block Size register, and the request structure's declaration is not part
  of this model.
- Clock.ClockDivisor: its contract states only the divisor-1 case. The
  ceiling property is Clock.ClockDivisorIsCeiling, a separate lemma, so that
  it stays out of the proofs about initialisation.
- Dma.UpdateDma: models one deadline of the inner loop, not the outer loop
  that re-arms the deadline while the block count moves.

## Findings

| source | as written | input that shows it | evidently intended | confidence | as-written member | corrected member |
|---|---|---|---|---|---|---|
| Drivers/SdMmcDxe/Library/sdmmc_driver.c:53-89 | `sdmmc_get_voltage` tests the 1.8V select (101b in bits 3:1) with a bitwise AND before it tests 3.3V (111b). Every 3.3V value therefore also passes the 1.8V test. | `_sdmmc_set_voltage(SDMMC_POWER_3_3)` leaves Power Control 0x0F, and `sdmmc_get_voltage` then returns SDMMC_POWER_1_8 | compare the whole voltage field with each encoding, so that 3.3V reads back as 3.3V | not executed; holds under the encodings of section 2.2.11 of the SD Host Controller Simplified Specification, since the header's values are not part of this model | Power.Voltage33ReadsAs18 | Power.GetVoltageByField, Power.VoltageByFieldRoundTrip |

=== FILE: calibration.dfy ===
/** Pad calibration, the internal clock start-up, and tuning: the vendor
    registers 1C0h, 1C4h, 1E0h (auto-calibration configuration) and 1E4h
    (pad comparator control), and the Clock Control, Host Control 1 and 2
    and Timeout Control writes of `_sdmmc_enable_internal_clock`.

    Calibration and tuning complete in hardware; the model takes what the
    driver reads back as a parameter. */
module Calibration {
  import opened Header
  import opened Controller
  import opened Power
  import opened Command

  /** The pull-down and pull-up drive offsets of auto-calibration. */
  datatype Offsets = Offsets(pd: bv32, pu: bv32)

  /** The offsets `_sdmmc_autocal_config_offset` programs for a controller
      and signalling voltage: SDMMC2 and SDMMC4 only run at 1.8V, with 5
      and 5; SDMMC1 and SDMMC3 take 123 and 123 at 1.8V and 125 and 0 at
      3.3V. Every other pair has none. */
  function AutocalOffsets(id: SdmmcId, power: int): (o: Option<Offsets>)
    ensures o.Some? <==> power == Power18 || ((id == Sdmmc1 || id == Sdmmc3) && power == Power33)
    ensures o.Some? ==> o.value.pd < 0x80 && o.value.pu < 0x80
  {
    if id == Sdmmc2 || id == Sdmmc4 then
      if power != Power18 then None else Some(Offsets(5, 5))
    else if power == Power18 then Some(Offsets(123, 123))
    else if power == Power33 then Some(Offsets(125, 0))
    else None
  }

  /** The offsets an auto-calibration configuration value holds: the
      pull-down offset in bits 14:8 and the pull-up offset in bits 6:0. */
  function OffsetsOf(c: bv32): Offsets {
    Offsets((c >> 8) & 0x7F, c & 0x7F)
  }

  /** Two auto-calibration configuration values that agree outside the two offset fields. */
  predicate SameOutsideOffsets(c: bv32, d: bv32) {
    c & 0xFFFF8080 == d & 0xFFFF8080
  }

  lemma OffsetBits(c: bv32, pd: bv32, pu: bv32)
    requires pd < 0x80 && pu < 0x80
    ensures ((((((c & 0xFFFF80FF) | (pd << 8)) >> 7) << 7) | pu) >> 8) & 0x7F == pd
    ensures (((((c & 0xFFFF80FF) | (pd << 8)) >> 7) << 7) | pu) & 0x7F == pu
    ensures (((((c & 0xFFFF80FF) | (pd << 8)) >> 7) << 7) | pu) & 0xFFFF8080 == c & 0xFFFF8080
  {
  }

  /** The offset write: the pull-down field is replaced, the low seven bits
      are shifted out and in again as zero, and the pull-up offset is ORed
      in. Bit 7 survives the shift. */
  function WriteOffsets(c: bv32, o: Offsets): (c': bv32)
    requires o.pd < 0x80 && o.pu < 0x80
    ensures OffsetsOf(c') == o
    ensures SameOutsideOffsets(c', c)
  {
    OffsetBits(c, o.pd, o.pu);
    ((((c & 0xFFFF80FF) | (o.pd << 8)) >> 7) << 7) | o.pu
  }

  /** Writing the offsets a configuration value already holds leaves it
      unchanged. */
  lemma WriteOffsetsIdempotent(c: bv32)
    ensures WriteOffsets(c, OffsetsOf(c)) == c
  {
    OffsetsRestoreBits(c);
  }

  lemma OffsetsRestoreBits(c: bv32)
    ensures ((((c & 0xFFFF80FF) | (((c >> 8) & 0x7F) << 8)) >> 7) << 7) | (c & 0x7F) == c
  {
  }

  /** `_sdmmc_autocal_config_offset`: an unsupported controller and voltage
      pair fails with nothing written; otherwise the auto-calibration
      configuration receives the pair's offsets and keeps every other bit. */
  function AutocalConfigOffset(r: Regs, id: SdmmcId, power: int): (a: Ret<Regs>)
    ensures a.ok <==> AutocalOffsets(id, power).Some?
    ensures !a.ok ==> a.val == r
    ensures a.ok ==> a.val == r.(autocalcfg := a.val.autocalcfg)
  {
    match AutocalOffsets(id, power)
    case None => Ret(false, r)
    case Some(o) => Ret(true, r.(autocalcfg := WriteOffsets(r.autocalcfg, o)))
  }

  /** The programmed offsets read back as the table's, and no other bit of
      the configuration moves. */
  lemma AutocalOffsetsProgrammed(r: Regs, id: SdmmcId, power: int)
    requires AutocalOffsets(id, power).Some?
    ensures OffsetsOf(AutocalConfigOffset(r, id, power).val.autocalcfg) == AutocalOffsets(id, power).value
    ensures SameOutsideOffsets(AutocalConfigOffset(r, id, power).val.autocalcfg, r.autocalcfg)
  {
  }

  /** `p` is the pad comparator control `p0` with the comparator enable, bit 31, off. */
  predicate ComparatorOff(p: bv32, p0: bv32) {
    p & 0x80000000 == 0 && p & 0x7FFFFFFF == p0 & 0x7FFFFFFF
  }

  lemma ComparatorBits(p: bv32)
    ensures ((p | 0x80000000) & 0x7FFFFFFF) & 0x80000000 == 0
    ensures ((p | 0x80000000) & 0x7FFFFFFF) & 0x7FFFFFFF == p & 0x7FFFFFFF
  {
  }

  /** The pad comparator writes of `_sdmmc_autocal_execute`: the comparator
      is switched on (the driver skips the write when it is already on,
      which stores the same value) and switched off at the end. */
  function ComparatorCycle(p: bv32): (p': bv32)
    ensures ComparatorOff(p', p)
  {
    ComparatorBits(p);
    (p | 0x80000000) & 0x7FFFFFFF
  }

  /** `c` is the auto-calibration configuration `c0` after a calibration
      was started (bits 31 and 29 written), with the enable, bit 29,
      dropped again if the calibration did not finish in time. Bits 28:0
      and 30 keep their values. */
  predicate CalibrationStarted(c: bv32, c0: bv32, finished: bool) {
    && c & 0x80000000 == 0x80000000
    && (c & 0x20000000 != 0) == finished
    && c & 0x5FFFFFFF == c0 & 0x5FFFFFFF
  }

  lemma StartBits(c: bv32)
    ensures (c | 0xA0000000) & 0x80000000 == 0x80000000
    ensures (c | 0xA0000000) & 0x20000000 != 0
    ensures (c | 0xA0000000) & 0x5FFFFFFF == c & 0x5FFFFFFF
    ensures ((c | 0xA0000000) & 0xDFFFFFFF) & 0x80000000 == 0x80000000
    ensures ((c | 0xA0000000) & 0xDFFFFFFF) & 0x20000000 == 0
    ensures ((c | 0xA0000000) & 0xDFFFFFFF) & 0x5FFFFFFF == c & 0x5FFFFFFF
  {
  }

  /** The auto-calibration configuration writes of `_sdmmc_autocal_execute`:
      start, and on timeout drop the enable. The hardware clears bit 31
      when it finishes; the model keeps the stored value. */
  function StartCalibration(c: bv32, done: Poll): (c': bv32)
    ensures CalibrationStarted(c', c, done == Ready)
  {
    StartBits(c);
    if done == Ready then c | 0xA0000000 else (c | 0xA0000000) & 0xDFFFFFFF
  }

  /** `_sdmmc_autocal_execute`. `done` is whether the hardware finished the
      calibration before the deadline. The SD clock is stopped around the
      calibration and restarted when it was running, so Clock Control ends
      as it began. The pad fallback on timeout writes registers outside
      this block and is not part of this model. */
  function AutocalExecute(r: Regs, done: Poll): (r': Regs)
    ensures r'.clkcon == r.clkcon
    ensures ComparatorOff(r'.sdmemcmppadctl, r.sdmemcmppadctl)
    ensures CalibrationStarted(r'.autocalcfg, r.autocalcfg, done == Ready)
    ensures r' == r.(sdmemcmppadctl := r'.sdmemcmppadctl, autocalcfg := r'.autocalcfg)
  {
    r.(clkcon := PauseGate(r.clkcon),
       sdmemcmppadctl := ComparatorCycle(r.sdmemcmppadctl),
       autocalcfg := StartCalibration(r.autocalcfg, done))
  }

  /** `c` is Clock Control `c0` with the internal clock enable, bit 0, set
      and, when `divided`, the clock generator select, bit 5, cleared
      (divided clock mode); no other bit changes. */
  predicate InternalClockStarted(c: bv16, c0: bv16, divided: bool) {
    && c & 0x0001 == 0x0001
    && (divided ==> c & 0x0020 == 0)
    && (if divided then c & 0xFFDE == c0 & 0xFFDE else c & 0xFFFE == c0 & 0xFFFE)
  }

  lemma InternalClockBits(c: bv16)
    ensures (c | 0x0001) & 0x0001 == 0x0001
    ensures (c | 0x0001) & 0xFFFE == c & 0xFFFE
    ensures ((c | 0x0001) & 0xFFDF) & 0x0001 == 0x0001
    ensures ((c | 0x0001) & 0xFFDF) & 0x0020 == 0
    ensures ((c | 0x0001) & 0xFFDF) & 0xFFDE == c & 0xFFDE
  {
  }

  /** The Clock Control writes of `_sdmmc_enable_internal_clock`: the
      internal clock is enabled, and once it is stable the clock generator
      select is cleared. */
  function InternalClkcon(c: bv16, stable: bool): (c': bv16)
    ensures InternalClockStarted(c', c, stable)
  {
    InternalClockBits(c);
    if stable then (c | 0x0001) & 0xFFDF else c | 0x0001
  }

  /** The SD clock enable, bit 2, is none of the bits the internal clock start-up writes. */
  lemma InternalClockKeepsGate(c: bv16, c0: bv16, divided: bool)
    requires InternalClockStarted(c, c0, divided)
    ensures GateOn(c) == GateOn(c0)
  {
    GateWithin(c, c0, divided);
  }

  lemma GateWithin(c: bv16, c0: bv16, divided: bool)
    requires if divided then c & 0xFFDE == c0 & 0xFFDE else c & 0xFFFE == c0 & 0xFFFE
    ensures c & 0x0004 == c0 & 0x0004
  {
  }

  /** `h` is Host Control 2 `h0` with bit 15 (preset value enable)
      cleared and bit 12 set; bits 14 and 11:0 are kept. */
  predicate HostCtl2Configured(h: bv16, h0: bv16) {
    && h & 0x8000 == 0
    && h & 0x1000 == 0x1000
    && h & 0x4FFF == h0 & 0x4FFF
  }

  /** Whether Host Control 2 bit 13 is set. */
  predicate Bit13Set(h: bv16) {
    h & 0x2000 != 0
  }

  lemma HostCtl2BaseBits(h: bv16)
    ensures ((h & 0x7FFF) | 0x1000) & 0x8000 == 0
    ensures ((h & 0x7FFF) | 0x1000) & 0x1000 == 0x1000
    ensures (((h & 0x7FFF) | 0x1000) & 0x2000 != 0) == (h & 0x2000 != 0)
    ensures ((h & 0x7FFF) | 0x1000) & 0x4FFF == h & 0x4FFF
  {
  }

  lemma HostCtl2WideBits(h: bv16)
    ensures (((h & 0x7FFF) | 0x1000) | 0x2000) & 0x8000 == 0
    ensures (((h & 0x7FFF) | 0x1000) | 0x2000) & 0x1000 == 0x1000
    ensures (((h & 0x7FFF) | 0x1000) | 0x2000) & 0x2000 != 0
    ensures (((h & 0x7FFF) | 0x1000) | 0x2000) & 0x4FFF == h & 0x4FFF
  {
  }

  /** The Host Control 2 writes of `_sdmmc_enable_internal_clock`, the
      second only when the capability bit allows it. */
  function InternalHostCtl2(h: bv16, wide: bool): (h': bv16)
    ensures HostCtl2Configured(h', h)
    ensures Bit13Set(h') == (wide || Bit13Set(h))
  {
    if wide then
      HostCtl2WideBits(h);
      ((h & 0x7FFF) | 0x1000) | 0x2000
    else
      HostCtl2BaseBits(h);
      (h & 0x7FFF) | 0x1000
  }

  /** `h` is Host Control 1 `h0` with the DMA select, bits 4:3, cleared (SDMA). */
  predicate SdmaSelected(h: bv8, h0: bv8) {
    h & 0x18 == 0 && h & 0xE7 == h0 & 0xE7
  }

  lemma SdmaBits(h: bv8)
    ensures (h & 0xE7) & 0x18 == 0
    ensures (h & 0xE7) & 0xE7 == h & 0xE7
  {
  }

  /** Selects SDMA in Host Control 1. */
  function SelectSdma(h: bv8): (h': bv8)
    ensures SdmaSelected(h', h)
  {
    SdmaBits(h);
    h & 0xE7
  }

  /** `t` is Timeout Control `t0` with the data timeout counter, bits 3:0, at 0xE (the longest). */
  predicate LongestTimeout(t: bv8, t0: bv8) {
    t & 0x0F == 0x0E && t & 0xF0 == t0 & 0xF0
  }

  lemma TimeoutBits(t: bv8)
    ensures ((t & 0xF0) | 0x0E) & 0x0F == 0x0E
    ensures ((t & 0xF0) | 0x0E) & 0xF0 == t & 0xF0
  {
  }

  /** Sets the longest data timeout. */
  function SetLongestTimeout(t: bv8): (t': bv8)
    ensures LongestTimeout(t', t)
  {
    TimeoutBits(t);
    (t & 0xF0) | 0x0E
  }

  /** Whether the Capabilities register sets bit 28, the one
      `_sdmmc_enable_internal_clock` requires. */
  predicate Capable(r: Regs) {
    r.capareg & 0x10000000 != 0
  }

  /** `_sdmmc_enable_internal_clock`. `stable` is whether the internal
      clock became stable before the deadline. A timeout fails after the
      enable; a controller without capability bit 28 fails after the Host
      Control 2 and clock generator writes; otherwise SDMA and the longest
      data timeout are selected too. */
  function EnableInternalClock(r: Regs, stable: Poll): (e: Ret<Regs>)
    ensures e.ok <==> stable == Ready && Capable(r)
    ensures InternalClockStarted(e.val.clkcon, r.clkcon, stable == Ready)
    ensures e.val == r.(clkcon := e.val.clkcon, hostctl2 := e.val.hostctl2,
                        hostctl := e.val.hostctl, timeoutcon := e.val.timeoutcon)
  {
    var clkcon := InternalClkcon(r.clkcon, stable == Ready);
    if stable != Ready then Ret(false, r.(clkcon := clkcon))
    else
      var wide := Capable(r);
      Ret(wide, r.(clkcon := clkcon, hostctl2 := InternalHostCtl2(r.hostctl2, wide),
                   hostctl := if wide then SelectSdma(r.hostctl) else r.hostctl,
                   timeoutcon := if wide then SetLongestTimeout(r.timeoutcon) else r.timeoutcon))
  }

  /** A start-up that times out writes Clock Control only. */
  lemma InternalClockTimeout(r: Regs)
    ensures EnableInternalClock(r, TimedOut).val == r.(clkcon := EnableInternalClock(r, TimedOut).val.clkcon)
  {
  }

  /** What a start-up with a stable clock leaves in Host Control 2, and what
      a successful one leaves in Host Control 1 and Timeout Control. */
  lemma InternalClockConfigures(r: Regs, stable: Poll)
    ensures stable == Ready ==> HostCtl2Configured(EnableInternalClock(r, stable).val.hostctl2, r.hostctl2)
    ensures stable == Ready ==> Bit13Set(EnableInternalClock(r, stable).val.hostctl2) == (Capable(r) || Bit13Set(r.hostctl2))
    ensures EnableInternalClock(r, stable).ok ==> SdmaSelected(EnableInternalClock(r, stable).val.hostctl, r.hostctl)
    ensures EnableInternalClock(r, stable).ok ==> LongestTimeout(EnableInternalClock(r, stable).val.timeoutcon, r.timeoutcon)
  {
  }

  /** The number of tuning rounds and the tap field flag of a clock type:
      128 rounds and 0x4000 for types 3, 4 and 11; 256 and 0x8000 for
      types 10, 13 and 14; no tuning for any other type. */
  datatype TuningParams = TuningParams(rounds: nat, flag: bv32)

  function TuningFor(clockType: nat): (p: Option<TuningParams>)
    ensures p.Some? <==> clockType in {3, 4, 11, 10, 13, 14}
    ensures p.Some? ==> p.value.rounds <= 0x100 && p.value.rounds > 0
    ensures p.Some? ==> p.value.flag & 0xFFFF1FFF == 0
  {
    if clockType == 3 || clockType == 4 || clockType == 11 then Some(TuningParams(0x80, 0x4000))
    else if clockType == 10 || clockType == 13 || clockType == 14 then Some(TuningParams(0x100, 0x8000))
    else None
  }

  /** `c` is vendor register 1C0h `c0` prepared for tuning: `flag` in bits
      15:13, 1 in bits 12:6, bit 17 set, every other bit kept. */
  predicate TuningPrepared(c: bv32, c0: bv32, flag: bv32) {
    && c & 0xE000 == flag
    && c & 0x1FC0 == 0x40
    && c & 0x20000 == 0x20000
    && c & 0xFFFD003F == c0 & 0xFFFD003F
  }

  lemma TuningFieldBits(c: bv32, flag: bv32)
    requires flag & 0xFFFF1FFF == 0
    ensures ((((c & 0xFFFF1FFF) | flag) & 0xFFFFE03F) | 0x40 | 0x20000) & 0xE000 == flag
    ensures ((((c & 0xFFFF1FFF) | flag) & 0xFFFFE03F) | 0x40 | 0x20000) & 0x1FC0 == 0x40
    ensures ((((c & 0xFFFF1FFF) | flag) & 0xFFFFE03F) | 0x40 | 0x20000) & 0x20000 == 0x20000
    ensures ((((c & 0xFFFF1FFF) | flag) & 0xFFFFE03F) | 0x40 | 0x20000) & 0xFFFD003F == c & 0xFFFD003F
  {
  }

  /** The three writes of `sdmmc_config_tuning` to vendor register 1C0h. */
  function PrepareTuning(c: bv32, flag: bv32): (c': bv32)
    requires flag & 0xFFFF1FFF == 0
    ensures TuningPrepared(c', c, flag)
  {
    TuningFieldBits(c, flag);
    (((c & 0xFFFF1FFF) | flag) & 0xFFFFE03F) | 0x40 | 0x20000
  }

  /** Whether a Host Control 2 value shows tuning still running (execute tuning, bit 6). */
  predicate TuningRunning(h: bv16) {
    h & 0x0040 != 0
  }

  /** Whether a Host Control 2 value shows the tuned sampling clock selected (bit 7). */
  predicate SamplingClockSelected(h: bv16) {
    h & 0x0080 != 0
  }

  /** The number of tuning rounds the loop of `sdmmc_config_tuning` runs,
      at most `max`, when `seen[i]` is the Host Control 2 value read after
      round i: the loop stops after the first round that shows tuning
      finished. */
  function RoundsRun(seen: seq<bv16>, max: nat): (n: nat)
    requires |seen| >= max
    ensures n <= max
    ensures max > 0 ==> n > 0
    decreases max
  {
    if max == 0 then 0
    else if !TuningRunning(seen[0]) then 1
    else 1 + RoundsRun(seen[1..], max - 1)
  }

  /** `n` rounds is where a loop of at most `max` rounds stops: every round
      before the last showed tuning running, and a loop that stopped early
      saw it finished. */
  predicate StopsAfter(seen: seq<bv16>, max: nat, n: nat)
    requires |seen| >= max
  {
    && n <= max
    && (max > 0 ==> n > 0)
    && (forall k :: 0 <= k < n - 1 ==> TuningRunning(seen[k]))
    && (0 < n < max ==> !TuningRunning(seen[n - 1]))
  }

  /** The round count is where the loop stops. */
  lemma {:induction false} RoundsRunStops(seen: seq<bv16>, max: nat)
    requires |seen| >= max
    ensures StopsAfter(seen, max, RoundsRun(seen, max))
    decreases max
  {
    if max > 0 && TuningRunning(seen[0]) {
      var rest := seen[1..];
      RoundsRunStops(rest, max - 1);
      var n := RoundsRun(seen, max);
      forall k | 0 <= k < n - 1
        ensures TuningRunning(seen[k])
      {
        if k > 0 {
          assert seen[k] == rest[k - 1];
        }
      }
      if n < max {
        assert seen[n - 1] == rest[n - 2];
      }
    }
  }

  /** The stopping point is unique. */
  lemma StopsAfterUnique(seen: seq<bv16>, max: nat, a: nat, b: nat)
    requires |seen| >= max
    requires StopsAfter(seen, max, a) && StopsAfter(seen, max, b)
    ensures a == b
  {
  }

  /** The round count of the tuning loop of `sdmmc_config_tuning`, which
      stops after `max` rounds or as soon as Host Control 2 shows tuning
      finished (the rounds themselves are `RunRounds`). */
  method RunTuning(seen: seq<bv16>, max: nat) returns (rounds: nat)
    requires |seen| >= max
    ensures StopsAfter(seen, max, rounds)
    ensures rounds == RoundsRun(seen, max)
  {
    rounds := 0;
    var finished := false;
    while rounds < max && !finished
      invariant rounds <= max
      invariant forall k :: 0 <= k < rounds - 1 ==> TuningRunning(seen[k])
      invariant rounds > 0 && !finished ==> TuningRunning(seen[rounds - 1])
      invariant finished ==> 0 < rounds && !TuningRunning(seen[rounds - 1])
      decreases max - rounds
    {
      rounds := rounds + 1;
      finished := !TuningRunning(seen[rounds - 1]);
    }
    RoundsRunStops(seen, max);
    StopsAfterUnique(seen, max, rounds, RoundsRun(seen, max));
  }

  /** Whether buffer read ready, bit 5 of the Normal Interrupt Status
      Enable, is enabled. */
  predicate ReadReadyEnabled(e: bv16) {
    e & 0x0020 != 0
  }

  /** `e` is `e0` with the buffer read ready enable `on` and every other bit kept. */
  predicate ReadReadySet(e: bv16, e0: bv16, on: bool) {
    ReadReadyEnabled(e) == on && e & 0xFFDF == e0 & 0xFFDF
  }

  lemma ReadReadyBits(e: bv16)
    ensures (e | 0x0020) & 0x0020 != 0
    ensures (e | 0x0020) & 0xFFDF == e & 0xFFDF
    ensures (e & 0xFFDF) & 0x0020 == 0
    ensures (e & 0xFFDF) & 0xFFDF == e & 0xFFDF
  {
  }

  /** Enables buffer read ready. */
  function ArmReadReady(e: bv16): (e': bv16)
    ensures ReadReadySet(e', e, true)
  {
    ReadReadyBits(e);
    e | 0x0020
  }

  /** Disables buffer read ready. */
  function DisarmReadReady(e: bv16): (e': bv16)
    ensures ReadReadySet(e', e, false)
  {
    ReadReadyBits(e);
    e & 0xFFDF
  }

  /** What one tuning round learns from the hardware: the outcomes of the
      command and data inhibit waits, and whether buffer read ready was
      seen before the round's timeout. */
  datatype RoundEnv = RoundEnv(cmdFree: Poll, datFree: Poll, readReady: Poll)

  /** `a` agrees with `b` on every register a tuning round leaves alone: a
      round writes only Block Size, Block Count, Transfer Mode, the Normal
      Interrupt Status and its enable, Clock Control, the argument, the
      Command register and Software Reset. */
  predicate RoundFrame(a: Regs, b: Regs) {
    a == b.(blksize := a.blksize, blkcnt := a.blkcnt, trnmod := a.trnmod,
            norintsts := a.norintsts, norintstsen := a.norintstsen, clkcon := a.clkcon,
            argument := a.argument, cmdreg := a.cmdreg, swrst := a.swrst)
  }

  /** Dropping the SD clock gate and raising it again leaves it on and
      every other bit of Clock Control as it was. */
  lemma GateCycle(c: bv16)
    ensures GateOn(SetGate(SetGate(c, false), true))
    ensures SameExceptGate(SetGate(SetGate(c, false), true), c)
  {
  }

  /** The middle of a tuning round, once the lines are free: the tuning
      block is prepared (its verdict is discarded, so on a 1-bit bus the
      block registers keep their values), buffer read ready is enabled,
      the status is written back with the value read, and the tuning
      command is issued with the SD clock gated off, followed by a line
      reset; the gate is then raised, whatever it was before. */
  function IssueTuningBlock(r: Regs, opcode: bv16): (r': Regs)
    ensures ClockOn(r') && SameExceptGate(r'.clkcon, r.clkcon)
    ensures ResetRequested(r') && SameExceptLines(r'.swrst, r.swrst)
    ensures ReadReadySet(r'.norintstsen, r.norintstsen, true)
    ensures r'.argument == 0 && CommandIndexOf(r'.cmdreg) == opcode & 0xFF && DataPresentOn(r'.cmdreg)
    ensures GetBusWidth(r.hostctl) != BusWidth1 ==> r'.blkcnt == 1 && r'.blksize == 16 * DataLines(GetBusWidth(r.hostctl))
    ensures GetBusWidth(r.hostctl) == BusWidth1 ==> r'.blkcnt == r.blkcnt && r'.blksize == r.blksize
    ensures RoundFrame(r', r)
  {
    var b := SetupReadSmallBlock(r).val;
    assert GetBusWidth(r.hostctl) != BusWidth1 ==> b.blksize == 16 * DataLines(GetBusWidth(r.hostctl)) by {
      if GetBusWidth(r.hostctl) != BusWidth1 {
        SmallBlockShape(r);
      }
    }
    var g := b.(norintstsen := ArmReadReady(b.norintstsen), clkcon := SetGate(b.clkcon, false));
    var c := Reset(ParseCmd48(g, opcode));
    assert c.clkcon == SetGate(r.clkcon, false);
    GateCycle(r.clkcon);
    c.(clkcon := SetGate(c.clkcon, true))
  }

  /** `_sdmmc_config_tuning_once`. A suppressed card clock makes the round
      do nothing, and an inhibit wait that times out resets the lines and
      ends it. Otherwise the tuning block is issued and the round waits
      for buffer read ready: when it comes the status bit is written back,
      when it does not the lines are reset once more; either way buffer
      read ready is disabled again. The verdict is whether it came. */
  function TuningRound(r: Regs, noSd: bool, opcode: bv16, e: RoundEnv): (t: Ret<Regs>)
    ensures t.ok <==> !noSd && e.cmdFree == Ready && e.datFree == Ready && e.readReady == Ready
    ensures noSd ==> t.val == r
    ensures !noSd && (e.cmdFree != Ready || e.datFree != Ready) ==> t.val == Reset(r)
    ensures !noSd && e.cmdFree == Ready && e.datFree == Ready ==>
      && ClockOn(t.val) && ResetRequested(t.val)
      && ReadReadySet(t.val.norintstsen, r.norintstsen, false)
      && t.val.argument == 0 && CommandIndexOf(t.val.cmdreg) == opcode & 0xFF
    ensures t.ok ==> t.val.norintsts == 0x20
    ensures RoundFrame(t.val, r)
  {
    if noSd then Ret(false, r)
    else
      var w := WaitInhibit(r, true, e.cmdFree, e.datFree);
      if !w.ok then Ret(false, w.val)
      else
        var i := IssueTuningBlock(r, opcode);
        if e.readReady == Ready then
          Ret(true, i.(norintsts := 0x20, norintstsen := DisarmReadReady(i.norintstsen)))
        else
          var x := Reset(i);
          Ret(false, x.(norintstsen := DisarmReadReady(x.norintstsen)))
  }

  /** The first `n` rounds of the tuning loop: each round's writes, after
      which Host Control 2 holds what the hardware shows (`seen`). Only
      the registers a round writes and Host Control 2 change, and nothing
      but Host Control 2 when the card clock is suppressed. */
  function RunRounds(r: Regs, noSd: bool, opcode: bv16, envs: seq<RoundEnv>, seen: seq<bv16>, n: nat): (r': Regs)
    requires n <= |envs| && n <= |seen|
    ensures n == 0 ==> r' == r
    ensures n > 0 ==> r'.hostctl2 == seen[n - 1]
    ensures RoundFrame(r', r.(hostctl2 := r'.hostctl2))
    ensures noSd ==> r' == r.(hostctl2 := r'.hostctl2)
    decreases n
  {
    if n == 0 then r
    else
      var p := RunRounds(r, noSd, opcode, envs, seen, n - 1);
      TuningRound(p, noSd, opcode, envs[n - 1]).val.(hostctl2 := seen[n - 1])
  }

  /** `sdmmc_config_tuning` for clock type `clockType` and tuning command
      `opcode`. Register 1C4h is cleared first, whatever the type; a type
      without tuning then fails. Otherwise register 1C0h is prepared,
      tuning is started in Host Control 2 (bit 6), and the loop runs its
      rounds; `envs` are the hardware outcomes of each round and `seen`
      the Host Control 2 values shown after each, and the verdict is the
      sampling clock select of the last one read. */
  method ConfigTuning(r: Regs, noSd: bool, clockType: nat, opcode: bv16, envs: seq<RoundEnv>, seen: seq<bv16>)
    returns (ok: bool, r': Regs)
    requires |envs| >= 0x100 && |seen| >= 0x100
    ensures r'.field1C4 == 0
    ensures TuningFor(clockType).None? ==> !ok && r' == r.(field1C4 := 0)
    ensures TuningFor(clockType).Some? ==>
      var p := TuningFor(clockType).value;
      var last := seen[RoundsRun(seen, p.rounds) - 1];
      && ok == SamplingClockSelected(last)
      && TuningPrepared(r'.field1C0, r.field1C0, p.flag)
      && r'.hostctl2 == last
      && RoundFrame(r', r.(field1C4 := 0, field1C0 := r'.field1C0, hostctl2 := last))
      && (noSd ==> r' == r.(field1C4 := 0, field1C0 := r'.field1C0, hostctl2 := last))
  {
    r' := r.(field1C4 := 0);
    match TuningFor(clockType)
    case None =>
      ok := false;
    case Some(p) =>
      r' := r'.(field1C0 := PrepareTuning(r'.field1C0, p.flag), hostctl2 := r'.hostctl2 | 0x0040);
      var rounds := RunTuning(seen, p.rounds);
      r' := RunRounds(r', noSd, opcode, envs, seen, rounds);
      ok := SamplingClockSelected(r'.hostctl2);
  }
}

=== FILE: clock.dfy ===
/** Clock configuration: tap capture and vendor clock select, the UHS
    mode bits, the divider, and the SD clock gate bookkeeping.

    Each routine here writes several registers one after another. Writes
    to different registers do not interact in the model, so a routine is
    stated as one update of the register record in which every register
    receives the composition of the writes the routine makes to it. */
module Clock {
  import opened Header
  import opened Controller
  import opened Power

  /** Per-controller tap values for every clock type but 4 (`tap_values`). */
  const TapValues: seq<bv32> := [4, 0, 3, 0]

  /** A tap that fits the 16-bit tap field, as every captured one does. */
  predicate TapFits(tap: bv32) {
    tap & 0xFFFF0000 == 0
  }

  lemma CaptureBits(v: bv32)
    ensures (v >> 16) & 0xFFFF0000 == 0
  {
  }

  /** `sdmmc_get_venclkctl`: captures the tap field, bits 31:16 of the
      vendor clock control register, and marks it captured. */
  function CaptureTap(s: Sdmmc): (t: Sdmmc)
    ensures t.venclkctlSet && TapFits(t.venclkctlTap)
    ensures t == s.(venclkctlTap := t.venclkctlTap, venclkctlSet := true)
  {
    CaptureBits(s.regs.venclkctl);
    s.(venclkctlTap := s.regs.venclkctl >> 16, venclkctlSet := true)
  }

  /** `c` is `v` with `tap` programmed at bit 16: bits 15:0 are kept, bits
      23:16 hold the low byte of the tap, and bits 31:24 gain the tap's
      second byte, since the write ORs the whole shifted tap in. */
  predicate TapProgrammed(c: bv32, v: bv32, tap: bv32) {
    && c & 0x0000FFFF == v & 0x0000FFFF
    && (c >> 16) & 0xFF == tap & 0xFF
    && c >> 24 == (v >> 24) | ((tap >> 8) & 0xFF)
  }

  lemma ProgramTapBits(v: bv32, tap: bv32)
    ensures ((v & 0xFF00FFFF) | (tap << 16)) & 0x0000FFFF == v & 0x0000FFFF
    ensures (((v & 0xFF00FFFF) | (tap << 16)) >> 16) & 0xFF == tap & 0xFF
    ensures ((v & 0xFF00FFFF) | (tap << 16)) >> 24 == (v >> 24) | ((tap >> 8) & 0xFF)
  {
  }

  /** The tap write: bits 23:16 are cleared and the tap is ORed in at bit 16. */
  function ProgramTap(v: bv32, tap: bv32): (c: bv32)
    ensures TapProgrammed(c, v, tap)
  {
    ProgramTapBits(v, tap);
    (v & 0xFF00FFFF) | (tap << 16)
  }

  /** Programming the tap read from bits 31:16 of a register restores the register. */
  lemma ProgramCapturedTap(v: bv32)
    ensures ProgramTap(v, v >> 16) == v
  {
  }

  /** `c` is `v` with 0x28 in the CE-ATA field, bits 13:8. */
  predicate CeataSet(c: bv32, v: bv32) {
    (c >> 8) & 0x3F == 0x28 && c & 0xFFFFC0FF == v & 0xFFFFC0FF
  }

  lemma CeataBits(v: bv32)
    ensures (((v & 0xFFFFC0FF) | 0x2800) >> 8) & 0x3F == 0x28
    ensures ((v & 0xFFFFC0FF) | 0x2800) & 0xFFFFC0FF == v & 0xFFFFC0FF
  {
  }

  /** The CE-ATA write of clock type 4. */
  function CeataType4(v: bv32): (c: bv32)
    ensures CeataSet(c, v)
  {
    CeataBits(v);
    (v & 0xFFFFC0FF) | 0x2800
  }

  /** `c` is `v` with bit 17 cleared. */
  predicate Bit17Cleared(c: bv32, v: bv32) {
    c & 0x20000 == 0 && c & 0xFFFDFFFF == v & 0xFFFDFFFF
  }

  lemma Bit17Bits(x: bv32)
    ensures (x & 0xFFFDFFFF) & 0x20000 == 0
    ensures (x & 0xFFFDFFFF) & 0xFFFDFFFF == x & 0xFFFDFFFF
  {
  }

  /** The write to vendor register 1C0h that every clock type makes. */
  function ClearBit17(x: bv32): (c: bv32)
    ensures Bit17Cleared(c, x)
  {
    Bit17Bits(x);
    x & 0xFFFDFFFF
  }

  /** The tap the vendor clock select programs for a clock type: the
      captured one for type 4, the controller's table entry otherwise. */
  function TapFor(s: Sdmmc, clockType: nat): (t: bv32)
    ensures clockType == 4 ==> t == s.venclkctlTap
    ensures clockType != 4 ==> t == (if s.id == Sdmmc1 then 4 else if s.id == Sdmmc3 then 3 else 0)
  {
    if clockType == 4 then s.venclkctlTap else TapValues[s.id]
  }

  /** `_sdmmc_config_ven_ceata_clk`: for type 4 sets the CE-ATA field;
      always clears bit 17 of register 1C0h; then programs the tap into
      venclkctl. Type 4 uses the captured tap and fails, leaving venclkctl
      alone, when none was captured; other types use the controller's
      table entry. */
  function ConfigVenCeataClk(s: Sdmmc, clockType: nat): (r: Ret<Sdmmc>)
    ensures r.ok <==> clockType != 4 || s.venclkctlSet
    ensures r.val == s.(regs := s.regs.(venceatactl := r.val.regs.venceatactl, field1C0 := r.val.regs.field1C0,
                                        venclkctl := r.val.regs.venclkctl))
    ensures clockType == 4 ==> CeataSet(r.val.regs.venceatactl, s.regs.venceatactl)
    ensures clockType != 4 ==> r.val.regs.venceatactl == s.regs.venceatactl
    ensures Bit17Cleared(r.val.regs.field1C0, s.regs.field1C0)
    ensures r.ok ==> TapProgrammed(r.val.regs.venclkctl, s.regs.venclkctl, TapFor(s, clockType))
    ensures !r.ok ==> r.val.regs.venclkctl == s.regs.venclkctl
  {
    var ok := clockType != 4 || s.venclkctlSet;
    var ceata := if clockType == 4 then CeataType4(s.regs.venceatactl) else s.regs.venceatactl;
    var tap := if ok then ProgramTap(s.regs.venclkctl, TapFor(s, clockType)) else s.regs.venclkctl;
    Ret(ok, s.(regs := s.regs.(venceatactl := ceata, field1C0 := ClearBit17(s.regs.field1C0), venclkctl := tap)))
  }

  /** Capturing the tap and then programming type 4 leaves venclkctl
      bit-identical. */
  lemma TapCaptureRoundTrip(s: Sdmmc)
    ensures ConfigVenCeataClk(CaptureTap(s), 4).ok
    ensures ConfigVenCeataClk(CaptureTap(s), 4).val.regs.venclkctl == s.regs.venclkctl
  {
    ProgramCapturedTap(s.regs.venclkctl);
  }

  /** Clock types whose UHS step clears the high-speed enable: 0, 1, 5 and 6. */
  predicate ClearsHighSpeed(clockType: nat) {
    clockType == 0 || clockType == 1 || clockType == 5 || clockType == 6
  }

  /** Clock types whose UHS step sets the high-speed enable: 2 and 7. */
  predicate SetsHighSpeed(clockType: nat) {
    clockType == 2 || clockType == 7
  }

  /** `h` is `h0` with the high-speed enable (Host Control 1 bit 2) cleared. */
  predicate HighSpeedCleared(h: bv8, h0: bv8) {
    h & 0x04 == 0 && h & 0xFB == h0 & 0xFB
  }

  /** `h` is `h0` with the high-speed enable set. */
  predicate HighSpeedSet(h: bv8, h0: bv8) {
    h & 0x04 == 0x04 && h & 0xFB == h0 & 0xFB
  }

  lemma HighSpeedBits(h: bv8)
    ensures (h & 0xFB) & 0x04 == 0
    ensures (h & 0xFB) & 0xFB == h & 0xFB
    ensures (h | 0x04) & 0x04 == 0x04
    ensures (h | 0x04) & 0xFB == h & 0xFB
  {
  }

  /** The Host Control 1 half of the UHS step of `sdmmc_setup_clock`: the
      high-speed enable is cleared or set by the clock type, and no other
      bit changes. */
  function UhsHostCtl1(h1: bv8, clockType: nat): (r: bv8)
    ensures ClearsHighSpeed(clockType) ==> HighSpeedCleared(r, h1)
    ensures SetsHighSpeed(clockType) ==> HighSpeedSet(r, h1)
    ensures !ClearsHighSpeed(clockType) && !SetsHighSpeed(clockType) ==> r == h1
  {
    HighSpeedBits(h1);
    if ClearsHighSpeed(clockType) then h1 & 0xFB
    else if SetsHighSpeed(clockType) then h1 | 0x04
    else h1
  }
  /** The UHS step of Host Control 1 leaves the data bus width as it was. */
  lemma HighSpeedKeepsWidth(h1: bv8, clockType: nat)
    ensures GetBusWidth(UhsHostCtl1(h1, clockType)) == GetBusWidth(h1)
  {
  }


  /** The UHS mode a clock type selects in Host Control 2 bits 2:0, if any:
      mode 3 for types 3, 11, 13 and 14, mode 5 for type 4, mode 0 for type
      8 and mode 2 for type 10. */
  function UhsMode(clockType: nat): (m: Option<bv16>)
    ensures m.Some? ==> m.value < 8
    ensures m.Some? <==> clockType in {3, 4, 8, 10, 11, 13, 14}
  {
    if clockType == 3 || clockType == 11 || clockType == 13 || clockType == 14 then Some(3)
    else if clockType == 4 then Some(5)
    else if clockType == 8 then Some(0)
    else if clockType == 10 then Some(2)
    else None
  }

  /** Clock types whose UHS step clears the 1.8V signalling enable: 0, 1, 2, 5, 6 and 7. */
  predicate Clears18(clockType: nat) {
    ClearsHighSpeed(clockType) || SetsHighSpeed(clockType)
  }

  /** `h` is `h0` with the 1.8V signalling enable (Host Control 2 bit 3) cleared. */
  predicate Signal18Cleared(h: bv16, h0: bv16) {
    h & 0x08 == 0 && h & 0xFFF7 == h0 & 0xFFF7
  }

  /** `h` is `h0` with UHS mode `mode` in bits 2:0 and the 1.8V signalling
      enable set; bits 15:4 are kept. */
  predicate ModeSelected(h: bv16, h0: bv16, mode: bv16) {
    h & 0x07 == mode && h & 0x08 == 0x08 && h & 0xFFF0 == h0 & 0xFFF0
  }

  lemma UhsModeBits(h: bv16, mode: bv16)
    requires mode < 8
    ensures (((h & 0xFFF8) | mode) | 0x08) & 0x07 == mode
    ensures (((h & 0xFFF8) | mode) | 0x08) & 0x08 == 0x08
    ensures (((h & 0xFFF8) | mode) | 0x08) & 0xFFF0 == h & 0xFFF0
  {
  }

  lemma Clear18Bits(h: bv16)
    ensures (h & 0xFFF7) & 0x08 == 0
    ensures (h & 0xFFF7) & 0xFFF7 == h & 0xFFF7
  {
  }

  /** The Host Control 2 half of the UHS step: types with a UHS mode write
      it to bits 2:0 and then set the 1.8V signalling enable; types 0, 1,
      2, 5, 6 and 7 clear the 1.8V enable; other types change nothing. */
  function UhsHostCtl2(h2: bv16, clockType: nat): (r: bv16)
    ensures UhsMode(clockType).Some? ==> ModeSelected(r, h2, UhsMode(clockType).value)
    ensures Clears18(clockType) ==> Signal18Cleared(r, h2)
    ensures UhsMode(clockType).None? && !Clears18(clockType) ==> r == h2
  {
    if Clears18(clockType) then
      Clear18Bits(h2);
      h2 & 0xFFF7
    else if UhsMode(clockType).Some? then
      UhsModeBits(h2, UhsMode(clockType).value);
      ((h2 & 0xFFF8) | UhsMode(clockType).value) | 0x08
    else h2
  }

  /** No clock type both clears the 1.8V enable and selects a UHS mode. */
  lemma UhsStepsDisjoint(clockType: nat)
    ensures !(Clears18(clockType) && UhsMode(clockType).Some?)
  {
  }

  /** (n + d - 1) / d is the least q with q * d >= n. */
  lemma CeilingDivision(n: nat, d: nat)
    requires d > 0
    ensures var q := (n + d - 1) / d; q * d >= n && (q - 1) * d < n
  {
    var q := (n + d - 1) / d;
    var rem := (n + d - 1) % d;
    assert n + d - 1 == q * d + rem;
    assert (q - 1) * d == q * d - d;
  }

  /** A 16-bit quantity read as a number. */
  function Nat16(d: bv16): (n: nat)
    ensures n < 0x10000
    ensures n == 0 <==> d == 0
  {
    d as int
  }

  /** The rate bookkeeping `sdmmc_setup_clock` stores: `(src + d - 1) / d`
      in 32-bit unsigned arithmetic, so the sum wraps at 2^32. */
  function ClockDivisor(src: U32, d: nat): (q: U32)
    requires 0 < d < 0x10000
    ensures d == 1 ==> q == src
  {
    var sum := if src + d - 1 < 0x1_0000_0000 then src + d - 1 else src + d - 1 - 0x1_0000_0000;
    sum / d
  }

  /** The same computation for the 16-bit divisor the clock service returns. */
  function ClockDivisor16(src: U32, d: bv16): U32
    requires d != 0
  {
    ClockDivisor(src, Nat16(d))
  }

  /** The stored rate is the ceiling of src / d whenever the sum does not wrap. */
  lemma ClockDivisorIsCeiling(src: U32, d: nat)
    requires 0 < d < 0x10000
    ensures src + d - 1 < 0x1_0000_0000 ==> ClockDivisor(src, d) * d >= src && (ClockDivisor(src, d) - 1) * d < src
  {
    CeilingDivision(src, d);
  }

  /** The 10-bit SDCLK divider a Clock Control value holds: bits 15:8 are
      its low byte and bits 7:6 its upper two bits. */
  function DividerField(c: bv16): bv16 {
    (c >> 8) | (((c >> 6) & 0x3) << 8)
  }

  /** `c` keeps bits 5:0 of `c0`, among them the SD clock enable. */
  predicate LowBitsKept(c: bv16, c0: bv16) {
    c & 0x3F == c0 & 0x3F
  }

  lemma DividerBits(c: bv16, div: bv16, upper: bv16)
    requires upper == div >> 8
    ensures (((c & 0x3F) | (div << 8)) | (upper << 6)) & 0x3F == c & 0x3F
    ensures (((c & 0x3F) | (div << 8)) | (upper << 6)) & 0x0004 == c & 0x0004
    ensures div <= 0x3FF ==> ((((c & 0x3F) | (div << 8)) | (upper << 6)) >> 8) | ((((((c & 0x3F) | (div << 8)) | (upper << 6)) >> 6) & 0x3) << 8) == div
  {
  }

  /** The divider write of `sdmmc_setup_clock`: Clock Control keeps bits
      5:0 and receives `d >> 1` as the divider, its upper bits only when it
      exceeds 0xFF. A halved divisor wider than the 10-bit field spills
      into bits above it, so the field reads back only up to 0x3FF. */
  function ClkconDivider(c: bv16, d: bv16): (c': bv16)
    ensures LowBitsKept(c', c)
    ensures GateOn(c') == GateOn(c)
    ensures d >> 1 <= 0x3FF ==> DividerField(c') == d >> 1
  {
    var div := d >> 1;
    if div > 0xFF then
      DividerBits(c, div, div >> 8);
      ((c & 0x3F) | (div << 8)) | ((div >> 8) << 6)
    else
      DividerBits(c, div, 0);
      ((c & 0x3F) | (div << 8)) | (0 << 6)
  }

  lemma RegateBits(c: bv16, div: bv16, upper: bv16)
    requires c & 0x0004 == 0x0004
    requires upper == div >> 8
    ensures (((((c & 0xFFFB) & 0x3F) | (div << 8)) | (upper << 6)) | 0x0004) & 0x3F == c & 0x3F
    ensures div <= 0x3FF ==> ((((((c & 0xFFFB) & 0x3F) | (div << 8)) | (upper << 6)) | 0x0004) >> 8) | ((((((((c & 0xFFFB) & 0x3F) | (div << 8)) | (upper << 6)) | 0x0004) >> 6) & 0x3) << 8) == div
  {
  }

  /** The Clock Control writes of `sdmmc_setup_clock`: when the SD clock
      was on, the gate is dropped, the divider is written, and the gate is
      raised again; otherwise only the divider is written. Either way the
      gate ends as it began, bits 5:0 are kept, and the divider field holds
      `d >> 1` whenever that fits. */
  function SetupClkcon(c: bv16, d: bv16): (c': bv16)
    ensures GateOn(c') == GateOn(c)
    ensures LowBitsKept(c', c)
    ensures d >> 1 <= 0x3FF ==> DividerField(c') == d >> 1
  {
    var div := d >> 1;
    if !GateOn(c) then ClkconDivider(c, d)
    else if div > 0xFF then
      RegateBits(c, div, div >> 8);
      SetGate(ClkconDivider(SetGate(c, false), d), true)
    else
      RegateBits(c, div, 0);
      SetGate(ClkconDivider(SetGate(c, false), d), true)
  }

  /** `c` is `c0` with the type-4 calibration request, bit 31, set. */
  predicate CalibrationRequested(c: bv32, c0: bv32) {
    c & 0x80000000 == 0x80000000 && c & 0x7FFFFFFF == c0 & 0x7FFFFFFF
  }

  lemma Bit31Bits(x: bv32)
    ensures (x | 0x80000000) & 0x80000000 == 0x80000000
    ensures (x | 0x80000000) & 0x7FFFFFFF == x & 0x7FFFFFFF
  {
  }

  /** The write to vendor register 1B0h that starts the type-4 calibration. */
  function RequestCalibration(x: bv32): (c: bv32)
    ensures CalibrationRequested(c, x)
  {
    Bit31Bits(x);
    x | 0x80000000
  }

  /** `_sdmmc_wait_type4`: raises the SD clock gate if it was off, requests
      the type-4 calibration, waits on the two completion bits (bit 31 of
      registers 1B0h and 1BCh), and drops the gate again if it raised it;
      the result is success only if both waits end before their deadlines.
      The completion bits are the hardware's; the waits' outcomes are
      parameters. Clock Control is left as it was. */
  function WaitType4(r: Regs, first: Poll, second: Poll): (w: Ret<Regs>)
    ensures w.ok <==> first == Ready && second == Ready
    ensures CalibrationRequested(w.val.field1B0, r.field1B0)
    ensures w.val == r.(field1B0 := w.val.field1B0)
  {
    Ret(first == Ready && second == Ready,
        r.(clkcon := PulseGate(r.clkcon), field1B0 := RequestCalibration(r.field1B0)))
  }

  /** `sdmmc_setup_clock`. The clock service's answer (`src`, the source
      rate after the source is configured, and `d`, the mode's divisor)
      and the outcomes of the type-4 waits are parameters. The verdict of
      the vendor clock select is discarded, so a type 4 without a captured
      tap is not an error: venclkctl is simply left alone. The SD clock
      gate is dropped around the configuration and ends as it began. */
  function SetupClock(s: Sdmmc, clockType: nat, src: U32, d: bv16, first: Poll, second: Poll): (r: Ret<Sdmmc>)
    requires d != 0
    ensures r.ok <==> clockType != 4 || (first == Ready && second == Ready)
    ensures r.val == s.(regs := r.val.regs, divisor := ClockDivisor16(src, d))
  {
    var cfg := ConfigVenCeataClk(s, clockType).val;
    var regs := cfg.regs.(hostctl := UhsHostCtl1(cfg.regs.hostctl, clockType),
                          hostctl2 := UhsHostCtl2(cfg.regs.hostctl2, clockType),
                          clkcon := SetupClkcon(cfg.regs.clkcon, d));
    var w := WaitType4(regs, first, second);
    Ret(clockType != 4 || w.ok, cfg.(regs := if clockType == 4 then w.val else regs, divisor := ClockDivisor16(src, d)))
  }

  /** On return from `sdmmc_setup_clock` the SD clock gate has its value
      on entry, on every path and for both outcomes of the type-4 waits;
      bits 5:0 of Clock Control are kept and the divider field holds
      `d >> 1` whenever that fits. */
  lemma SetupClockKeepsGate(s: Sdmmc, clockType: nat, src: U32, d: bv16, first: Poll, second: Poll)
    requires d != 0
    ensures ClockOn(SetupClock(s, clockType, src, d, first, second).val.regs) == ClockOn(s.regs)
    ensures LowBitsKept(SetupClock(s, clockType, src, d, first, second).val.regs.clkcon, s.regs.clkcon)
    ensures d >> 1 <= 0x3FF ==> DividerField(SetupClock(s, clockType, src, d, first, second).val.regs.clkcon) == d >> 1
  {
  }

  /** The UHS step and the vendor clock select of `sdmmc_setup_clock` act on
      Host Control 1 and 2 and on the vendor registers exactly as on their
      own; the type-4 calibration request is the only other write. */
  lemma SetupClockSteps(s: Sdmmc, clockType: nat, src: U32, d: bv16, first: Poll, second: Poll)
    requires d != 0
    ensures var r := SetupClock(s, clockType, src, d, first, second).val.regs;
      && r.hostctl == UhsHostCtl1(s.regs.hostctl, clockType)
      && r.hostctl2 == UhsHostCtl2(s.regs.hostctl2, clockType)
    ensures var r := SetupClock(s, clockType, src, d, first, second).val.regs;
      var c := ConfigVenCeataClk(s, clockType).val.regs;
      r.venceatactl == c.venceatactl && r.field1C0 == c.field1C0 && r.venclkctl == c.venclkctl
    ensures var r := SetupClock(s, clockType, src, d, first, second).val.regs;
      clockType == 4 ==> CalibrationRequested(r.field1B0, s.regs.field1B0)
    ensures var r := SetupClock(s, clockType, src, d, first, second).val.regs;
      clockType != 4 ==> r.field1B0 == s.regs.field1B0
    ensures var r := SetupClock(s, clockType, src, d, first, second).val.regs;
      r == s.regs.(hostctl := r.hostctl, hostctl2 := r.hostctl2, clkcon := r.clkcon,
                   venceatactl := r.venceatactl, field1C0 := r.field1C0,
                   venclkctl := r.venclkctl, field1B0 := r.field1B0)
  {
  }

  /** The gate invariant: the SD clock output is on exactly when the
      driver holds it logically enabled and the card clock is not
      suppressed. */
  predicate GateConsistent(s: Sdmmc) {
    ClockOn(s.regs) == (s.sdClockEnabled && !s.noSd)
  }

  /** The Clock Control write of `_sdmmc_sd_clock_enable`: the gate is
      raised when it is off, unless the card clock is suppressed. */
  function EnableGate(c: bv16, noSd: bool): (c': bv16)
    ensures GateOn(c') == (GateOn(c) || !noSd)
    ensures SameExceptGate(c', c)
  {
    if !noSd && !GateOn(c) then SetGate(c, true) else c
  }

  /** `_sdmmc_sd_clock_enable`: adjusts the gate and marks the clock logically enabled. */
  function SdClockEnable(s: Sdmmc): (t: Sdmmc)
    ensures t.sdClockEnabled
    ensures ClockOn(t.regs) == (ClockOn(s.regs) || !s.noSd)
    ensures t == s.(sdClockEnabled := true, regs := s.regs.(clkcon := t.regs.clkcon))
  {
    s.(sdClockEnabled := true, regs := s.regs.(clkcon := EnableGate(s.regs.clkcon, s.noSd)))
  }

  /** `_sdmmc_sd_clock_disable`: marks the clock logically disabled and gates it off. */
  function SdClockDisable(s: Sdmmc): (t: Sdmmc)
    ensures !t.sdClockEnabled && !ClockOn(t.regs)
    ensures t == s.(sdClockEnabled := false, regs := s.regs.(clkcon := t.regs.clkcon))
  {
    s.(sdClockEnabled := false, regs := SetClock(s.regs, false))
  }

  /** The Clock Control write of `sdmmc_sd_clock_ctrl`: suppression drops
      the gate if it is on; otherwise a logically enabled clock has its
      gate raised if it is off. */
  function CtrlGate(c: bv16, noSd: bool, enabled: bool): (c': bv16)
    ensures noSd ==> !GateOn(c')
    ensures !noSd ==> GateOn(c') == (GateOn(c) || enabled)
    ensures SameExceptGate(c', c)
  {
    if noSd then (if !GateOn(c) then c else SetGate(c, false))
    else if enabled && !GateOn(c) then SetGate(c, true)
    else c
  }

  /** `sdmmc_sd_clock_ctrl`: records the suppression policy and adjusts the gate. */
  function SdClockCtrl(s: Sdmmc, noSd: bool): (t: Sdmmc)
    ensures t.noSd == noSd
    ensures noSd ==> !ClockOn(t.regs)
    ensures !noSd ==> ClockOn(t.regs) == (ClockOn(s.regs) || s.sdClockEnabled)
    ensures t == s.(noSd := noSd, regs := s.regs.(clkcon := t.regs.clkcon))
  {
    s.(noSd := noSd, regs := s.regs.(clkcon := CtrlGate(s.regs.clkcon, noSd, s.sdClockEnabled)))
  }

  /** The gate operations keep the gate invariant; disabling establishes it
      from any state, and so does enabling unless the clock is suppressed. */
  lemma GateOperationsKeepConsistency(s: Sdmmc, noSd: bool)
    ensures !s.noSd ==> GateConsistent(SdClockEnable(s))
    ensures GateConsistent(SdClockDisable(s))
    ensures GateConsistent(s) ==> GateConsistent(SdClockCtrl(s, noSd))
    ensures GateConsistent(s) ==> GateConsistent(SdClockEnable(s))
  {
  }
}

=== FILE: command.dfy ===
/** Issuing a command: the Command register (00Eh, section 2.2.6 of the SD
    Host Controller Simplified Specification, version 3.00) and the
    Transfer Mode register (00Ch, section 2.2.5) for the single-block
    reads of tuning. */
module Command {
  import opened Header
  import opened Controller
  import opened Power

  /** The response length the Command register selects in bits 1:0. */
  datatype RespLength = NoResponse | Length136 | Length48 | Length48Busy

  /** Reads the response length field of a Command register value. */
  function RespLengthOf(c: bv16): RespLength {
    if c & 0x03 == 0x00 then NoResponse
    else if c & 0x03 == 0x01 then Length136
    else if c & 0x03 == 0x02 then Length48
    else Length48Busy
  }

  /** Command CRC check enable, bit 3. */
  predicate CrcCheckOn(c: bv16) {
    c & 0x08 != 0
  }

  /** Command index check enable, bit 4. */
  predicate IndexCheckOn(c: bv16) {
    c & 0x10 != 0
  }

  /** Data present select, bit 5. */
  predicate DataPresentOn(c: bv16) {
    c & 0x20 != 0
  }

  /** The command index field, bits 15:8. */
  function CommandIndexOf(c: bv16): bv16 {
    c >> 8
  }

  /** The response length each response type calls for: none for type 0,
      136 bits for type 2, 48 bits for the others, with busy signalling for
      types 1, 4 and 5 when the command checks busy. */
  function LengthFor(rspType: nat, checkBusy: bool): RespLength {
    if rspType == RspType0 then NoResponse
    else if rspType == RspType2 then Length136
    else if rspType == RspType3 || !checkBusy then Length48
    else Length48Busy
  }

  /** Response types whose response carries a CRC the controller checks: 1, 2, 4 and 5. */
  predicate CrcCheckedFor(rspType: nat) {
    rspType == RspType1 || rspType == RspType2 || rspType == RspType4 || rspType == RspType5
  }

  /** Response types whose response echoes the command index: 1, 4 and 5. */
  predicate IndexCheckedFor(rspType: nat) {
    rspType == RspType1 || rspType == RspType4 || rspType == RspType5
  }

  /** The flags `_sdmmc_parse_cmdbuf` builds for a response type, before
      the data present select; none for a type above 5. */
  function CmdFlags(rspType: nat, checkBusy: bool): (f: Option<bv16>)
    ensures f.Some? <==> rspType <= 5
  {
    if rspType == RspType0 then Some(0x00)
    else if rspType == RspType1 || rspType == RspType4 || rspType == RspType5 then
      Some((if checkBusy then 0x03 else 0x02) | 0x10 | 0x08)
    else if rspType == RspType2 then Some(0x01 | 0x08)
    else if rspType == RspType3 then Some(0x02)
    else None
  }

  /** The Command register value: the command index in the high byte and
      the flags, with the data present select when there is data, below it. */
  function EncodeCmdreg(opcode: bv16, flags: bv16, dataPresent: bool): (c: bv16)
    ensures dataPresent ==> DataPresentOn(c)
    ensures flags & 0xFFE0 == 0 ==> c & 0x1F == flags
    ensures flags & 0xFFE0 == 0 ==> DataPresentOn(c) == dataPresent
    ensures flags & 0xFFE0 == 0 ==> CommandIndexOf(c) == opcode & 0xFF
  {
    (opcode << 8) | (if dataPresent then flags | 0x20 else flags)
  }

  lemma FlagFieldBits(opcode: bv16, flags: bv16, dataPresent: bool)
    requires flags & 0xFFE0 == 0
    ensures EncodeCmdreg(opcode, flags, dataPresent) & 0x1F == flags
    ensures DataPresentOn(EncodeCmdreg(opcode, flags, dataPresent)) == dataPresent
    ensures CommandIndexOf(EncodeCmdreg(opcode, flags, dataPresent)) == opcode & 0xFF
    ensures EncodeCmdreg(opcode, flags, dataPresent) & 0xC0 == 0
  {
  }

  lemma FlagsFieldsFor(rspType: nat, checkBusy: bool)
    requires rspType <= 5
    ensures CmdFlags(rspType, checkBusy).value & 0xFFE0 == 0
    ensures RespLengthOf(CmdFlags(rspType, checkBusy).value) == LengthFor(rspType, checkBusy)
    ensures CrcCheckOn(CmdFlags(rspType, checkBusy).value) == CrcCheckedFor(rspType)
    ensures IndexCheckOn(CmdFlags(rspType, checkBusy).value) == IndexCheckedFor(rspType)
  {
  }

  lemma LowFieldsKept(c: bv16, flags: bv16)
    requires c & 0x1F == flags
    ensures RespLengthOf(c) == RespLengthOf(flags)
    ensures CrcCheckOn(c) == CrcCheckOn(flags)
    ensures IndexCheckOn(c) == IndexCheckOn(flags)
  {
  }

  /** The Command register decodes to what the command asks for: its
      index, the response length its type needs, CRC and index checks as
      the type's response allows, and data present exactly when there is
      data. Bits 7:6 (command type) stay 00, a normal command. */
  lemma CmdregFields(opcode: bv16, rspType: nat, checkBusy: bool, dataPresent: bool)
    requires rspType <= 5
    ensures var c := EncodeCmdreg(opcode, CmdFlags(rspType, checkBusy).value, dataPresent);
      && CommandIndexOf(c) == opcode & 0xFF
      && RespLengthOf(c) == LengthFor(rspType, checkBusy)
      && CrcCheckOn(c) == CrcCheckedFor(rspType)
      && IndexCheckOn(c) == IndexCheckedFor(rspType)
      && DataPresentOn(c) == dataPresent
      && c & 0xC0 == 0
  {
    var flags := CmdFlags(rspType, checkBusy).value;
    FlagsFieldsFor(rspType, checkBusy);
    FlagFieldBits(opcode, flags, dataPresent);
    LowFieldsKept(EncodeCmdreg(opcode, flags, dataPresent), flags);
  }

  /** `_sdmmc_parse_cmdbuf`: writes the argument and the Command register.
      A response type above 5 fails before either write. */
  function ParseCmdbuf(r: Regs, cmd: Cmd, dataPresent: bool): (p: Ret<Regs>)
    ensures p.ok <==> cmd.rspType <= 5
    ensures !p.ok ==> p.val == r
    ensures p.ok ==> p.val == r.(argument := cmd.arg, cmdreg := p.val.cmdreg)
  {
    match CmdFlags(cmd.rspType, cmd.checkBusy)
    case None => Ret(false, r)
    case Some(flags) => Ret(true, r.(argument := cmd.arg, cmdreg := EncodeCmdreg(cmd.opcode, flags, dataPresent)))
  }

  /** The argument and Command registers hold `cmd`: its argument, its
      index, the response length its type needs, CRC and index checks as
      the type's response allows, and data present exactly when
      `dataPresent`. */
  predicate CommandIssued(r: Regs, cmd: Cmd, dataPresent: bool) {
    r.argument == cmd.arg && CmdregFor(r.cmdreg, cmd, dataPresent)
  }

  /** A Command register value decodes to `cmd`'s index, the response
      length its type needs, CRC and index checks as the type's response
      allows, and data present exactly when `dataPresent`. */
  predicate CmdregFor(c: bv16, cmd: Cmd, dataPresent: bool) {
    && CommandIndexOf(c) == cmd.opcode & 0xFF
    && RespLengthOf(c) == LengthFor(cmd.rspType, cmd.checkBusy)
    && CrcCheckOn(c) == CrcCheckedFor(cmd.rspType)
    && IndexCheckOn(c) == IndexCheckedFor(cmd.rspType)
    && DataPresentOn(c) == dataPresent
  }

  /** A command that `_sdmmc_parse_cmdbuf` accepts is what the registers
      then hold. */
  lemma ParseCmdbufEncodes(r: Regs, cmd: Cmd, dataPresent: bool)
    requires cmd.rspType <= 5
    ensures CommandIssued(ParseCmdbuf(r, cmd, dataPresent).val, cmd, dataPresent)
  {
    CmdregFields(cmd.opcode, cmd.rspType, cmd.checkBusy, dataPresent);
  }

  /** `_sdmmc_parse_cmd_48`: issues `opcode` with a zero argument as a
      type-1 command without busy and with data (the tuning block). */
  function ParseCmd48(r: Regs, opcode: bv16): (r': Regs)
    ensures r' == r.(argument := 0, cmdreg := r'.cmdreg)
    ensures CommandIndexOf(r'.cmdreg) == opcode & 0xFF && DataPresentOn(r'.cmdreg)
    ensures RespLengthOf(r'.cmdreg) == Length48 && CrcCheckOn(r'.cmdreg) && IndexCheckOn(r'.cmdreg)
  {
    ParseCmdbufEncodes(r, Cmd(opcode, 0, RspType1, false), true);
    ParseCmdbuf(r, Cmd(opcode, 0, RspType1, false), true).val
  }

  /** The Transfer Mode fields (section 2.2.5): DMA enable (bit 0), block
      count enable (bit 1), Auto CMD12 (value 01b of bits 3:2), read
      direction (bit 4) and multi-block (bit 5). */
  datatype TransferMode = TransferMode(dma: bool, blockCount: bool, autoCmd12: bool, read: bool, multiBlock: bool)

  /** Reads the fields of a Transfer Mode value. */
  function DecodeTrnmod(t: bv16): TransferMode {
    TransferMode(t & 0x01 != 0, t & 0x02 != 0, t & 0x0C == 0x04, t & 0x10 != 0, t & 0x20 != 0)
  }

  /** The number of data lines a bus width drives. */
  function DataLines(width: nat): bv16 {
    if width == BusWidth8 then 8 else if width == BusWidth4 then 4 else 1
  }

  /** `_sdmmc_setup_read_small_block`: prepares the single-block read of a
      tuning block. A 1-bit bus fails with nothing written; otherwise the
      block is 64 bytes on a 4-bit bus and 128 on an 8-bit bus, the count
      is one, and the transfer is a plain read. */
  function SetupReadSmallBlock(r: Regs): (p: Ret<Regs>)
    ensures p.ok <==> GetBusWidth(r.hostctl) != BusWidth1
    ensures !p.ok ==> p.val == r
    ensures p.ok ==> p.val == r.(blksize := p.val.blksize, blkcnt := 1, trnmod := p.val.trnmod)
  {
    var width := GetBusWidth(r.hostctl);
    if width == BusWidth1 then Ret(false, r)
    else
      var size: bv16 := if width == BusWidth4 then 0x40 else if width == BusWidth8 then 0x80 else r.blksize;
      Ret(true, r.(blksize := size, blkcnt := 1, trnmod := 0x10))
  }

  /** The tuning block is 16 bytes per data line, read as one block
      without DMA, block count or Auto CMD12. */
  lemma SmallBlockShape(r: Regs)
    requires GetBusWidth(r.hostctl) != BusWidth1
    ensures SetupReadSmallBlock(r).val.blksize == 16 * DataLines(GetBusWidth(r.hostctl))
    ensures DecodeTrnmod(SetupReadSmallBlock(r).val.trnmod) == TransferMode(false, false, false, true, false)
  {
  }
}

=== FILE: controller.dfy ===
/** The controller instance: the memory-mapped register block, held as a
    record of register values, and the driver's bookkeeping for one
    controller. Every driver routine is a pure transformer of `Sdmmc`. */
module Controller {
  import opened Header

  /** The four controllers of the SoC. */
  type SdmmcId = i: nat | i < 4

  /** An unsigned 32-bit quantity used arithmetically rather than bitwise. */
  type U32 = x: nat | x < 0x1_0000_0000

  /** Four response words, in the order the driver hands them to its caller. */
  datatype Words4 = Words4(w0: bv32, w1: bv32, w2: bv32, w3: bv32)

  /** The registers the modelled routines touch, sized as the source's
      literal masks imply. Registers that the hardware owns (responses,
      present state, capabilities, interrupt status) hold the values the
      controller shows. */
  datatype Regs = Regs(
    argument: bv32, blksize: bv16, blkcnt: bv16, trnmod: bv16, cmdreg: bv16,
    rspreg0: bv32, rspreg1: bv32, rspreg2: bv32, rspreg3: bv32,
    prnsts: bv32, hostctl: bv8, pwrcon: bv8, clkcon: bv16, timeoutcon: bv8, swrst: bv8,
    norintsts: bv16, errintsts: bv16, norintstsen: bv16, errintstsen: bv16,
    hostctl2: bv16, capareg: bv32, admaaddr: bv32,
    venclkctl: bv32, venceatactl: bv32, field1AC: bv32, field1B0: bv32, field1BC: bv32,
    field1C0: bv32, field1C4: bv32, field1F0: bv32, autocalcfg: bv32, sdmemcmppadctl: bv32)

  /** Driver state for one controller (`sdmmc_t`). */
  datatype Sdmmc = Sdmmc(
    regs: Regs,
    base: bv32,
    id: SdmmcId,
    divisor: U32,
    sdClockEnabled: bool,
    noSd: bool,
    clockStopped: bool,
    expectedRspType: nat,
    rsp: Words4,
    rsp3: bv32,
    venclkctlTap: bv32,
    venclkctlSet: bool,
    dmaAddrNext: bv32)

  datatype Option<T> = None | Some(value: T)

  /** A routine's integer verdict (non-zero is success) with the value it leaves behind. */
  datatype Ret<T> = Ret(ok: bool, val: T)

  /** The outcome of one bounded busy-wait: the awaited condition was seen, or the deadline passed. */
  datatype Poll = Ready | TimedOut

  /** A command buffer (`sdmmc_cmd_t`). */
  datatype Cmd = Cmd(opcode: bv16, arg: bv32, rspType: nat, checkBusy: bool)

  /** A data request (`sdmmc_req_t`); `buf` is the 32-bit physical address the DMA engine receives. */
  datatype Req = Req(buf: bv32, blksize: bv16, numSectors: bv32, isWrite: bool, isMultiBlock: bool, isAutoCmd12: bool)

  /** The register base addresses, indexed by controller id (`_sdmmc_bases`). */
  const SdmmcBases: seq<bv32> := [0x700B0000, 0x700B0200, 0x700B0400, 0x700B0600]

  /** The base address of a controller's register block: four blocks in
      ascending 0x200-byte strides from 0x700B0000. */
  function BaseAddress(id: SdmmcId): (b: bv32)
    ensures b as int == 0x700B0000 + 0x200 * id
  {
    SdmmcBases[id]
  }

  /** Whether the SD clock output is gated on in a Clock Control value (bit 2). */
  predicate GateOn(c: bv16) {
    c & 0x0004 == 0x0004
  }

  /** Two Clock Control values that agree everywhere but in the SD clock enable bit. */
  predicate SameExceptGate(c: bv16, d: bv16) {
    c & 0xFFFB == d & 0xFFFB
  }

  /** Whether the SD clock output is gated on in the Clock Control register. */
  predicate ClockOn(r: Regs) {
    GateOn(r.clkcon)
  }

  lemma GateBits(c: bv16)
    ensures (c | 0x0004) & 0x0004 == 0x0004
    ensures (c | 0x0004) & 0xFFFB == c & 0xFFFB
    ensures (c & 0xFFFB) & 0x0004 != 0x0004
    ensures (c & 0xFFFB) & 0xFFFB == c & 0xFFFB
  {
  }

  /** Sets or clears the SD clock enable bit of a Clock Control value; the
      other bits keep their values. */
  function SetGate(c: bv16, on: bool): (c': bv16)
    ensures GateOn(c') == on
    ensures SameExceptGate(c', c)
  {
    GateBits(c);
    if on then c | 0x0004 else c & 0xFFFB
  }

  lemma PulseBits(c: bv16)
    requires c & 0x0004 != 0x0004
    ensures (c | 0x0004) & 0xFFFB == c
  {
  }

  lemma RestoreBits(c: bv16)
    requires c & 0x0004 == 0x0004
    ensures (c & 0xFFFB) | 0x0004 == c
  {
  }

  /** The gate bracket of a routine that needs the SD clock running: the
      gate is raised when it was off and dropped again afterwards. With no
      write to Clock Control in between, the register is left as it was. */
  function PulseGate(c: bv16): (c': bv16)
    ensures c' == c
  {
    if GateOn(c) then c
    else
      PulseBits(c);
      SetGate(SetGate(c, true), false)
  }

  /** The opposite bracket, of a routine that must run with the SD clock
      stopped: the gate is dropped when it was on and raised again
      afterwards, which also leaves Clock Control as it was. */
  function PauseGate(c: bv16): (c': bv16)
    ensures c' == c
  {
    if !GateOn(c) then c
    else
      RestoreBits(c);
      SetGate(SetGate(c, false), true)
  }

  /** Gates the SD clock on or off; no other register changes. */
  function SetClock(r: Regs, on: bool): (r': Regs)
    ensures ClockOn(r') == on
    ensures SameExceptGate(r'.clkcon, r.clkcon)
    ensures r' == r.(clkcon := r'.clkcon)
  {
    r.(clkcon := SetGate(r.clkcon, on))
  }

  /** Whether a software reset of both the command and the data lines is
      requested in a Software Reset value (bits 1 and 2). */
  predicate ResetLinesSet(x: bv8) {
    x & 0x06 == 0x06
  }

  /** Two Software Reset values that agree outside the command and data line bits. */
  predicate SameExceptLines(x: bv8, y: bv8) {
    x & 0xF9 == y & 0xF9
  }

  /** Whether a software reset of both the command and the data lines has been requested. */
  predicate ResetRequested(r: Regs) {
    ResetLinesSet(r.swrst)
  }

  lemma ResetBits(x: bv8)
    ensures (x | 0x06) & 0x06 == 0x06
    ensures (x | 0x06) & 0xF9 == x & 0xF9
  {
  }

  /** `_sdmmc_reset`: requests a software reset of the command and data
      lines. The wait for the hardware to clear the request is the
      hardware's reaction and is not modelled. */
  function Reset(r: Regs): (r': Regs)
    ensures ResetRequested(r')
    ensures SameExceptLines(r'.swrst, r.swrst)
    ensures r' == r.(swrst := r'.swrst)
  {
    ResetBits(r.swrst);
    r.(swrst := r.swrst | 0x06)
  }

  /** A bounded wait on the present-state register (`_sdmmc_wait_prnsts_type0`
      for one inhibit bit, `_sdmmc_wait_prnsts_type1`): a timeout resets the
      command and data lines and fails; otherwise nothing changes. */
  function WaitPrnsts(r: Regs, poll: Poll): (w: Ret<Regs>)
    ensures w.ok <==> poll == Ready
    ensures w.ok ==> w.val == r
    ensures !w.ok ==> w.val == Reset(r)
  {
    if poll == Ready then Ret(true, r) else Ret(false, Reset(r))
  }

  /** `_sdmmc_wait_prnsts_type0`: waits for the command inhibit bit and,
      when `waitDat` is set, for the data inhibit bit too; the second wait
      only happens after the first succeeded. */
  function WaitInhibit(r: Regs, waitDat: bool, cmdPoll: Poll, datPoll: Poll): (w: Ret<Regs>)
    ensures w.ok <==> cmdPoll == Ready && (waitDat ==> datPoll == Ready)
    ensures w.ok ==> w.val == r
    ensures !w.ok ==> w.val == Reset(r)
  {
    var c := WaitPrnsts(r, cmdPoll);
    if !c.ok || !waitDat then c else WaitPrnsts(r, datPoll)
  }
}

=== FILE: dma.dfy ===
/** SDMA set-up and progress: the System Address (000h), Block Size
    (004h), Block Count (006h) and Transfer Mode (00Ch) writes of a data
    request, and the address step taken at each DMA boundary interrupt.

    The Block Size register's buffer boundary field (bits 14:12) is set to
    7, a 512 KiB boundary (section 2.2.2 of the SD Host Controller
    Simplified Specification, version 3.00): the DMA engine pauses at
    every 0x80000-byte boundary, and the driver then hands it the next
    boundary's address. */
module Dma {
  import opened Controller
  import opened Interrupts
  import opened Command

  /** Whether an address sits on a 512 KiB SDMA boundary. */
  predicate Aligned(a: bv32) {
    a & 0x7FFFF == 0
  }

  lemma BoundaryBits(buf: bv32)
    ensures ((buf + 0x80000) & 0xFFF80000) & 0x7FFFF == 0
    ensures buf < 0xFFF80000 ==> buf < (buf + 0x80000) & 0xFFF80000 && ((buf + 0x80000) & 0xFFF80000) - 0x80000 <= buf
    ensures buf >= 0xFFF80000 ==> (buf + 0x80000) & 0xFFF80000 == 0
  {
  }

  /** The first SDMA boundary strictly above `buf`: the least aligned
      address greater than it, or 0 when none fits in 32 bits. */
  function NextBoundary(buf: bv32): (n: bv32)
    ensures Aligned(n)
    ensures buf < 0xFFF80000 ==> buf < n && n - 0x80000 <= buf
    ensures buf >= 0xFFF80000 ==> n == 0
  {
    BoundaryBits(buf);
    (buf + 0x80000) & 0xFFF80000
  }

  lemma StepBits(a: bv32)
    ensures a & 0x7FFFF == 0 ==> (a + 0x80000) & 0x7FFFF == 0
  {
  }

  /** The boundary 512 KiB after `a`, wrapping at 2^32; the boundary
      after an aligned one is aligned. */
  function NextStep(a: bv32): (n: bv32)
    ensures Aligned(a) ==> Aligned(n)
  {
    StepBits(a);
    a + 0x80000
  }

  /** The number of blocks a request programs: its sector count, capped at
      0xFFFF, the largest the 16-bit Block Count register holds. */
  function BlockCount(numSectors: bv32): (n: bv16)
    ensures n as bv32 <= numSectors
    ensures n as bv32 < numSectors ==> n == 0xFFFF
  {
    if numSectors >= 0xFFFF then 0xFFFF else numSectors as bv16
  }

  /** The Transfer Mode value `_sdmmc_config_dma` builds: DMA always, block
      count and multi-block for a multi-block request, read unless it is a
      write, and bits 3:2 replaced by Auto CMD12 when asked. */
  function TrnmodFor(req: Req): (t: bv16)
    ensures DecodeTrnmod(t) == TransferMode(true, req.isMultiBlock, req.isAutoCmd12, !req.isWrite, req.isMultiBlock)
    ensures t & 0xFFC0 == 0
  {
    var t: bv16 := if req.isMultiBlock then 0x20 | 0x02 | 0x01 else 0x01;
    var t': bv16 := if !req.isWrite then t | 0x10 else t;
    if req.isAutoCmd12 then (t' & 0xFFF3) | 0x04 else t'
  }

  /** Two requests get the same Transfer Mode value exactly when they
      agree on direction, multi-block and Auto CMD12: the value carries
      those three options and nothing else of the request. */
  lemma TrnmodForDistinguishes(a: Req, b: Req)
    ensures TrnmodFor(a) == TrnmodFor(b) <==>
      a.isWrite == b.isWrite && a.isMultiBlock == b.isMultiBlock && a.isAutoCmd12 == b.isAutoCmd12
  {
    if TrnmodFor(a) == TrnmodFor(b) {
      assert DecodeTrnmod(TrnmodFor(a)) == DecodeTrnmod(TrnmodFor(b));
    }
  }

  /** `_sdmmc_config_dma`: a request with no block size or no sectors fails
      with nothing written. Otherwise the System Address receives the
      buffer, the next boundary is remembered, the Block Size register
      receives the block size with the 512 KiB boundary, the Block Count the
      capped count, and Transfer Mode the request's options. */
  function ConfigDma(s: Sdmmc, req: Req): (c: Ret<Sdmmc>)
    ensures c.ok <==> req.blksize != 0 && req.numSectors != 0
    ensures !c.ok ==> c.val == s
    ensures c.ok ==> c.val == s.(dmaAddrNext := c.val.dmaAddrNext,
                                 regs := s.regs.(admaaddr := req.buf, blksize := c.val.regs.blksize,
                                                 blkcnt := c.val.regs.blkcnt, trnmod := c.val.regs.trnmod))
  {
    if req.blksize == 0 || req.numSectors == 0 then Ret(false, s)
    else
      Ret(true, s.(dmaAddrNext := NextBoundary(req.buf),
                   regs := s.regs.(admaaddr := req.buf, blksize := req.blksize | 0x7000,
                                   blkcnt := BlockCount(req.numSectors), trnmod := TrnmodFor(req))))
  }

  lemma BlksizeBits(b: bv16)
    ensures (b | 0x7000) & 0x8FFF == b & 0x8FFF
    ensures ((b | 0x7000) >> 12) & 0x7 == 7
  {
  }

  /** An accepted request remembers the first boundary above its buffer. */
  lemma ConfigDmaBoundary(s: Sdmmc, req: Req)
    requires req.blksize != 0 && req.numSectors != 0
    ensures var t := ConfigDma(s, req).val;
      && Aligned(t.dmaAddrNext)
      && (req.buf < 0xFFF80000 ==> req.buf < t.dmaAddrNext && t.dmaAddrNext - 0x80000 <= req.buf)
  {
  }

  /** The block registers describe request `req` (sections 2.2.2 to 2.2.5
      of the SD Host Controller Simplified Specification, version 3.00):
      the request's size bits with the 512 KiB DMA boundary selected, the
      capped sector count, and a DMA transfer in the request's direction,
      with block count, multi-block and Auto CMD12 as the request asks. */
  predicate BlocksProgrammed(r: Regs, req: Req) {
    BlockFieldsFor(r.blksize, r.blkcnt, r.trnmod, req)
  }

  /** Block Size, Block Count and Transfer Mode values that describe `req`. */
  predicate BlockFieldsFor(blksize: bv16, blkcnt: bv16, trnmod: bv16, req: Req) {
    && blksize & 0x8FFF == req.blksize & 0x8FFF && (blksize >> 12) & 0x7 == 7
    && blkcnt == BlockCount(req.numSectors)
    && DecodeTrnmod(trnmod) == TransferMode(true, req.isMultiBlock, req.isAutoCmd12, !req.isWrite, req.isMultiBlock)
  }

  /** An accepted request leaves the block registers describing it. */
  lemma ConfigDmaProgrammed(s: Sdmmc, req: Req)
    requires req.blksize != 0 && req.numSectors != 0
    ensures BlocksProgrammed(ConfigDma(s, req).val.regs, req)
  {
    BlksizeBits(req.blksize);
  }

  /** The state the DMA polling loop works on: Normal Interrupt Status, the
      System Address register, and the remembered next boundary. */
  datatype DmaState = DmaState(nor: bv16, adma: bv32, next: bv32)

  /** The chain invariant: the remembered boundary is aligned, and once the
      System Address has moved off its starting value `start` it holds an
      aligned boundary with the remembered one right after it. */
  predicate Chained(d: DmaState, start: bv32) {
    && Aligned(d.next)
    && (d.adma != start ==> Aligned(d.adma) && d.next == NextStep(d.adma))
  }

  /** Whether a status snapshot shows transfer complete and no error. */
  predicate TransferDone(nor: bv16) {
    !ErrorRaised(nor) && nor & 0x0002 != 0
  }

  /** Whether a status snapshot shows neither transfer complete nor an error. */
  predicate TransferPending(nor: bv16) {
    !ErrorRaised(nor) && nor & 0x0002 == 0
  }

  /** What the loop of `_sdmmc_update_dma` does with one status value. */
  datatype DmaEvent = DmaFailed | DmaDone | DmaBoundary | DmaIdle

  lemma DoneIsHit(e: bv16)
    ensures e & 0x0002 != 0 ==> e & 0x000A != 0
  {
  }

  /** The check with transfer complete and DMA (0x000A) as the polled
      bits: an error interrupt fails; otherwise transfer complete ends the
      loop; otherwise a DMA boundary interrupt moves to the next boundary;
      a status with neither bit is polled again. */
  function DmaEventOf(e: bv16): (k: DmaEvent)
    ensures k == DmaDone <==> TransferDone(e)
    ensures k == DmaFailed ==> !TransferDone(e) && !TransferPending(e)
    ensures k == DmaBoundary || k == DmaIdle ==> TransferPending(e)
  {
    var res := Classify(e, 0x000A);
    DoneIsHit(e);
    if res == Error then DmaFailed
    else if res == Masked && e & 0x0002 != 0 then DmaDone
    else if res == Masked && e & 0x0008 != 0 then DmaBoundary
    else DmaIdle
  }

  /** The polling loop of `_sdmmc_update_dma` over the Normal Interrupt
      Status values it reads. Every read writes the status back as
      `_sdmmc_check_mask_interrupt` does. A DMA boundary interrupt moves the
      System Address to the remembered boundary and remembers the next one.
      Running out of snapshots is the deadline passing. */
  function PollDma(d: DmaState, start: bv32, snapshots: seq<bv16>): (p: Ret<DmaState>)
    ensures Chained(d, start) ==> Chained(p.val, start)
    decreases |snapshots|
  {
    if |snapshots| == 0 then Ret(false, d)
    else
      var d' := d.(nor := StatusAfter(snapshots[0], 0x000A));
      match DmaEventOf(snapshots[0])
      case DmaFailed => Ret(false, d')
      case DmaDone => Ret(true, d')
      case DmaBoundary => PollDma(d'.(adma := d.next, next := NextStep(d.next)), start, snapshots[1..])
      case DmaIdle => PollDma(d', start, snapshots[1..])
  }

  /** Whether the DMA polling loop succeeds on the status values it reads:
      some value shows transfer complete, and every earlier one shows
      neither completion nor an error. */
  predicate TransferCompletes(snapshots: seq<bv16>) {
    exists i :: 0 <= i < |snapshots| && TransferDone(snapshots[i])
                && forall j :: 0 <= j < i ==> TransferPending(snapshots[j])
  }

  /** The loop succeeds exactly when some snapshot shows transfer complete
      and every earlier one shows neither completion nor an error. */
  lemma {:induction false} PollDmaSucceeds(d: DmaState, start: bv32, snapshots: seq<bv16>)
    ensures PollDma(d, start, snapshots).ok <==> TransferCompletes(snapshots)
    decreases |snapshots|
  {
    if |snapshots| > 0 {
      var k := DmaEventOf(snapshots[0]);
      if k == DmaBoundary || k == DmaIdle {
        var d' := d.(nor := StatusAfter(snapshots[0], 0x000A));
        var rest := snapshots[1..];
        var next := if k == DmaBoundary then d'.(adma := d.next, next := NextStep(d.next)) else d';
        PollDmaSucceeds(next, start, rest);
        if PollDma(d, start, snapshots).ok {
          var i :| 0 <= i < |rest| && TransferDone(rest[i]) && forall j :: 0 <= j < i ==> TransferPending(rest[j]);
          assert TransferDone(snapshots[i + 1]);
          forall j | 0 <= j < i + 1
            ensures TransferPending(snapshots[j])
          {
            if j > 0 {
              assert snapshots[j] == rest[j - 1];
            }
          }
        } else {
          forall i | 0 <= i < |snapshots| && TransferDone(snapshots[i])
            ensures exists j :: 0 <= j < i && !TransferPending(snapshots[j])
          {
            assert i > 0;
            assert TransferDone(rest[i - 1]);
            var j :| 0 <= j < i - 1 && !TransferPending(rest[j]);
            assert rest[j] == snapshots[j + 1];
          }
        }
      }
    }
  }

  /** `a` advanced by `k` DMA boundaries. */
  function StepN(a: bv32, k: nat): (b: bv32)
    ensures Aligned(a) ==> Aligned(b)
    decreases k
  {
    if k == 0 then a else StepN(NextStep(a), k - 1)
  }

  /** The number of DMA boundary interrupts the loop acts on before it stops. */
  function BoundariesSeen(snapshots: seq<bv16>): (k: nat)
    ensures k <= |snapshots|
    decreases |snapshots|
  {
    if |snapshots| == 0 then 0
    else match DmaEventOf(snapshots[0])
      case DmaBoundary => 1 + BoundariesSeen(snapshots[1..])
      case DmaIdle => BoundariesSeen(snapshots[1..])
      case _ => 0
  }

  /** After `k` boundary interrupts the remembered boundary is `k` steps
      past the one remembered at the start and the System Address is the
      step before it; with none the System Address is unchanged. This
      pins the address down even when the chain wraps round to `start`. */
  lemma {:induction false} PollDmaSteps(d: DmaState, start: bv32, snapshots: seq<bv16>)
    ensures var p := PollDma(d, start, snapshots).val; var k := BoundariesSeen(snapshots);
      && p.next == StepN(d.next, k)
      && (k == 0 ==> p.adma == d.adma)
      && (k > 0 ==> p.adma == StepN(d.next, k - 1))
    decreases |snapshots|
  {
    if |snapshots| > 0 {
      var d' := d.(nor := StatusAfter(snapshots[0], 0x000A));
      match DmaEventOf(snapshots[0])
      case DmaBoundary => PollDmaSteps(d'.(adma := d.next, next := NextStep(d.next)), start, snapshots[1..]);
      case DmaIdle => PollDmaSteps(d', start, snapshots[1..]);
      case DmaDone =>
      case DmaFailed =>
    }
  }

  /** Resets the command and data lines when `ok` is false; only the
      Software Reset register changes. */
  function ResetOnFailure(ok: bool, t: Sdmmc): (t': Sdmmc)
    ensures t' == t.(regs := t.regs.(swrst := t'.regs.swrst))
    ensures !ok ==> ResetRequested(t'.regs)
  {
    if ok then t else t.(regs := Reset(t.regs))
  }

  /** The chain invariant read off a controller: its Normal Interrupt
      Status, System Address and remembered boundary. */
  predicate DmaChained(t: Sdmmc, start: bv32) {
    Chained(DmaState(t.regs.norintsts, t.regs.admaaddr, t.dmaAddrNext), start)
  }

  /** `_sdmmc_update_dma`, without the outer loop that re-arms the deadline
      while the block count keeps moving: polls for transfer completion,
      stepping the System Address at every DMA boundary, and resets the
      command and data lines on an error or when the deadline passes. A
      boundary chain started aligned, as `_sdmmc_config_dma` starts it,
      stays aligned. */
  function UpdateDma(s: Sdmmc, snapshots: seq<bv16>): (u: Ret<Sdmmc>)
    ensures u.ok <==> TransferCompletes(snapshots)
    ensures Aligned(s.dmaAddrNext) ==> DmaChained(u.val, s.regs.admaaddr)
    ensures !u.ok ==> ResetRequested(u.val.regs)
    ensures u.ok ==> u.val.regs.swrst == s.regs.swrst
    ensures u.val == s.(regs := s.regs.(norintsts := u.val.regs.norintsts, admaaddr := u.val.regs.admaaddr,
                                        swrst := u.val.regs.swrst), dmaAddrNext := u.val.dmaAddrNext)
  {
    var p := PollDma(DmaState(s.regs.norintsts, s.regs.admaaddr, s.dmaAddrNext), s.regs.admaaddr, snapshots);
    PollDmaSucceeds(DmaState(s.regs.norintsts, s.regs.admaaddr, s.dmaAddrNext), s.regs.admaaddr, snapshots);
    var t := s.(regs := s.regs.(norintsts := p.val.nor, admaaddr := p.val.adma), dmaAddrNext := p.val.next);
    Ret(p.ok, ResetOnFailure(p.ok, t))
  }

  /** `_sdmmc_update_dma` steps the System Address once per DMA boundary
      interrupt it acts on: after `k` of them the remembered boundary is
      `k` steps on and the System Address is the step before it. */
  lemma UpdateDmaSteps(s: Sdmmc, snapshots: seq<bv16>)
    ensures var u := UpdateDma(s, snapshots).val; var k := BoundariesSeen(snapshots);
      && u.dmaAddrNext == StepN(s.dmaAddrNext, k)
      && (k == 0 ==> u.regs.admaaddr == s.regs.admaaddr)
      && (k > 0 ==> u.regs.admaaddr == StepN(s.dmaAddrNext, k - 1))
  {
    PollDmaSteps(DmaState(s.regs.norintsts, s.regs.admaaddr, s.dmaAddrNext), s.regs.admaaddr, snapshots);
  }
}

=== FILE: header.dfy ===
/** The driver's enumerated tags.

    The register bit masks are written as literals where they are used:
    the TEGRA_MMC_* names are defined in a header that is not part of this
    model, and the literals are the encodings of section 2.2 of the SD Host
    Controller Simplified Specification, version 3.00, which that header
    follows:
      Power Control (029h, section 2.2.11): bus power 0x01; voltage select
        in bits 3:1, 0x0A for 1.8V and 0x0E for 3.3V.
      Host Control 1 (028h, section 2.2.10): 4-bit bus 0x02, 8-bit bus 0x20.
      Clock Control (02Ch, section 2.2.14): internal clock enable 0x0001,
        internal clock stable 0x0002, SD clock enable 0x0004, clock
        generator select 0x0020.
      Transfer Mode (00Ch, section 2.2.5): DMA 0x01, block count 0x02,
        Auto CMD12 0x04 (the value 01b of bits 3:2), read 0x10, multi-block
        0x20.
      Command (00Eh, section 2.2.6): response length 136 = 0x01, 48 = 0x02,
        48 with busy = 0x03; CRC check 0x08, index check 0x10, data present
        0x20.
      Normal Interrupt Status and its enables (030h, 034h): command complete
        0x0001, transfer complete 0x0002, DMA 0x0008, buffer read ready
        0x0020, error 0x8000.
      Software Reset (02Fh): command line 0x02, data line 0x04. */
module Header {

  // Controller ids: the source indexes four-entry tables with them, so they are 0..3.
  const Sdmmc1: nat := 0
  const Sdmmc2: nat := 1
  const Sdmmc3: nat := 2
  const Sdmmc4: nat := 3

  // Signalling voltages, and the sentinel a read of an inconsistent Power Control yields.
  const PowerOff: int := 0
  const Power18: int := 1
  const Power33: int := 2
  const VoltageInvalid: int := -1

  // Bus widths.
  const BusWidth1: nat := 0
  const BusWidth4: nat := 1
  const BusWidth8: nat := 2

  // Response types; type 0 (no response) must be 0 because the source tests the tag for zero.
  const RspType0: nat := 0
  const RspType1: nat := 1
  const RspType2: nat := 2
  const RspType3: nat := 3
  const RspType4: nat := 4
  const RspType5: nat := 5

  /** The 48-bit response types: 1, 3, 4 and 5. */
  predicate ShortRsp(t: nat) {
    t == RspType1 || t == RspType3 || t == RspType4 || t == RspType5
  }

  /** MMC command index 12, STOP_TRANSMISSION. */
  const MmcStopTransmission: nat := 12
}

=== FILE: interrupts.dfy ===
/** Interrupt enables and status (Normal and Error Interrupt Status and
    their Status Enable registers, 030h-036h): arming and disarming the
    interrupts a transaction polls for, classifying one status snapshot,
    and the wait for command completion.

    The status registers belong to the hardware: a poll sees a fresh value
    each time, so a wait takes the sequence of Normal Interrupt Status
    values it would read, and running out of them is its deadline passing.
    Status writes are write-1-to-clear on the hardware; here a write is the
    stored value only. */
module Interrupts {
  import opened Controller

  /** Whether the normal interrupts a transaction polls (command complete,
      transfer complete, DMA: bits 0, 1 and 3) are enabled. */
  predicate NormalArmed(x: bv16) {
    x & 0x000B == 0x000B
  }

  /** Whether those normal interrupts are disabled. */
  predicate NormalDisarmed(x: bv16) {
    x & 0x000B == 0
  }

  /** Two Normal Interrupt Status Enable values that agree outside bits 0, 1 and 3. */
  predicate SameOutsideNormal(x: bv16, y: bv16) {
    x & 0xFFF4 == y & 0xFFF4
  }

  /** Whether the error interrupts a transaction polls (bits 8 and 6:0) are enabled. */
  predicate ErrorsArmed(x: bv16) {
    x & 0x017F == 0x017F
  }

  /** Whether those error interrupts are disabled. */
  predicate ErrorsDisarmed(x: bv16) {
    x & 0x017F == 0
  }

  /** Two Error Interrupt Status Enable values that agree outside bits 8 and 6:0. */
  predicate SameOutsideErrors(x: bv16, y: bv16) {
    x & 0xFE80 == y & 0xFE80
  }

  lemma NormalBits(n: bv16)
    ensures (n | 0x000B) & 0x000B == 0x000B && (n | 0x000B) & 0xFFF4 == n & 0xFFF4
    ensures (n & 0xFFF4) & 0x000B == 0 && (n & 0xFFF4) & 0xFFF4 == n & 0xFFF4
  {
  }

  lemma ErrorBits(e: bv16)
    ensures (e | 0x017F) & 0x017F == 0x017F && (e | 0x017F) & 0xFE80 == e & 0xFE80
    ensures (e & 0xFE80) & 0x017F == 0 && (e & 0xFE80) & 0xFE80 == e & 0xFE80
  {
  }

  /** Enables the polled normal interrupts. */
  function ArmNormal(n: bv16): (n': bv16)
    ensures NormalArmed(n') && SameOutsideNormal(n', n)
  {
    NormalBits(n);
    n | 0x000B
  }

  /** Disables the polled normal interrupts. */
  function DisarmNormal(n: bv16): (n': bv16)
    ensures NormalDisarmed(n') && SameOutsideNormal(n', n)
  {
    NormalBits(n);
    n & 0xFFF4
  }

  /** Enables the polled error interrupts. */
  function ArmErrors(e: bv16): (e': bv16)
    ensures ErrorsArmed(e') && SameOutsideErrors(e', e)
  {
    ErrorBits(e);
    e | 0x017F
  }

  /** Disables the polled error interrupts. */
  function DisarmErrors(e: bv16): (e': bv16)
    ensures ErrorsDisarmed(e') && SameOutsideErrors(e', e)
  {
    ErrorBits(e);
    e & 0xFE80
  }

  /** `_sdmmc_enable_interrupts`: enables the polled normal and error
      interrupts. The status write-backs that follow clear pending status
      on the hardware and store nothing new. */
  function EnableInterrupts(r: Regs): (r': Regs)
    ensures NormalArmed(r'.norintstsen) && ErrorsArmed(r'.errintstsen)
    ensures r' == r.(norintstsen := r'.norintstsen, errintstsen := r'.errintstsen)
  {
    r.(norintstsen := ArmNormal(r.norintstsen), errintstsen := ArmErrors(r.errintstsen))
  }

  /** `_sdmmc_mask_interrupts`: disables the same interrupts again. */
  function MaskInterrupts(r: Regs): (r': Regs)
    ensures NormalDisarmed(r'.norintstsen) && ErrorsDisarmed(r'.errintstsen)
    ensures r' == r.(norintstsen := r'.norintstsen, errintstsen := r'.errintstsen)
  {
    r.(norintstsen := DisarmNormal(r.norintstsen), errintstsen := DisarmErrors(r.errintstsen))
  }

  lemma UnarmBits(n: bv16, e: bv16)
    ensures (n | 0x000B) & 0xFFF4 == n & 0xFFF4
    ensures (e | 0x017F) & 0xFE80 == e & 0xFE80
  {
  }

  /** The masks are the complements of the enables (0xFE80 is ~0x17F and
      0xFFF4 is ~0xB in 16 bits): masking after enabling leaves the enable
      registers exactly as masking alone would. */
  lemma MaskUndoesEnable(r: Regs)
    ensures MaskInterrupts(EnableInterrupts(r)) == MaskInterrupts(r)
  {
    UnarmBits(r.norintstsen, r.errintstsen);
  }

  /** The verdicts of `_sdmmc_check_mask_interrupt`. The source's codes are
      MASKED, which is not negative, and NOERROR and ERROR, which are. */
  datatype MaskInt = Masked | NoError | Error

  /** Whether a Normal Interrupt Status value reports an error interrupt (bit 15). */
  predicate ErrorRaised(nor: bv16) {
    nor & 0x8000 != 0
  }

  /** A classification: the verdict, the status value read (`*pout`) and
      the registers after the write-back. */
  datatype Check = Check(res: MaskInt, pout: bv16, regs: Regs)

  /** The verdict on one Normal Interrupt Status value: an error interrupt
      wins over everything; otherwise any set bit of `mask` is a hit. */
  function Classify(nor: bv16, mask: bv16): (m: MaskInt)
    ensures m == Error <==> ErrorRaised(nor)
    ensures m == Masked <==> !ErrorRaised(nor) && nor & mask != 0
  {
    if ErrorRaised(nor) then Error
    else if nor & mask != 0 then Masked
    else NoError
  }

  lemma WriteBackBits(nor: bv16, mask: bv16)
    ensures (nor & mask) & mask == nor & mask
    ensures (nor & mask) & !mask == 0
  {
  }

  /** The Normal Interrupt Status write of `_sdmmc_check_mask_interrupt`
      for the value `nor` read: exactly the bits of `mask` are written back
      on a hit, and nothing is written otherwise (the value stays `nor`).
      On an error only the Error Interrupt Status is written back, with the
      value read, which stores nothing new. */
  function StatusAfter(nor: bv16, mask: bv16): (n: bv16)
    ensures Classify(nor, mask) != Masked ==> n == nor
    ensures Classify(nor, mask) == Masked ==> n == nor & mask
  {
    if Classify(nor, mask) == Masked then nor & mask else nor
  }

  /** On a hit the value written back holds the masked bits of the value
      read and nothing else. */
  lemma WriteBackOnlyMasked(nor: bv16, mask: bv16)
    requires Classify(nor, mask) == Masked
    ensures StatusAfter(nor, mask) & mask == nor & mask
    ensures StatusAfter(nor, mask) & !mask == 0
  {
    WriteBackBits(nor, mask);
  }

  /** `_sdmmc_check_mask_interrupt`: classifies the current Normal
      Interrupt Status, hands the value read out, and writes the status back
      as `StatusAfter` says; no other register changes. */
  function CheckMaskInterrupt(r: Regs, mask: bv16): (c: Check)
    ensures c.pout == r.norintsts && c.res == Classify(r.norintsts, mask)
    ensures c.regs == r.(norintsts := StatusAfter(r.norintsts, mask))
  {
    Check(Classify(r.norintsts, mask), r.norintsts, r.(norintsts := StatusAfter(r.norintsts, mask)))
  }

  /** Whether a status snapshot shows command complete (bit 0) and no error. */
  predicate CommandDone(nor: bv16) {
    !ErrorRaised(nor) && nor & 0x0001 != 0
  }

  /** Whether a status snapshot shows neither command complete nor an error. */
  predicate CommandPending(nor: bv16) {
    !ErrorRaised(nor) && nor & 0x0001 == 0
  }

  lemma CommandCompleteBit(nor: bv16)
    requires nor & 0x0001 != 0
    ensures nor & 0x0001 == 0x0001
  {
  }

  /** The polling loop of `_sdmmc_wait_request` on Normal Interrupt Status
      alone, from the value `nor` it holds: whether command complete was
      seen, and the value the register is left with. Command complete ends
      the loop, writing back just that bit; an error interrupt, or the
      deadline passing (no snapshots left), ends it in failure. */
  function PollCommand(nor: bv16, snapshots: seq<bv16>): (p: Ret<bv16>)
    ensures p.ok ==> p.val == 0x0001
    decreases |snapshots|
  {
    if |snapshots| == 0 then Ret(false, nor)
    else
      var res := Classify(snapshots[0], 0x0001);
      if res == Masked then
        CommandCompleteBit(snapshots[0]);
        Ret(true, StatusAfter(snapshots[0], 0x0001))
      else if res == Error then Ret(false, StatusAfter(snapshots[0], 0x0001))
      else PollCommand(StatusAfter(snapshots[0], 0x0001), snapshots[1..])
  }

  /** Whether a wait for command complete succeeds on the status values it
      reads: some value shows command complete, and every earlier one shows
      neither completion nor an error. */
  predicate CommandCompletes(snapshots: seq<bv16>) {
    exists i :: 0 <= i < |snapshots| && CommandDone(snapshots[i])
                && forall j :: 0 <= j < i ==> CommandPending(snapshots[j])
  }

  /** `_sdmmc_wait_request`: polls for command complete. It succeeds
      exactly when command complete is seen before an error or the
      deadline. Success leaves only the command complete bit written back;
      failure resets the command and data lines. Only Normal Interrupt
      Status and Software Reset change. */
  function WaitRequest(r: Regs, snapshots: seq<bv16>): (w: Ret<Regs>)
    ensures w.ok <==> CommandCompletes(snapshots)
    ensures w.ok ==> w.val == r.(norintsts := 0x0001)
    ensures !w.ok ==> ResetRequested(w.val) && w.val == r.(norintsts := w.val.norintsts, swrst := w.val.swrst)
  {
    var p := PollCommand(r.norintsts, snapshots);
    PollCommandSucceeds(r.norintsts, snapshots);
    Ret(p.ok, if p.ok then r.(norintsts := p.val) else Reset(r.(norintsts := p.val)))
  }

  /** The wait succeeds exactly when some snapshot shows command complete
      and every earlier one shows neither completion nor an error. */
  lemma {:induction false} PollCommandSucceeds(nor: bv16, snapshots: seq<bv16>)
    ensures PollCommand(nor, snapshots).ok <==> CommandCompletes(snapshots)
    decreases |snapshots|
  {
    if |snapshots| > 0 {
      var res := Classify(snapshots[0], 0x0001);
      if res == NoError {
        var rest := snapshots[1..];
        PollCommandSucceeds(StatusAfter(snapshots[0], 0x0001), rest);
        if PollCommand(nor, snapshots).ok {
          var i :| 0 <= i < |rest| && CommandDone(rest[i]) && forall j :: 0 <= j < i ==> CommandPending(rest[j]);
          assert CommandDone(snapshots[i + 1]);
          forall j | 0 <= j < i + 1
            ensures CommandPending(snapshots[j])
          {
            if j > 0 {
              assert snapshots[j] == rest[j - 1];
            }
          }
        } else {
          forall i | 0 <= i < |snapshots| && CommandDone(snapshots[i])
            ensures exists j :: 0 <= j < i && !CommandPending(snapshots[j])
          {
            assert i > 0;
            assert CommandDone(rest[i - 1]);
            var j :| 0 <= j < i - 1 && !CommandPending(rest[j]);
            assert rest[j] == snapshots[j + 1];
          }
        }
      } else if res == Masked {
        assert CommandDone(snapshots[0]);
      } else {
        assert !CommandPending(snapshots[0]) && !CommandDone(snapshots[0]);
      }
    }
  }
}

=== FILE: lifecycle.dfy ===
/** Bringing a controller up (`sdmmc_init`) and down (`sdmmc_end`).

    The clock and reset controller, the pad and regulator set-up of SDMMC1
    and the clock service are outside the register block: what they
    answer is a parameter (`InitEnv`), and what they do is not part of this
    model. */
module Lifecycle {
  import opened Header
  import opened Controller
  import opened Power
  import opened Clock
  import opened Calibration
  import opened Response

  /** The per-controller trim written to venclkctl bits 28:24
      (`trim_values`: 2, 8, 3 and 8 for SDMMC1 to SDMMC4). */
  function TrimValue(id: SdmmcId): (t: bv32)
    ensures t < 0x20
  {
    if id == Sdmmc1 then 2 else if id == Sdmmc3 then 3 else 8
  }

  /** What initialisation learns from outside the register block: the
      verdict of the SDMMC1 pad and power set-up, whether the controller's
      clock was already running, the clock service's source rate and
      divisor for the clock type, and the outcomes of the hardware waits
      (auto-calibration, internal clock stable, the two type-4 waits). */
  datatype InitEnv = InitEnv(
    sdmmc1Ready: bool, wasRunning: bool, src: U32, d: bv16,
    calibrated: Poll, stable: Poll, first: Poll, second: Poll)

  /** `v` is venclkctl `v0` with `trim` in bits 28:24 and every other bit kept. */
  predicate TrimProgrammed(v: bv32, v0: bv32, trim: bv32) {
    (v >> 24) & 0x1F == trim && v & 0xE0FFFFFF == v0 & 0xE0FFFFFF
  }

  lemma TrimBits(v: bv32, trim: bv32)
    requires trim < 0x20
    ensures (((v & 0xE0FFFFFF) | (trim << 24)) >> 24) & 0x1F == trim
    ensures ((v & 0xE0FFFFFF) | (trim << 24)) & 0xE0FFFFFF == v & 0xE0FFFFFF
  {
  }

  /** The trim write of `sdmmc_init`. */
  function ProgramTrim(v: bv32, trim: bv32): (v': bv32)
    requires trim < 0x20
    ensures TrimProgrammed(v', v, trim)
  {
    TrimBits(v, trim);
    (v & 0xE0FFFFFF) | (trim << 24)
  }

  /** `p` is the pad control `p0` with bits 31:4 cleared, bits 2:0 set and bit 3 kept. */
  predicate PadsPrepared(p: bv32, p0: bv32) {
    p & 0xFFFFFFF0 == 0 && p & 0x7 == 0x7 && p & 0x8 == p0 & 0x8
  }

  lemma PadBits(p: bv32)
    ensures ((p & 0xF) | 7) & 0xFFFFFFF0 == 0
    ensures ((p & 0xF) | 7) & 0x7 == 0x7
    ensures ((p & 0xF) | 7) & 0x8 == p & 0x8
  {
  }

  /** The pad control write of `sdmmc_init`. */
  function PreparePads(p: bv32): (p': bv32)
    ensures PadsPrepared(p', p)
  {
    PadBits(p);
    (p & 0xF) | 7
  }

  /** `c` is `c0` with bit 19 set and every other bit kept. */
  predicate Bit19Set(c: bv32, c0: bv32) {
    c & 0x80000 == 0x80000 && c & 0xFFF7FFFF == c0 & 0xFFF7FFFF
  }

  lemma Bit19Bits(c: bv32)
    ensures (c | 0x80000) & 0x80000 == 0x80000
    ensures (c | 0x80000) & 0xFFF7FFFF == c & 0xFFF7FFFF
  {
  }

  /** The write to vendor register 1F0h. */
  function SetBit19(c: bv32): (c': bv32)
    ensures Bit19Set(c', c)
  {
    Bit19Bits(c);
    c | 0x80000
  }

  /** `c` is `c0` with bit 2 cleared and every other bit kept. */
  predicate Bit2Cleared(c: bv32, c0: bv32) {
    c & 0x4 == 0 && c & 0xFFFFFFFB == c0 & 0xFFFFFFFB
  }

  lemma Bit2Bits(c: bv32)
    ensures (c & 0xFFFFFFFB) & 0x4 == 0
    ensures (c & 0xFFFFFFFB) & 0xFFFFFFFB == c & 0xFFFFFFFB
  {
  }

  /** The write to vendor register 1ACh. */
  function ClearBit2(c: bv32): (c': bv32)
    ensures Bit2Cleared(c', c)
  {
    Bit2Bits(c);
    c & 0xFFFFFFFB
  }

  /** The driver state right after the `ZeroMem` of `sdmmc_init` and the
      assignments that follow it: all bookkeeping zero, the register block
      of controller `id` (whose registers keep what the hardware holds),
      and the clock marked stopped. */
  function Fresh(id: SdmmcId, hw: Regs): (t: Sdmmc)
    ensures t.regs == hw && t.id == id && t.base == BaseAddress(id) && t.clockStopped
    ensures t.expectedRspType == RspType0 && !t.sdClockEnabled && !t.venclkctlSet
  {
    Sdmmc(hw, BaseAddress(id), id, 0, false, false, true, RspType0, Words4(0, 0, 0, 0), 0, 0, false, 0)
  }

  /** The part of `sdmmc_init` before calibration: the fresh state, the SD
      clock gated off when the controller was already running, the clock
      marked started, and the vendor writes (1F0h bit 19, 1ACh bit 2, the
      trim, the pad control). */
  function Prepare(id: SdmmcId, hw: Regs, wasRunning: bool): (t: Sdmmc)
    ensures t.id == id && t.base == BaseAddress(id) && !t.clockStopped && t.expectedRspType == RspType0
    ensures t.regs.capareg == hw.capareg
    ensures t.regs == hw.(clkcon := t.regs.clkcon, field1F0 := t.regs.field1F0, field1AC := t.regs.field1AC,
                          venclkctl := t.regs.venclkctl, sdmemcmppadctl := t.regs.sdmemcmppadctl)
  {
    var f := Fresh(id, hw);
    var d := if wasRunning then SdClockDisable(f) else f;
    d.(clockStopped := false,
       regs := d.regs.(field1F0 := SetBit19(hw.field1F0), field1AC := ClearBit2(hw.field1AC),
                       venclkctl := ProgramTrim(hw.venclkctl, TrimValue(id)),
                       sdmemcmppadctl := PreparePads(hw.sdmemcmppadctl)))
  }

  /** The writes of the preparation: the SD clock is gated off when the
      controller was running and left alone otherwise, and the trim is
      the controller's table entry. */
  lemma PrepareWrites(id: SdmmcId, hw: Regs, wasRunning: bool)
    ensures wasRunning ==> !ClockOn(Prepare(id, hw, wasRunning).regs)
    ensures !wasRunning ==> Prepare(id, hw, wasRunning).regs.clkcon == hw.clkcon
    ensures TrimProgrammed(Prepare(id, hw, wasRunning).regs.venclkctl, hw.venclkctl, TrimValue(id))
    ensures PadsPrepared(Prepare(id, hw, wasRunning).regs.sdmemcmppadctl, hw.sdmemcmppadctl)
  {
  }

  /** Auto-calibration in `sdmmc_init`: the offsets for the controller and
      voltage, and on success the calibration run. Only the registers
      change. */
  function Calibrate(t: Sdmmc, power: int, calibrated: Poll): (u: Ret<Sdmmc>)
    ensures u.ok <==> AutocalOffsets(t.id, power).Some?
    ensures u.val == t.(regs := u.val.regs)
    ensures u.val.regs.capareg == t.regs.capareg
  {
    var a := AutocalConfigOffset(t.regs, t.id, power);
    if !a.ok then Ret(false, t)
    else Ret(true, t.(regs := AutocalExecute(a.val, calibrated)))
  }

  /** The internal clock start-up in `sdmmc_init`. Only the registers change. */
  function PowerUp(t: Sdmmc, stable: Poll): (u: Ret<Sdmmc>)
    ensures u.ok <==> stable == Ready && Capable(t.regs)
    ensures u.val == t.(regs := u.val.regs)
  {
    var e := EnableInternalClock(t.regs, stable);
    Ret(e.ok, t.(regs := e.val))
  }

  /** Bus width and voltage in `sdmmc_init`; the voltage verdict is
      discarded. Only Host Control 1 and Power Control change. */
  function ConfigureBus(t: Sdmmc, busWidth: nat, power: int): (u: Sdmmc)
    ensures u == t.(regs := t.regs.(hostctl := u.regs.hostctl, pwrcon := u.regs.pwrcon))
  {
    t.(regs := t.regs.(hostctl := SetBusWidth(t.regs.hostctl, busWidth), pwrcon := SetVoltage(t.regs.pwrcon, power).val))
  }

  /** The bus configuration leaves in Host Control 1 what the bus-width
      write leaves and in Power Control what the voltage write leaves, so
      a supported width and an accepted voltage read back as requested. */
  lemma ConfigureBusWrites(t: Sdmmc, busWidth: nat, power: int)
    ensures ConfigureBus(t, busWidth, power).regs.hostctl == SetBusWidth(t.regs.hostctl, busWidth)
    ensures ConfigureBus(t, busWidth, power).regs.pwrcon == SetVoltage(t.regs.pwrcon, power).val
    ensures busWidth == BusWidth1 || busWidth == BusWidth4 || busWidth == BusWidth8 ==>
      GetBusWidth(ConfigureBus(t, busWidth, power).regs.hostctl) == busWidth
    ensures KnownVoltage(power) ==> GetVoltageByField(ConfigureBus(t, busWidth, power).regs.pwrcon) == power
  {
    if busWidth == BusWidth1 || busWidth == BusWidth4 || busWidth == BusWidth8 {
      BusWidthRoundTrip(t.regs.hostctl, busWidth);
    }
    if KnownVoltage(power) {
      VoltageByFieldRoundTrip(t.regs.pwrcon, power);
    }
  }

  /** The gate policy and the logical enable that end `sdmmc_init`. */
  function EnableCard(t: Sdmmc, noSd: bool): (u: Sdmmc)
    ensures u == t.(regs := t.regs.(clkcon := u.regs.clkcon), sdClockEnabled := true, noSd := noSd)
  {
    SdClockEnable(SdClockCtrl(t, noSd))
  }

  /** The clock set-up of `sdmmc_init` with the clock service's answers.
      Only the registers and the rate bookkeeping change. */
  function ClockUp(t: Sdmmc, clockType: nat, env: InitEnv): (u: Ret<Sdmmc>)
    requires env.d != 0
    ensures u.ok <==> clockType != 4 || (env.first == Ready && env.second == Ready)
    ensures u.val == t.(regs := u.val.regs, divisor := u.val.divisor)
  {
    SetupClock(t, clockType, env.src, env.d, env.first, env.second)
  }

  /** The part of `sdmmc_init` from the internal clock on: bus width and
      voltage, the clock set-up, and the gate policy with the SD clock
      enabled. */
  function Start(t: Sdmmc, busWidth: nat, power: int, clockType: nat, noSd: bool, env: InitEnv): (u: Ret<Sdmmc>)
    requires env.d != 0
    ensures u.ok <==> clockType != 4 || (env.first == Ready && env.second == Ready)
    ensures u.val.id == t.id && u.val.base == t.base
    ensures u.val.clockStopped == t.clockStopped && u.val.expectedRspType == t.expectedRspType
  {
    var c := ClockUp(ConfigureBus(t, busWidth, power), clockType, env);
    if !c.ok then c
    else Ret(true, EnableCard(c.val, noSd))
  }

  /** A successful start leaves the SD clock logically enabled under the
      requested suppression policy, with the gate consistent with both. */
  lemma StartEstablishes(t: Sdmmc, busWidth: nat, power: int, clockType: nat, noSd: bool, env: InitEnv)
    requires env.d != 0
    requires Start(t, busWidth, power, clockType, noSd, env).ok
    ensures var u := Start(t, busWidth, power, clockType, noSd, env).val;
      u.sdClockEnabled && u.noSd == noSd && GateConsistent(u)
  {
    var g := SdClockCtrl(ClockUp(ConfigureBus(t, busWidth, power), clockType, env).val, noSd);
    GateOperationsKeepConsistency(g, noSd);
  }

  /** `sdmmc_init` on a driver state `s` for controller `id`, whose
      registers hold `hw`. An id above SDMMC4, or an SDMMC1 whose pad and
      power set-up fails, is refused before anything changes. Afterwards
      initialisation stops at the first failing step: an unsupported
      voltage for the controller's auto-calibration offsets, the internal
      clock not becoming stable or the controller lacking capability bit
      28, and the clock set-up. */
  function Init(s: Sdmmc, id: nat, power: int, busWidth: nat, clockType: nat, noSd: bool, hw: Regs, env: InitEnv): (u: Ret<Sdmmc>)
    requires env.d != 0
    ensures id > 3 || (id == Sdmmc1 && !env.sdmmc1Ready) ==> !u.ok && u.val == s
  {
    if id > 3 then Ret(false, s)
    else if id == Sdmmc1 && !env.sdmmc1Ready then Ret(false, s)
    else
      var a := Calibrate(Prepare(id, hw, env.wasRunning), power, env.calibrated);
      if !a.ok then a
      else
        var e := PowerUp(a.val, env.stable);
        if !e.ok then e
        else Start(e.val, busWidth, power, clockType, noSd, env)
  }

  /** Whether every step of `sdmmc_init` succeeds. */
  predicate InitSucceeds(id: nat, power: int, clockType: nat, hw: Regs, env: InitEnv) {
    && id <= 3
    && (id == Sdmmc1 ==> env.sdmmc1Ready)
    && AutocalOffsets(id, power).Some?
    && env.stable == Ready
    && Capable(hw)
    && (clockType == 4 ==> env.first == Ready && env.second == Ready)
  }

  /** Initialisation succeeds exactly when every step does. */
  lemma InitVerdict(s: Sdmmc, id: nat, power: int, busWidth: nat, clockType: nat, noSd: bool, hw: Regs, env: InitEnv)
    requires env.d != 0
    ensures Init(s, id, power, busWidth, clockType, noSd, hw, env).ok <==> InitSucceeds(id, power, clockType, hw, env)
  {
  }

  /** A successful initialisation leaves the controller `id` at its base
      address with the SD clock logically enabled, the clock running, the
      gate consistent with the suppression policy, and no response cached,
      so that no response type can be read. */
  lemma InitEstablishes(s: Sdmmc, id: nat, power: int, busWidth: nat, clockType: nat, noSd: bool, hw: Regs, env: InitEnv,
                        hasBuf: bool, size: U32, rspType: nat)
    requires env.d != 0
    requires Init(s, id, power, busWidth, clockType, noSd, hw, env).ok
    ensures var t := Init(s, id, power, busWidth, clockType, noSd, hw, env).val;
      && t.id == id && t.base == BaseAddress(t.id)
      && t.sdClockEnabled && !t.clockStopped && t.noSd == noSd && GateConsistent(t)
      && GetRsp(t, hasBuf, size, rspType).None?
  {
    assert id <= 3;
    var p := Prepare(id, hw, env.wasRunning);
    var a := Calibrate(p, power, env.calibrated);
    var e := PowerUp(a.val, env.stable);
    var u := Start(e.val, busWidth, power, clockType, noSd, env);
    assert a.ok && e.ok;
    assert Init(s, id, power, busWidth, clockType, noSd, hw, env) == u;
    StartEstablishes(e.val, busWidth, power, clockType, noSd, env);
    NothingCachedNothingRead(u.val, hasBuf, size, rspType);
  }

  /** The clock set-up of `sdmmc_init` keeps Power Control and the data
      bus width. */
  lemma ClockUpKeepsBus(b: Sdmmc, clockType: nat, env: InitEnv)
    requires env.d != 0
    ensures ClockUp(b, clockType, env).val.regs.pwrcon == b.regs.pwrcon
    ensures GetBusWidth(ClockUp(b, clockType, env).val.regs.hostctl) == GetBusWidth(b.regs.hostctl)
  {
    SetupClockSteps(b, clockType, env.src, env.d, env.first, env.second);
    HighSpeedKeepsWidth(b.regs.hostctl, clockType);
  }

  /** After the clock set-up the start of `sdmmc_init` writes only Clock Control. */
  lemma StartEndsWithClockUp(t: Sdmmc, busWidth: nat, power: int, clockType: nat, noSd: bool, env: InitEnv)
    requires env.d != 0
    ensures var u := Start(t, busWidth, power, clockType, noSd, env).val.regs;
      u == ClockUp(ConfigureBus(t, busWidth, power), clockType, env).val.regs.(clkcon := u.clkcon)
  {
  }

  /** The start of `sdmmc_init` leaves the requested bus width and what
      the voltage write leaves in Power Control, whatever the outcome: the
      clock set-up touches only the high-speed enable of Host Control 1
      and not Power Control, and the gate policy only Clock Control. */
  lemma StartConfiguresBus(t: Sdmmc, busWidth: nat, power: int, clockType: nat, noSd: bool, env: InitEnv)
    requires env.d != 0
    ensures Start(t, busWidth, power, clockType, noSd, env).val.regs.pwrcon == SetVoltage(t.regs.pwrcon, power).val
    ensures busWidth == BusWidth1 || busWidth == BusWidth4 || busWidth == BusWidth8 ==>
      GetBusWidth(Start(t, busWidth, power, clockType, noSd, env).val.regs.hostctl) == busWidth
  {
    ConfigureBusWrites(t, busWidth, power);
    ClockUpKeepsBus(ConfigureBus(t, busWidth, power), clockType, env);
    StartEndsWithClockUp(t, busWidth, power, clockType, noSd, env);
  }

  /** A successful initialisation leaves the requested bus width and
      voltage in place. Success needs auto-calibration offsets, so the
      voltage is 1.8V or 3.3V, and Power Control then holds that select
      with bus power whatever it held before. */
  lemma InitConfiguresBus(s: Sdmmc, id: nat, power: int, busWidth: nat, clockType: nat, noSd: bool, hw: Regs, env: InitEnv)
    requires env.d != 0
    requires Init(s, id, power, busWidth, clockType, noSd, hw, env).ok
    ensures power == Power18 || power == Power33
    ensures Init(s, id, power, busWidth, clockType, noSd, hw, env).val.regs.pwrcon == SetVoltage(hw.pwrcon, power).val
    ensures GetVoltageByField(Init(s, id, power, busWidth, clockType, noSd, hw, env).val.regs.pwrcon) == power
    ensures busWidth == BusWidth1 || busWidth == BusWidth4 || busWidth == BusWidth8 ==>
      GetBusWidth(Init(s, id, power, busWidth, clockType, noSd, hw, env).val.regs.hostctl) == busWidth
  {
    assert id <= 3;
    var a := Calibrate(Prepare(id, hw, env.wasRunning), power, env.calibrated);
    var e := PowerUp(a.val, env.stable);
    assert a.ok && e.ok;
    assert Init(s, id, power, busWidth, clockType, noSd, hw, env) == Start(e.val, busWidth, power, clockType, noSd, env);
    StartConfiguresBus(e.val, busWidth, power, clockType, noSd, env);
    if power == Power18 {
      Voltage18RoundTrip(e.val.regs.pwrcon);
      Voltage18RoundTrip(hw.pwrcon);
    } else {
      Voltage33ReadsAs18(e.val.regs.pwrcon);
      Voltage33ReadsAs18(hw.pwrcon);
    }
    VoltageByFieldRoundTrip(e.val.regs.pwrcon, power);
  }

  /** `sdmmc_end`: a running controller has its SD clock disabled and its
      bus power switched off, and is marked stopped; a stopped one is left
      alone. The clock service call and the SDMMC1 power cut are not part
      of this model. */
  function End(s: Sdmmc): (t: Sdmmc)
    ensures t.clockStopped
    ensures s.clockStopped ==> t == s
    ensures !s.clockStopped ==> !t.sdClockEnabled
    ensures t == s.(sdClockEnabled := t.sdClockEnabled, clockStopped := t.clockStopped,
                    regs := s.regs.(clkcon := t.regs.clkcon, pwrcon := t.regs.pwrcon))
  {
    if s.clockStopped then s
    else
      var d := SdClockDisable(s);
      d.(clockStopped := true, regs := d.regs.(pwrcon := SetVoltage(d.regs.pwrcon, PowerOff).val))
  }

  /** Ending a running controller leaves the SD clock gated off and the bus
      power off, and ending twice is ending once. */
  lemma EndStops(s: Sdmmc)
    ensures !s.clockStopped ==> !ClockOn(End(s).regs) && GetVoltage(End(s).regs.pwrcon) == PowerOff
    ensures End(End(s)) == End(s)
  {
    VoltageOffRoundTrip(SdClockDisable(s).regs.pwrcon);
  }
}

=== FILE: power.dfy ===
/** Signalling voltage (Power Control, 029h) and data bus width (Host
    Control 1, 028h). */
module Power {
  import opened Header
  import opened Controller

  /** `sdmmc_get_voltage`: decodes Power Control. Bus power off reads as
      OFF; otherwise the 1.8V select is checked before the 3.3V select, and
      power with neither select set is the inconsistent sentinel. Since the
      two selects share bits 1 and 3, any 3.3V value also tests as 1.8V. */
  function GetVoltage(pwrcon: bv8): (v: int)
    ensures v == PowerOff || v == Power18 || v == Power33 || v == VoltageInvalid
    ensures v == PowerOff <==> pwrcon & 0x01 == 0
    ensures v == VoltageInvalid <==> pwrcon & 0x01 != 0 && pwrcon & 0x0E == 0
    ensures v == Power18 <==> pwrcon & 0x01 != 0 && pwrcon & 0x0A != 0
    ensures v == Power33 <==> pwrcon & 0x01 != 0 && pwrcon & 0x0A == 0 && pwrcon & 0x04 != 0
  {
    if pwrcon & 0x01 == 0 then PowerOff
    else if pwrcon & 0x0A != 0 then Power18
    else if pwrcon & 0x0E != 0 then Power33
    else VoltageInvalid
  }

  /** Whether `power` is one of the three levels `_sdmmc_set_voltage` accepts. */
  predicate KnownVoltage(power: int) {
    power == PowerOff || power == Power18 || power == Power33
  }

  /** The voltage select `_sdmmc_set_voltage` computes before its switch:
      1.8V for 1.8V, 3.3V for anything else. */
  function VoltageSelect(power: int): (v: bv8)
    ensures v & 0xF1 == 0
    ensures power == Power18 ==> v >> 1 == 5
    ensures power != Power18 ==> v >> 1 == 7
  {
    if power == Power18 then 0x0A else 0x0E
  }

  /** The successive values `_sdmmc_set_voltage` stores into Power Control,
      in order: none for an unknown level, one read-modify-write for OFF,
      and for a voltage first the bare select, then the select with bus
      power. */
  function VoltageWrites(pwrcon: bv8, power: int): (w: seq<bv8>)
    ensures !KnownVoltage(power) <==> |w| == 0
    ensures power == PowerOff ==> |w| == 1 && w[0] & 0x01 == 0
    ensures power == PowerOff ==> w[0] & 0xFE == pwrcon & 0xFE
    ensures power == Power18 || power == Power33 ==>
      && |w| == 2
      && w[0] == VoltageSelect(power) && w[0] & 0x01 == 0
      && w[1] == VoltageSelect(power) | 0x01
  {
    if power == PowerOff then [pwrcon & 0xFE]
    else if KnownVoltage(power) then [VoltageSelect(power), VoltageSelect(power) | 0x01]
    else []
  }

  /** `_sdmmc_set_voltage`: the verdict and the final Power Control value,
      which is the last value written (the old value when nothing is). */
  function SetVoltage(pwrcon: bv8, power: int): (r: Ret<bv8>)
    ensures r.ok <==> KnownVoltage(power)
    ensures !r.ok ==> r.val == pwrcon
    ensures r.ok ==> r.val == VoltageWrites(pwrcon, power)[|VoltageWrites(pwrcon, power)| - 1]
  {
    var w := VoltageWrites(pwrcon, power);
    if |w| == 0 then Ret(false, pwrcon) else Ret(true, w[|w| - 1])
  }

  /** A level other than OFF, 1.8V and 3.3V is refused with no write. */
  lemma VoltageRejectsUnknown(pwrcon: bv8, power: int)
    requires !KnownVoltage(power)
    ensures SetVoltage(pwrcon, power) == Ret(false, pwrcon)
    ensures VoltageWrites(pwrcon, power) == []
  {
  }

  /** OFF clears only the bus power bit and reads back as OFF. */
  lemma VoltageOffRoundTrip(pwrcon: bv8)
    ensures SetVoltage(pwrcon, PowerOff).ok
    ensures SetVoltage(pwrcon, PowerOff).val & 0x01 == 0
    ensures SetVoltage(pwrcon, PowerOff).val & 0xFE == pwrcon & 0xFE
    ensures GetVoltage(SetVoltage(pwrcon, PowerOff).val) == PowerOff
  {
  }

  /** 1.8V leaves exactly the 1.8V select with bus power and reads back as 1.8V. */
  lemma Voltage18RoundTrip(pwrcon: bv8)
    ensures SetVoltage(pwrcon, Power18) == Ret(true, 0x0B)
    ensures GetVoltage(SetVoltage(pwrcon, Power18).val) == Power18
  {
  }

  /** 3.3V leaves exactly the 3.3V select with bus power, and the driver's
      decoder reads that back as 1.8V: the 1.8V select (101b in bits 3:1)
      is checked first and shares its bits with the 3.3V select (111b). */
  lemma Voltage33ReadsAs18(pwrcon: bv8)
    ensures SetVoltage(pwrcon, Power33) == Ret(true, 0x0F)
    ensures GetVoltage(SetVoltage(pwrcon, Power33).val) == Power18
  {
  }

  /** The decoder `sdmmc_get_voltage` evidently intends: it compares the
      whole voltage select field, bits 3:1, with the two encodings instead
      of testing for any shared bit. */
  function GetVoltageByField(pwrcon: bv8): (v: int)
    ensures v == PowerOff || v == Power18 || v == Power33 || v == VoltageInvalid
    ensures v == PowerOff <==> pwrcon & 0x01 == 0
    ensures v == Power18 <==> pwrcon & 0x01 != 0 && pwrcon & 0x0E == 0x0A
    ensures v == Power33 <==> pwrcon & 0x01 != 0 && pwrcon & 0x0E == 0x0E
  {
    if pwrcon & 0x01 == 0 then PowerOff
    else if pwrcon & 0x0E == 0x0E then Power33
    else if pwrcon & 0x0E == 0x0A then Power18
    else VoltageInvalid
  }

  /** The field decoder reads back every level `_sdmmc_set_voltage` accepts,
      and it agrees with the driver's decoder on everything but 3.3V. */
  lemma VoltageByFieldRoundTrip(pwrcon: bv8, power: int)
    requires KnownVoltage(power)
    ensures GetVoltageByField(SetVoltage(pwrcon, power).val) == power
    ensures power != Power33 ==> GetVoltage(SetVoltage(pwrcon, power).val) == power
  {
  }

  /** `sdmmc_get_bus_width`: the 8-bit bit is checked before the 4-bit bit. */
  function GetBusWidth(hostctl: bv8): (w: nat)
    ensures w == BusWidth1 || w == BusWidth4 || w == BusWidth8
    ensures w == BusWidth8 <==> hostctl & 0x20 != 0
    ensures w == BusWidth1 <==> hostctl & 0x22 == 0
  {
    if hostctl & 0x20 != 0 then BusWidth8
    else if hostctl & 0x02 != 0 then BusWidth4
    else BusWidth1
  }

  /** `sdmmc_set_bus_width`: 1-bit clears both width bits, 4-bit sets 4BIT
      and clears 8BIT, 8-bit only sets 8BIT. */
  function SetBusWidth(hostctl: bv8, width: nat): (h: bv8)
    ensures h & 0xDD == hostctl & 0xDD
    ensures width == BusWidth8 ==> h & 0x02 == hostctl & 0x02
    ensures width != BusWidth1 && width != BusWidth4 && width != BusWidth8 ==> h == hostctl
  {
    if width == BusWidth1 then hostctl & 0xDD
    else if width == BusWidth4 then (hostctl | 0x02) & 0xDF
    else if width == BusWidth8 then hostctl | 0x20
    else hostctl
  }

  /** Bus width round trip: every supported width reads back, whatever the
      register held before (a leftover 4BIT under 8-bit is harmless). */
  lemma BusWidthRoundTrip(hostctl: bv8, width: nat)
    requires width == BusWidth1 || width == BusWidth4 || width == BusWidth8
    ensures GetBusWidth(SetBusWidth(hostctl, width)) == width
  {
  }
}

=== FILE: response.dfy ===
/** Responses (Response registers 010h-01Ch, section 2.2.7 of the SD Host
    Controller Simplified Specification, version 3.00): caching the
    hardware's response words, and handing the cached words to a caller. */
module Response {
  import opened Header
  import opened Controller

  /** The four response registers read in the order the 136-bit de-shift
      visits them: rspreg3 first, rspreg0 last. */
  function RawWords(r: Regs): Words4 {
    Words4(r.rspreg3, r.rspreg2, r.rspreg1, r.rspreg0)
  }

  /** A word's four bytes, most significant first. */
  function WordBytes(x: bv32): seq<bv8> {
    [(x >> 24) as bv8, ((x >> 16) & 0xFF) as bv8, ((x >> 8) & 0xFF) as bv8, (x & 0xFF) as bv8]
  }

  /** Four words as the 16 bytes of one 128-bit value, most significant first. */
  function Bytes(w: Words4): seq<bv8> {
    WordBytes(w.w0) + WordBytes(w.w1) + WordBytes(w.w2) + WordBytes(w.w3)
  }

  /** Word `hi` shifted left one byte, with the top byte of the word after it
      carried into its low byte. */
  function Carry(hi: bv32, lo: bv32): bv32 {
    (hi << 8) | ((lo >> 24) & 0xFF)
  }

  lemma CarryBits(hi: bv32, lo: bv32)
    ensures (((hi << 8) | ((lo >> 24) & 0xFF)) >> 24) == (hi >> 16) & 0xFF
    ensures ((((hi << 8) | ((lo >> 24) & 0xFF)) >> 16) & 0xFF) == (hi >> 8) & 0xFF
    ensures ((((hi << 8) | ((lo >> 24) & 0xFF)) >> 8) & 0xFF) == hi & 0xFF
    ensures (((hi << 8) | ((lo >> 24) & 0xFF)) & 0xFF) == lo >> 24
  {
  }

  /** A carried word holds the last three bytes of `hi` and the first of `lo`. */
  lemma CarryBytes(hi: bv32, lo: bv32)
    ensures WordBytes(Carry(hi, lo)) == WordBytes(hi)[1..] + WordBytes(lo)[..1]
  {
    CarryBits(hi, lo);
  }

  lemma LastBits(x: bv32)
    ensures ((x << 8) >> 24) == (x >> 16) & 0xFF
    ensures (((x << 8) >> 16) & 0xFF) == (x >> 8) & 0xFF
    ensures (((x << 8) >> 8) & 0xFF) == x & 0xFF
    ensures ((x << 8) & 0xFF) == 0
  {
  }

  /** The last word holds the last three bytes of its register and a zero byte. */
  lemma LastBytes(x: bv32)
    ensures WordBytes(x << 8) == WordBytes(x)[1..] + [0]
  {
    LastBits(x);
  }

  lemma Assemble<T>(a: seq<T>, b: seq<T>, c: seq<T>, d: seq<T>, z: T)
    requires |a| == 4 && |b| == 4 && |c| == 4 && |d| == 4
    ensures (a[1..] + b[..1]) + (b[1..] + c[..1]) + (c[1..] + d[..1]) + (d[1..] + [z]) == (a + b + c + d)[1..] + [z]
  {
    assert b == b[..1] + b[1..];
    assert c == c[..1] + c[1..];
    assert d == d[..1] + d[1..];
  }

  lemma DeshiftBytes(a: bv32, b: bv32, c: bv32, d: bv32)
    ensures WordBytes(Carry(a, b)) + WordBytes(Carry(b, c)) + WordBytes(Carry(c, d)) + WordBytes(d << 8)
         == (WordBytes(a) + WordBytes(b) + WordBytes(c) + WordBytes(d))[1..] + [0]
  {
    CarryBytes(a, b);
    CarryBytes(b, c);
    CarryBytes(c, d);
    LastBytes(d);
    Assemble(WordBytes(a), WordBytes(b), WordBytes(c), WordBytes(d), 0);
  }

  /** The 136-bit response with its CRC byte stripped: read as 16 bytes, the
      response moves up one byte and a zero byte enters at the bottom, which
      is the 128-bit concatenation of the four words shifted left by 8. */
  function Deshift(w: Words4): (d: Words4)
    ensures Bytes(d) == Bytes(w)[1..] + [0]
  {
    DeshiftBytes(w.w0, w.w1, w.w2, w.w3);
    Words4(Carry(w.w0, w.w1), Carry(w.w1, w.w2), Carry(w.w2, w.w3), w.w3 << 8)
  }

  /** The de-shift on the register values AABBCCDD, 11223344, 55667788 and
      99AABBCC (rspreg3 down to rspreg0). */
  lemma DeshiftExample()
    ensures Deshift(Words4(0xAABBCCDD, 0x11223344, 0x55667788, 0x99AABBCC))
      == Words4(0xBBCCDD11, 0x22334455, 0x66778899, 0xAABBCC00)
  {
  }

  /** `_sdmmc_cache_rsp`: copies the response registers, read as `raw`
      (`RawWords`), into the buffer `rsp` of `size` bytes. A 48-bit
      response type needs 4 bytes and overwrites the first word with
      rspreg0; type 2 needs 16 bytes and overwrites all four with the
      de-shifted 136-bit response. Any other type, or a buffer too small,
      fails and leaves the buffer alone. */
  function CacheRsp(rsp: Words4, raw: Words4, size: U32, rspType: nat): (c: Ret<Words4>)
    ensures c.ok <==> (ShortRsp(rspType) && size >= 4) || (rspType == RspType2 && size >= 0x10)
    ensures !c.ok ==> c.val == rsp
    ensures c.ok && ShortRsp(rspType) ==> c.val == rsp.(w0 := raw.w3)
    ensures c.ok && rspType == RspType2 ==> c.val == Deshift(raw)
  {
    if ShortRsp(rspType) then
      if size < 4 then Ret(false, rsp) else Ret(true, rsp.(w0 := raw.w3))
    else if rspType == RspType2 then
      if size < 0x10 then Ret(false, rsp) else Ret(true, Deshift(raw))
    else Ret(false, rsp)
  }

  /** `sdmmc_get_rsp`: hands the cached response to a caller's buffer of
      `size` bytes (`hasBuf` is false for a null buffer). The words copied
      are the result; nothing is copied when the buffer is missing, the
      type is not the one last cached, the type has no response, or the
      buffer is too small. */
  function GetRsp(s: Sdmmc, hasBuf: bool, size: U32, rspType: nat): (w: Option<seq<bv32>>)
    ensures w.Some? <==> hasBuf && s.expectedRspType == rspType
                         && ((ShortRsp(rspType) && size >= 4) || (rspType == RspType2 && size >= 0x10))
    ensures w.Some? && ShortRsp(rspType) ==> w.value == [s.rsp.w0]
    ensures w.Some? && rspType == RspType2 ==> w.value == [s.rsp.w0, s.rsp.w1, s.rsp.w2, s.rsp.w3]
  {
    if !hasBuf || s.expectedRspType != rspType then None
    else if ShortRsp(rspType) then
      if size < 4 then None else Some([s.rsp.w0])
    else if rspType == RspType2 then
      if size < 0x10 then None else Some([s.rsp.w0, s.rsp.w1, s.rsp.w2, s.rsp.w3])
    else None
  }

  /** Caching a response under its type and then asking for it with a
      large enough buffer hands back exactly the cached words: the register
      word for a 48-bit type, the de-shifted words for type 2. */
  lemma CacheThenGet(s: Sdmmc, rspType: nat)
    requires ShortRsp(rspType) || rspType == RspType2
    ensures var c := CacheRsp(s.rsp, RawWords(s.regs), 0x10, rspType);
      var g := GetRsp(s.(expectedRspType := rspType, rsp := c.val), true, 0x10, rspType);
      && c.ok && g.Some?
      && (ShortRsp(rspType) ==> g.value == [s.regs.rspreg0])
      && (rspType == RspType2 ==> g.value == [Carry(s.regs.rspreg3, s.regs.rspreg2), Carry(s.regs.rspreg2, s.regs.rspreg1),
                                              Carry(s.regs.rspreg1, s.regs.rspreg0), s.regs.rspreg0 << 8])
  {
  }

  /** With no response cached (the expected type is 0, as after
      initialisation) no response type can be read. */
  lemma NothingCachedNothingRead(s: Sdmmc, hasBuf: bool, size: U32, rspType: nat)
    requires s.expectedRspType == RspType0
    ensures GetRsp(s, hasBuf, size, rspType).None?
  {
  }
}

=== FILE: transaction.dfy ===
/** The transaction primitive: `_sdmmc_execute_cmd_inner` and
    `sdmmc_execute_cmd`, and the stop command `sdmmc_stop_transmission`
    built from the same steps.

    Each transaction is a sequence of register steps modelled elsewhere:
    the wait for free command (and data) lines, the DMA set-up, enabling
    the polled interrupts, the Command register write, the wait for
    command complete, the response cache, the DMA progress loop, masking
    the interrupts, and the wait for DAT0 to leave busy. What the hardware
    shows during those waits is a parameter (`CmdEnv`).

    The transactions are methods: a caller sees what each step promises
    and not how the step computes it. */
module Transaction {
  import opened Header
  import opened Controller
  import opened Calibration
  import opened Response
  import opened Command
  import opened Interrupts
  import opened Dma

  /** What the hardware shows during one transaction: whether the command
      line and the data line become free in time, the Normal Interrupt
      Status values the command complete wait reads, those the DMA loop
      reads, whether DAT0 leaves busy in time, and whether the periodic
      SDMMC1 recalibration finishes in time. */
  datatype CmdEnv = CmdEnv(cmdFree: Poll, datFree: Poll, status: seq<bv16>, dmaStatus: seq<bv16>,
                           dat0: Poll, calibrated: Poll)

  /** Whether a request passes the check of `_sdmmc_config_dma`. */
  predicate ValidReq(req: Req) {
    req.blksize != 0 && req.numSectors != 0
  }

  /** The block count `_sdmmc_execute_cmd_inner` hands back for a request:
      what `_sdmmc_config_dma` programmed, or the local's initial 0 when
      the set-up refused the request. */
  function ProgrammedCount(req: Req): (n: bv16)
    ensures ValidReq(req) ==> n == BlockCount(req.numSectors) && n != 0
    ensures !ValidReq(req) ==> n == 0
  {
    if ValidReq(req) then BlockCount(req.numSectors) else 0
  }

  /** Whether a transaction waits for the data line as well as the command
      line before it starts, and for DAT0 after it: it carries data or
      checks busy. */
  predicate UsesDat(cmd: Cmd, req: Option<Req>) {
    req.Some? || cmd.checkBusy
  }

  /** Whether the lines a transaction waits for become free in time. */
  predicate LinesFree(cmd: Cmd, req: Option<Req>, env: CmdEnv) {
    env.cmdFree == Ready && (UsesDat(cmd, req) ==> env.datFree == Ready)
  }

  /** Whether the interrupts a transaction polls are all disabled. */
  predicate Disarmed(r: Regs) {
    NormalDisarmed(r.norintstsen) && ErrorsDisarmed(r.errintstsen)
  }

  /** The registers a transaction never writes, the clock, bus, power and
      pad set-up, agree in `a` and `b`. */
  predicate SetupKept(a: Regs, b: Regs) {
    && a.clkcon == b.clkcon && a.hostctl == b.hostctl && a.hostctl2 == b.hostctl2
    && a.pwrcon == b.pwrcon && a.autocalcfg == b.autocalcfg && a.sdmemcmppadctl == b.sdmemcmppadctl
  }

  /** The registers no transaction writes beyond the set-up of `SetupKept`
      agree in `a` and `b`: the vendor clock, CE-ATA, calibration and
      tuning registers, the timeout and capability registers, the present
      state, the response registers and the error status. */
  predicate OthersKept(a: Regs, b: Regs) {
    && a.venclkctl == b.venclkctl && a.venceatactl == b.venceatactl
    && a.field1AC == b.field1AC && a.field1B0 == b.field1B0 && a.field1BC == b.field1BC
    && a.field1C0 == b.field1C0 && a.field1C4 == b.field1C4 && a.field1F0 == b.field1F0
    && a.timeoutcon == b.timeoutcon && a.capareg == b.capareg && a.prnsts == b.prnsts
    && a.rspreg0 == b.rspreg0 && a.rspreg1 == b.rspreg1 && a.rspreg2 == b.rspreg2 && a.rspreg3 == b.rspreg3
    && a.errintsts == b.errintsts
  }

  /** Dropping the SD clock gate after a transaction that ran with the gate
      raised keeps every register the transaction left alone as it was
      before the gate was raised. */
  lemma GateBracketKeeps(s: Regs, t: Regs)
    requires !GateOn(s.clkcon)
    requires var g := s.(clkcon := SetGate(s.clkcon, true));
      SetupKept(t, g) && OthersKept(t, g) && BlockRegsKept(t, g) && t.admaaddr == g.admaaddr
    ensures var t' := t.(clkcon := SetGate(t.clkcon, false));
      SetupKept(t', s) && OthersKept(t', s) && BlockRegsKept(t', s) && t'.admaaddr == s.admaaddr
  {
    GateRestored(s.clkcon);
  }

  /** Block Size, Block Count and Transfer Mode agree in `a` and `b`. */
  predicate BlockRegsKept(a: Regs, b: Regs) {
    a.blksize == b.blksize && a.blkcnt == b.blkcnt && a.trnmod == b.trnmod
  }

  /** `_sdmmc_wait_prnsts_type0` for a transaction: whether the lines become
      free in time, and the Software Reset value it leaves: a timeout
      requests the reset of both lines. */
  method AwaitLines(r: Regs, waitDat: bool, cmdPoll: Poll, datPoll: Poll) returns (ok: bool, swrst: bv8)
    ensures ok <==> cmdPoll == Ready && (waitDat ==> datPoll == Ready)
    ensures ok ==> swrst == r.swrst
    ensures !ok ==> swrst == Reset(r).swrst
  {
    var w := WaitInhibit(r, waitDat, cmdPoll, datPoll);
    ok, swrst := w.ok, w.val.swrst;
  }

  /** Whether `_sdmmc_config_dma` programs a transaction's request. */
  predicate Programmed(req: Option<Req>) {
    req.Some? && ValidReq(req.value)
  }

  /** The DMA set-up of a transaction, whose verdict is discarded: the
      block registers, the System Address and the remembered boundary it
      leaves. A request the set-up refuses is issued with no DMA
      programmed. */
  method SetupData(s: Sdmmc, req: Option<Req>) returns (blksize: bv16, blkcnt: bv16, trnmod: bv16, admaaddr: bv32, next: bv32)
    ensures Programmed(req) ==> BlockFieldsFor(blksize, blkcnt, trnmod, req.value)
    ensures Programmed(req) ==> admaaddr == req.value.buf && next == NextBoundary(req.value.buf)
    ensures !Programmed(req) ==>
      && blksize == s.regs.blksize && blkcnt == s.regs.blkcnt && trnmod == s.regs.trnmod
      && admaaddr == s.regs.admaaddr && next == s.dmaAddrNext
  {
    blksize, blkcnt, trnmod, admaaddr, next := s.regs.blksize, s.regs.blkcnt, s.regs.trnmod, s.regs.admaaddr, s.dmaAddrNext;
    if req.Some? {
      var c := ConfigDma(s, req.value);
      if c.ok {
        ConfigDmaProgrammed(s, req.value);
      }
      blksize, blkcnt, trnmod, admaaddr, next := c.val.regs.blksize, c.val.regs.blkcnt, c.val.regs.trnmod, c.val.regs.admaaddr, c.val.dmaAddrNext;
    }
  }

  /** `_sdmmc_parse_cmdbuf` for a transaction, whose verdict is discarded:
      the argument and Command values it leaves. A response type above 5
      leaves both registers alone and the transaction goes on to wait. */
  method WriteCommand(r: Regs, cmd: Cmd, dataPresent: bool) returns (argument: bv32, cmdreg: bv16)
    ensures cmd.rspType <= 5 ==> argument == cmd.arg && CmdregFor(cmdreg, cmd, dataPresent)
    ensures cmd.rspType > 5 ==> argument == r.argument && cmdreg == r.cmdreg
  {
    var p := ParseCmdbuf(r, cmd, dataPresent);
    if p.ok {
      ParseCmdbufEncodes(r, cmd, dataPresent);
    }
    argument, cmdreg := p.val.argument, p.val.cmdreg;
  }

  /** `_sdmmc_wait_request` for a transaction: whether command complete is
      seen, and the Normal Interrupt Status and Software Reset values it
      leaves; a failure requests the reset of both lines. */
  method AwaitCommand(r: Regs, status: seq<bv16>) returns (done: bool, norintsts: bv16, swrst: bv8)
    ensures done <==> CommandCompletes(status)
    ensures done ==> swrst == r.swrst
    ensures !done ==> ResetLinesSet(swrst)
  {
    var q := WaitRequest(r, status);
    done, norintsts, swrst := q.ok, q.val.norintsts, q.val.swrst;
  }

  /** The response step of a completed command: a command with a response
      type other than 0 becomes the expected type and has its response
      cached in a 16-byte buffer (the cache's verdict is discarded); a
      command without a response leaves both alone. */
  method CacheResponse(w: Sdmmc, rspType: nat) returns (rsp: Words4, expected: nat)
    ensures rspType != RspType0 ==> expected == rspType && rsp == CacheRsp(w.rsp, RawWords(w.regs), 0x10, rspType).val
    ensures rspType == RspType0 ==> expected == w.expectedRspType && rsp == w.rsp
  {
    rsp, expected := w.rsp, w.expectedRspType;
    if rspType != RspType0 {
      rsp, expected := CacheRsp(w.rsp, RawWords(w.regs), 0x10, rspType).val, rspType;
    }
  }

  /** The DMA progress step of a completed command with a request, from
      the Normal Interrupt Status, System Address and remembered boundary
      the command left: the values of those and of Software Reset it
      leaves. Its verdict is discarded: a transfer that fails or times out
      has the lines reset, but the transaction goes on. Without a request
      nothing changes. */
  method ProgressData(s: Sdmmc, status: bv16, admaaddr: bv32, next: bv32, req: Option<Req>, dmaStatus: seq<bv16>)
    returns (status': bv16, admaaddr': bv32, swrst: bv8, next': bv32)
    ensures req.Some? && !TransferCompletes(dmaStatus) ==> ResetLinesSet(swrst)
    ensures req.None? ==> status' == status && admaaddr' == admaaddr && swrst == s.regs.swrst && next' == next
  {
    status', admaaddr', swrst, next' := status, admaaddr, s.regs.swrst, next;
    if req.Some? {
      var w := s.(regs := s.regs.(norintsts := status, admaaddr := admaaddr), dmaAddrNext := next);
      var u := UpdateDma(w, dmaStatus).val;
      status', admaaddr', swrst, next' := u.regs.norintsts, u.regs.admaaddr, u.regs.swrst, u.dmaAddrNext;
    }
  }

  /** `_sdmmc_wait_prnsts_type1`, from Software Reset value `swrst`:
      whether DAT0 leaves busy in time, and the Software Reset value it
      leaves; a timeout requests the reset of both lines. */
  method AwaitDat0(r: Regs, swrst: bv8, poll: Poll) returns (ok: bool, swrst': bv8)
    ensures ok <==> poll == Ready
    ensures ok ==> swrst' == swrst
    ensures !ok ==> ResetLinesSet(swrst')
  {
    var b := WaitPrnsts(r.(swrst := swrst), poll);
    ok, swrst' := b.ok, b.val.swrst;
  }

  /** `_sdmmc_execute_cmd_inner`. It succeeds exactly when the lines are
      free in time, command complete is seen, and, for a transaction with
      data or a busy check, DAT0 leaves busy in time; every failure resets
      the command and data lines, and lines that stay busy fail before
      anything else is written. The outcome of the DMA loop and the
      verdicts of the DMA set-up and the Command register write do not
      enter the verdict. A completed command caches its response (when it
      has one) and, with a request, hands back the programmed block count,
      even when the DAT0 wait then fails. */
  method ExecuteCmdInner(s: Sdmmc, cmd: Cmd, req: Option<Req>, env: CmdEnv)
    returns (ok: bool, t: Sdmmc, blkcnt: Option<bv16>)
    ensures ok <==> LinesFree(cmd, req, env) && CommandCompletes(env.status) && (UsesDat(cmd, req) ==> env.dat0 == Ready)
    ensures !ok ==> ResetRequested(t.regs)
    ensures !LinesFree(cmd, req, env) ==> t == s.(regs := Reset(s.regs)) && blkcnt.None?
    ensures blkcnt.Some? <==> LinesFree(cmd, req, env) && CommandCompletes(env.status) && req.Some?
    ensures blkcnt.Some? ==> blkcnt.value == ProgrammedCount(req.value)
    ensures LinesFree(cmd, req, env) ==> Disarmed(t.regs)
    ensures LinesFree(cmd, req, env) && cmd.rspType <= 5 ==> CommandIssued(t.regs, cmd, req.Some?)
    ensures LinesFree(cmd, req, env) && Programmed(req) ==> BlocksProgrammed(t.regs, req.value)
    ensures req.None? ==>
      && t.regs.blksize == s.regs.blksize && t.regs.blkcnt == s.regs.blkcnt && t.regs.trnmod == s.regs.trnmod
      && t.regs.admaaddr == s.regs.admaaddr && t.dmaAddrNext == s.dmaAddrNext
    ensures LinesFree(cmd, req, env) && CommandCompletes(env.status) && cmd.rspType != RspType0 ==>
      t.expectedRspType == cmd.rspType && t.rsp == CacheRsp(s.rsp, RawWords(s.regs), 0x10, cmd.rspType).val
    ensures !(LinesFree(cmd, req, env) && CommandCompletes(env.status) && cmd.rspType != RspType0) ==>
      t.expectedRspType == s.expectedRspType && t.rsp == s.rsp
    ensures LinesFree(cmd, req, env) && CommandCompletes(env.status) && req.Some? && req.value.isAutoCmd12 ==>
      t.rsp3 == s.regs.rspreg3
    ensures !(LinesFree(cmd, req, env) && CommandCompletes(env.status) && req.Some? && req.value.isAutoCmd12) ==>
      t.rsp3 == s.rsp3
    ensures !Programmed(req) ==> BlockRegsKept(t.regs, s.regs)
    ensures SetupKept(t.regs, s.regs) && OthersKept(t.regs, s.regs)
    ensures t == s.(regs := t.regs, rsp := t.rsp, expectedRspType := t.expectedRspType,
                    rsp3 := t.rsp3, dmaAddrNext := t.dmaAddrNext)
  {
    var swrst;
    ok, swrst := AwaitLines(s.regs, UsesDat(cmd, req), env.cmdFree, env.datFree);
    if !ok {
      return false, s.(regs := s.regs.(swrst := swrst)), None;
    }
    var blksize, count, trnmod, adma, next := SetupData(s, req);
    var argument, cmdreg := WriteCommand(s.regs, cmd, req.Some?);
    var done, status;
    done, status, swrst := AwaitCommand(s.regs, env.status);
    var rsp, expected, rsp3 := s.rsp, s.expectedRspType, s.rsp3;
    ok, blkcnt := done, None;
    if done {
      rsp, expected := CacheResponse(s, cmd.rspType);
      status, adma, swrst, next := ProgressData(s, status, adma, next, req, env.dmaStatus);
      if req.Some? {
        rsp3 := if req.value.isAutoCmd12 then s.regs.rspreg3 else s.rsp3;
        blkcnt := Some(ProgrammedCount(req.value));
      }
      if UsesDat(cmd, req) {
        ok, swrst := AwaitDat0(s.regs, swrst, env.dat0);
      }
    }
    t := s.(regs := s.regs.(blksize := blksize, blkcnt := count, trnmod := trnmod, admaaddr := adma,
                            argument := argument, cmdreg := cmdreg, norintsts := status, swrst := swrst,
                            norintstsen := DisarmNormal(ArmNormal(s.regs.norintstsen)),
                            errintstsen := DisarmErrors(ArmErrors(s.regs.errintstsen))),
            rsp := rsp, expectedRspType := expected, rsp3 := rsp3, dmaAddrNext := next);
  }

  /** Raising a dropped SD clock gate and dropping it again restores Clock Control. */
  lemma GateRestored(c: bv16)
    requires !GateOn(c)
    ensures SetGate(SetGate(c, true), false) == c
  {
    PulseBits(c);
  }

  /** `_sdmmc_execute_cmd_inner` inside the clock bracket of
      `sdmmc_execute_cmd`: the SD clock gate is raised around the
      transaction when it was off and dropped again afterwards, so Clock
      Control ends as it began and the transaction's promises carry over. */
  method ClockedInner(s: Sdmmc, cmd: Cmd, req: Option<Req>, env: CmdEnv)
    returns (ok: bool, t: Sdmmc, blkcnt: Option<bv16>)
    ensures ok <==> LinesFree(cmd, req, env) && CommandCompletes(env.status) && (UsesDat(cmd, req) ==> env.dat0 == Ready)
    ensures !ok ==> ResetRequested(t.regs)
    ensures !LinesFree(cmd, req, env) ==> t == s.(regs := Reset(s.regs)) && blkcnt.None?
    ensures blkcnt.Some? <==> LinesFree(cmd, req, env) && CommandCompletes(env.status) && req.Some?
    ensures blkcnt.Some? ==> blkcnt.value == ProgrammedCount(req.value)
    ensures LinesFree(cmd, req, env) ==> Disarmed(t.regs)
    ensures LinesFree(cmd, req, env) && cmd.rspType <= 5 ==> CommandIssued(t.regs, cmd, req.Some?)
    ensures LinesFree(cmd, req, env) && Programmed(req) ==> BlocksProgrammed(t.regs, req.value)
    ensures req.None? ==>
      && t.regs.blksize == s.regs.blksize && t.regs.blkcnt == s.regs.blkcnt && t.regs.trnmod == s.regs.trnmod
      && t.regs.admaaddr == s.regs.admaaddr && t.dmaAddrNext == s.dmaAddrNext
    ensures LinesFree(cmd, req, env) && CommandCompletes(env.status) && cmd.rspType != RspType0 ==>
      t.expectedRspType == cmd.rspType && t.rsp == CacheRsp(s.rsp, RawWords(s.regs), 0x10, cmd.rspType).val
    ensures !(LinesFree(cmd, req, env) && CommandCompletes(env.status) && cmd.rspType != RspType0) ==>
      t.expectedRspType == s.expectedRspType && t.rsp == s.rsp
    ensures LinesFree(cmd, req, env) && CommandCompletes(env.status) && req.Some? && req.value.isAutoCmd12 ==>
      t.rsp3 == s.regs.rspreg3
    ensures !(LinesFree(cmd, req, env) && CommandCompletes(env.status) && req.Some? && req.value.isAutoCmd12) ==>
      t.rsp3 == s.rsp3
    ensures !Programmed(req) ==> BlockRegsKept(t.regs, s.regs)
    ensures SetupKept(t.regs, s.regs) && OthersKept(t.regs, s.regs)
    ensures t == s.(regs := t.regs, rsp := t.rsp, expectedRspType := t.expectedRspType,
                    rsp3 := t.rsp3, dmaAddrNext := t.dmaAddrNext)
  {
    var raised := !GateOn(s.regs.clkcon);
    var g := s.(regs := s.regs.(clkcon := if raised then SetGate(s.regs.clkcon, true) else s.regs.clkcon));
    ok, t, blkcnt := ExecuteCmdInner(g, cmd, req, env);
    if raised {
      GateRestored(s.regs.clkcon);
      t := t.(regs := t.regs.(clkcon := SetGate(t.regs.clkcon, false)));
    }
  }

  /** Whether `sdmmc_execute_cmd` recalibrates the pads first: SDMMC1 with
      the SD clock suppressed. */
  predicate Recalibrates(s: Sdmmc) {
    s.id == Sdmmc1 && s.noSd
  }

  /** `_sdmmc_autocal_execute` for a transaction: the Auto Calibration
      Configuration and pad control values it leaves. */
  method Recalibrate(r: Regs, done: Poll) returns (autocalcfg: bv32, sdmemcmppadctl: bv32)
    ensures CalibrationStarted(autocalcfg, r.autocalcfg, done == Ready)
    ensures ComparatorOff(sdmemcmppadctl, r.sdmemcmppadctl)
  {
    var c := AutocalExecute(r, done);
    autocalcfg, sdmemcmppadctl := c.autocalcfg, c.sdmemcmppadctl;
  }

  /** `sdmmc_execute_cmd`. An instance whose SD clock is not enabled fails
      with nothing written. Otherwise SDMMC1 with the SD clock suppressed
      recalibrates its pads, and the transaction runs inside the clock
      bracket: its verdict, block count, response cache and register
      effects are those of `_sdmmc_execute_cmd_inner`, and Clock Control
      ends as it began. */
  method ExecuteCmd(s: Sdmmc, cmd: Cmd, req: Option<Req>, env: CmdEnv)
    returns (ok: bool, t: Sdmmc, blkcnt: Option<bv16>)
    ensures !s.sdClockEnabled ==> !ok && t == s && blkcnt.None?
    ensures ok <==> s.sdClockEnabled && LinesFree(cmd, req, env) && CommandCompletes(env.status)
                    && (UsesDat(cmd, req) ==> env.dat0 == Ready)
    ensures s.sdClockEnabled && !ok ==> ResetRequested(t.regs)
    ensures blkcnt.Some? <==> s.sdClockEnabled && LinesFree(cmd, req, env) && CommandCompletes(env.status) && req.Some?
    ensures blkcnt.Some? ==> blkcnt.value == ProgrammedCount(req.value)
    ensures s.sdClockEnabled && LinesFree(cmd, req, env) ==> Disarmed(t.regs)
    ensures s.sdClockEnabled && LinesFree(cmd, req, env) && cmd.rspType <= 5 ==> CommandIssued(t.regs, cmd, req.Some?)
    ensures s.sdClockEnabled && LinesFree(cmd, req, env) && Programmed(req) ==> BlocksProgrammed(t.regs, req.value)
    ensures s.sdClockEnabled && LinesFree(cmd, req, env) && CommandCompletes(env.status) && cmd.rspType != RspType0 ==>
      t.expectedRspType == cmd.rspType && t.rsp == CacheRsp(s.rsp, RawWords(s.regs), 0x10, cmd.rspType).val
    ensures !(s.sdClockEnabled && LinesFree(cmd, req, env) && CommandCompletes(env.status) && cmd.rspType != RspType0) ==>
      t.expectedRspType == s.expectedRspType && t.rsp == s.rsp
    ensures s.sdClockEnabled && Recalibrates(s) ==>
      && CalibrationStarted(t.regs.autocalcfg, s.regs.autocalcfg, env.calibrated == Ready)
      && ComparatorOff(t.regs.sdmemcmppadctl, s.regs.sdmemcmppadctl)
    ensures !(s.sdClockEnabled && Recalibrates(s)) ==>
      t.regs.autocalcfg == s.regs.autocalcfg && t.regs.sdmemcmppadctl == s.regs.sdmemcmppadctl
    ensures s.sdClockEnabled && LinesFree(cmd, req, env) && CommandCompletes(env.status) && req.Some? && req.value.isAutoCmd12 ==>
      t.rsp3 == s.regs.rspreg3
    ensures !(s.sdClockEnabled && LinesFree(cmd, req, env) && CommandCompletes(env.status) && req.Some? && req.value.isAutoCmd12) ==>
      t.rsp3 == s.rsp3
    ensures req.None? ==>
      && t.regs.blksize == s.regs.blksize && t.regs.blkcnt == s.regs.blkcnt && t.regs.trnmod == s.regs.trnmod
      && t.regs.admaaddr == s.regs.admaaddr && t.dmaAddrNext == s.dmaAddrNext
    ensures t.regs.hostctl == s.regs.hostctl && t.regs.hostctl2 == s.regs.hostctl2 && t.regs.pwrcon == s.regs.pwrcon
    ensures !Programmed(req) ==> BlockRegsKept(t.regs, s.regs)
    ensures t.regs.clkcon == s.regs.clkcon && OthersKept(t.regs, s.regs)
    ensures t == s.(regs := t.regs, rsp := t.rsp, expectedRspType := t.expectedRspType,
                    rsp3 := t.rsp3, dmaAddrNext := t.dmaAddrNext)
  {
    if !s.sdClockEnabled {
      return false, s, None;
    }
    if Recalibrates(s) {
      var cal, pad := Recalibrate(s.regs, env.calibrated);
      ok, t, blkcnt := ClockedInner(s.(regs := s.regs.(autocalcfg := cal, sdmemcmppadctl := pad)), cmd, req, env);
    } else {
      ok, t, blkcnt := ClockedInner(s, cmd, req, env);
    }
  }

  /** The stop command, CMD12: argument 0, response type 1 with busy, no data. */
  const StopCmd: Cmd := Cmd(MmcStopTransmission as bv16, 0, RspType1, true)

  /** `_sdmmc_stop_transmission_inner`. It waits for the command line only,
      issues CMD12 with the interrupts enabled, waits for command complete
      and masks the interrupts again; a completed command hands its
      response (Response register 0) to the caller and then waits for DAT0
      to leave busy. It succeeds exactly when the command line is free in
      time, command complete is seen and DAT0 leaves busy in time; every
      failure resets the lines. The instance's response cache, expected
      response type and DMA bookkeeping are not touched. */
  method StopTransmissionInner(s: Sdmmc, env: CmdEnv) returns (ok: bool, t: Sdmmc, rsp: Option<bv32>)
    ensures ok <==> env.cmdFree == Ready && CommandCompletes(env.status) && env.dat0 == Ready
    ensures !ok ==> ResetRequested(t.regs)
    ensures env.cmdFree != Ready ==> t == s.(regs := Reset(s.regs))
    ensures rsp.Some? <==> env.cmdFree == Ready && CommandCompletes(env.status)
    ensures rsp.Some? ==> rsp.value == s.regs.rspreg0
    ensures env.cmdFree == Ready ==> CommandIssued(t.regs, StopCmd, false) && Disarmed(t.regs)
    ensures SetupKept(t.regs, s.regs) && OthersKept(t.regs, s.regs)
    ensures BlockRegsKept(t.regs, s.regs) && t.regs.admaaddr == s.regs.admaaddr
    ensures t == s.(regs := t.regs)
  {
    var swrst;
    ok, swrst := AwaitLines(s.regs, false, env.cmdFree, env.datFree);
    if !ok {
      return false, s.(regs := s.regs.(swrst := swrst)), None;
    }
    var argument, cmdreg := WriteCommand(s.regs, StopCmd, false);
    var done, status;
    done, status, swrst := AwaitCommand(s.regs, env.status);
    ok, rsp := done, None;
    if done {
      rsp := Some(s.regs.rspreg0);
      ok, swrst := AwaitDat0(s.regs, swrst, env.dat0);
    }
    t := s.(regs := s.regs.(argument := argument, cmdreg := cmdreg, norintsts := status, swrst := swrst,
                            norintstsen := DisarmNormal(ArmNormal(s.regs.norintstsen)),
                            errintstsen := DisarmErrors(ArmErrors(s.regs.errintstsen))));
  }

  /** `sdmmc_stop_transmission`: fails with nothing written when the SD
      clock is not enabled; otherwise the stop command runs with the gate
      raised when it was off, and dropped again afterwards. */
  method StopTransmission(s: Sdmmc, env: CmdEnv) returns (ok: bool, t: Sdmmc, rsp: Option<bv32>)
    ensures !s.sdClockEnabled ==> !ok && t == s && rsp.None?
    ensures ok <==> s.sdClockEnabled && env.cmdFree == Ready && CommandCompletes(env.status) && env.dat0 == Ready
    ensures s.sdClockEnabled && !ok ==> ResetRequested(t.regs)
    ensures rsp.Some? <==> s.sdClockEnabled && env.cmdFree == Ready && CommandCompletes(env.status)
    ensures rsp.Some? ==> rsp.value == s.regs.rspreg0
    ensures s.sdClockEnabled && env.cmdFree == Ready ==> CommandIssued(t.regs, StopCmd, false) && Disarmed(t.regs)
    ensures SetupKept(t.regs, s.regs) && OthersKept(t.regs, s.regs)
    ensures BlockRegsKept(t.regs, s.regs) && t.regs.admaaddr == s.regs.admaaddr
    ensures t == s.(regs := t.regs)
  {
    if !s.sdClockEnabled {
      return false, s, None;
    }
    if GateOn(s.regs.clkcon) {
      ok, t, rsp := StopTransmissionInner(s, env);
    } else {
      ok, t, rsp := StopTransmissionInner(s.(regs := s.regs.(clkcon := SetGate(s.regs.clkcon, true))), env);
      GateBracketKeeps(s.regs, t.regs);
      t := s.(regs := t.regs.(clkcon := SetGate(t.regs.clkcon, false)));
    }
  }
}
